=== FILE: README.md ===
# superannotate_core: a verified model of the SDK's request logic

The SuperAnnotate SDK core is a Python client for a remote annotation service.
Most of it is HTTP plumbing. Between the requests, though, there is logic that
decides what is sent, when it is sent again and what the caller gets back.
This project models that logic in Dafny and proves what it promises:

- **Frames** and **Streamed**: the streamed annotation endpoint and the
  `StreamedAnnotations` class. The endpoint sends JSON documents separated by a
  six-byte delimiter, and the client decodes them chunk by chunk. The decoded
  frames are proved equal to a split of the whole body, whatever the chunk
  boundaries. The class shapes the request, applies the callback, counts
  downloads and logs what it stores.
- **Retry**: the attempt loop of the asynchronous session (`AIOHttpSession.request`).
- **Session**: the synchronous session. It covers URL building,
  request shaping, the 404 re-send and the offset pager.
- **Annotations**: the annotation repository. It covers the size classifier
  with its swapped `small`/`large` keys, the query shapes, and the large-annotation
  sync loop.
- **Items**: the item repository. It covers copy-progress polling, the
  ordered quota check, the slice loops of the bulk operations, duplicate
  filtering in `attach`, and the skip-set algebra of `bulk_copy_by_names`.
- **Subsets**: what `add_items` of the subset repository reports.
- **App**: the façade. It covers folder-name sanitising, the annotation
  fan-out of `Item.alist_annotations` and `_run_download_workers`, the
  name-order re-sort of `Folder.get_annotations`, and the small decisions of
  `Item`, `Folder` and `Project`.
- **Entities**: the entity base. It covers the in-place key renaming of
  `AliasHandler`, the field and extra-key policy of `from_json`, and the
  lookup order of `_serialzie_enum`.

The network is a parameter throughout. A reply oracle, indexed by the number
of the call, says what each request gets back. JSON decoding is an abstract
partial function. Code that changes state step by step is written as Dafny
methods with loops: `fetch`'s buffer, the retry loop, `paginate`, the sync
loop, `Polling`, the slice loops, `AliasHandler.handle` and `from_json`. Each
such method is proved against a function that states its result. The
properties of the source are proved as lemmas about those functions.

Every `asyncio.gather` is evaluated as its arguments in order, one after
another, and the first failure is the failure of the gather (`App.Each`).

## Model

| member | source | states |
|---|---|---|
| Retry.AttemptStep | src/superannotate_core/infrastructure/repositories/utils.py:85-98 | One attempt: the response is returned exactly when it is OK and either the attempt is the last or its status is not in the retry set. A failure on the last attempt raises the transport or HTTP error. Any other failure tries again. The exception is a retry-set status with no `data` argument, which raises KeyError("data") |
| Retry.Retrying | src/superannotate_core/infrastructure/repositories/utils.py:79-100 | The loop makes at least one attempt and at most RETRY_LIMIT (3), and each attempt is decided by `AttemptStep` |
| Retry.Request | src/superannotate_core/infrastructure/repositories/utils.py:79-100 | The imperative loop ends with the outcome and attempt count of `Retrying`. The sleep after the i-th retried attempt is (i+1)·BACKOFF_FACTOR, so the delays grow linearly |
| Retry.ReturnsFirstOk | src/superannotate_core/infrastructure/repositories/utils.py:82-90 | If every earlier attempt tries again, an OK reply at attempt k is returned, after k+1 attempts |
| Retry.AgainUntil | src/superannotate_core/infrastructure/repositories/utils.py:82-100 | Attempts that try again do not change the loop's outcome |
| Retry.RetryBudget | src/superannotate_core/infrastructure/repositories/utils.py:79-100 | With a `data` argument, retry-set statuses are resent until an OK reply, which is returned |
| Retry.RetryExhausted | src/superannotate_core/infrastructure/repositories/utils.py:85-89 | Three retry-set replies exhaust the budget, and the last one raises as an HTTP error |
| Retry.RetryableWithoutDataRaisesKeyError | src/superannotate_core/infrastructure/repositories/utils.py:91 | Without a `data` argument, a retry-set status on a non-final attempt raises KeyError("data"). Every annotation-repository call passes no `data` |
| Retry.NonRetryableErrorIsRetried | src/superannotate_core/infrastructure/repositories/utils.py:86-99 | A non-OK status outside the retry set on the first attempt is retried, because the raised ClientResponseError is caught |
| Session.BuildUrl | src/superannotate_core/infrastructure/session.py:117-120 | A URL is kept as given exactly when it starts with "htt"; any other URL is joined to the API root |
| Session.PrepareRequest | src/superannotate_core/infrastructure/session.py:122-141 | The query always carries `team_id`, and caller params override it. `data` and `json` are sent exactly when truthy and then unchanged. URL building can be switched off |
| Session.NotFoundRetry | src/superannotate_core/infrastructure/session.py:96-115 | A 404 is resent while fewer than three resends were made, so there are at most four sends. Every send before the last got 404. A final 404 means the budget ran out. The sleep before each resend is `retried` tenths of a second |
| Session.NotFoundRetryFirst | src/superannotate_core/infrastructure/session.py:106-110 | If the first non-404 arrives at send k ≤ 3, it is returned after k+1 sends, with sleeps 0,…,k-1 |
| Session.Payload | src/superannotate_core/infrastructure/session.py:165-169 | The records of a page are the body itself when it is a list, and its `data` entry otherwise |
| Session.StopAfter | src/superannotate_core/infrastructure/session.py:170-177 | A page shorter than the chunk size stops the pager. A full page stops it exactly when `count` < offset. A full page without an integer `count` (a bare list, say) fails |
| Session.PageTurnFacts | src/superannotate_core/infrastructure/session.py:164-181 | A page that continues the loop is OK and full. A non-OK page stops with raise_for_status's HTTP error. A page that stops successfully contributes its records |
| Session.Pages | src/superannotate_core/infrastructure/session.py:151-182 | The first request is at the given offset, and there is at most one request per reply |
| Session.PagesOffsets | src/superannotate_core/infrastructure/session.py:157-175 | Each request's offset is the previous offset plus the records received, so it is the number of records gathered so far. Every page before the last was OK and full |
| Session.PagesCollect | src/superannotate_core/infrastructure/session.py:161-173 | A successful listing is the concatenation, in request order, of the records of every page requested |
| Session.PagesRaiseStatus | src/superannotate_core/infrastructure/session.py:178-181 | A non-OK last page ends the pager with that page's HTTP error |
| Session.PageUrlOffset | src/superannotate_core/infrastructure/session.py:158-162 | A page URL is the URL, "&" when the URL already holds "?" and "?" otherwise, then `offset=` and a numeral whose value is the offset |
| Json.ShowNatNumeral | src/superannotate_core/infrastructure/session.py:162 | `str(n)` of a natural number is a numeral whose value is n |
| Session.Paginate | src/superannotate_core/infrastructure/session.py:151-182 | The imperative loop returns the listing and the offsets of `Pages`. Each request URL opens its query with "&" when the URL already holds "?", and with "?" otherwise |
| Frames.FindSpec | src/superannotate_core/infrastructure/repositories/utils.py:140 | The search finds the leftmost occurrence of the delimiter at or after a position, or there is none |
| Frames.FindIsLeftmost | src/superannotate_core/infrastructure/repositories/utils.py:140 | An occurrence with none before it is the one found |
| Frames.Split | src/superannotate_core/infrastructure/repositories/utils.py:140 | `bytes.split` always gives at least one piece |
| Frames.SplitThenJoin | src/superannotate_core/infrastructure/repositories/utils.py:140 | Joining the pieces of a split with the delimiter gives back the input |
| Frames.SplitPiecesClean | src/superannotate_core/infrastructure/repositories/utils.py:140-143 | No piece of a split contains the delimiter |
| Frames.SplitAppend | src/superannotate_core/infrastructure/repositories/utils.py:139-143 | Appending bytes re-splits only the last piece; the complete pieces stay |
| Frames.FindExtends | src/superannotate_core/infrastructure/repositories/utils.py:139-140 | An occurrence found in the buffer stays the leftmost once a chunk is appended |
| Frames.DecodeStep | src/superannotate_core/infrastructure/repositories/utils.py:139-143 | After each chunk, the frames emitted so far plus the retained buffer are the split of everything received, and the buffer holds no delimiter |
| Frames.DecodeEnd | src/superannotate_core/infrastructure/repositories/utils.py:144-145 | At the end of the stream the remainder is emitted exactly when it is non-empty |
| Frames.DecodeFrames | src/superannotate_core/infrastructure/repositories/utils.py:138-145 | The buffer loop emits the frames of the concatenated body, whatever the chunk boundaries |
| Frames.FramesAreClean | src/superannotate_core/infrastructure/repositories/utils.py:140-145 | No emitted frame contains the delimiter |
| Frames.EmptyInnerFrameKept | src/superannotate_core/infrastructure/repositories/utils.py:141-145 | An empty piece between two delimiters is still handed to the parser; only a final empty remainder is skipped |
| Frames.SplitJoin | src/superannotate_core/infrastructure/repositories/utils.py:140 | Splitting documents joined by the delimiter gives the documents back, when none holds a delimiter that the join could create |
| Frames.FrameRoundTrip | src/superannotate_core/infrastructure/repositories/utils.py:138-145 | Non-empty framable documents, joined with or without a trailing delimiter, decode to exactly those documents |
| Frames.TrailingDelimiter | src/superannotate_core/infrastructure/repositories/utils.py:140 | A trailing delimiter leaves a final empty piece |
| Frames.ObjectFramable | src/superannotate_core/infrastructure/repositories/utils.py:110 | A JSON object (ending in `}`) without the delimiter inside can be framed by the six-byte delimiter |
| Streamed.ShapeRequest | src/superannotate_core/infrastructure/repositories/utils.py:132-136 | `folder_id` moves out of the query into the body. A truthy payload is merged over it and wins on clashes. A truthy payload that is not a dict fails |
| Streamed.ParseFrames | src/superannotate_core/infrastructure/repositories/utils.py:141-145 | Frames are parsed in order until the first that does not parse, which raises |
| Streamed.StreamedAnnotations.constructor | src/superannotate_core/infrastructure/repositories/utils.py:112-122 | A new stream has no annotations, no downloads and no stored files |
| Streamed.StreamedAnnotations.ProcessData | src/superannotate_core/infrastructure/repositories/utils.py:217-220 | The map function is applied only to a non-empty id list when there is one; otherwise the ids are sent as they are |
| Streamed.StreamedAnnotations.Fetch | src/superannotate_core/infrastructure/repositories/utils.py:124-145 | A request that cannot be shaped or sent raises its error. Otherwise the documents are the parsed frames of the whole body, and a frame that does not parse raises |
| Streamed.StreamedAnnotations.ListAnnotations | src/superannotate_core/infrastructure/repositories/utils.py:147-175 | `limit` is the number of ids, set on a copy of the caller's params. The result has one entry per frame, in stream order, equal to `callback(doc)` when there is a callback. A frame that does not parse fails the call |
| Streamed.StreamedAnnotations.ApplyAll | src/superannotate_core/infrastructure/repositories/utils.py:171-173 | Each document is passed through the callback, in order |
| Streamed.StreamedAnnotations.StoreAll | src/superannotate_core/infrastructure/repositories/utils.py:200-215 | Each document is stored under its metadata name and counted, in order. The file log and `_annotations` only grow, by the leading documents. A document without a name raises after it has been appended but before it is counted |
| Streamed.StreamedAnnotations.DownloadAnnotations | src/superannotate_core/infrastructure/repositories/utils.py:177-208 | It succeeds exactly when the request goes through, every frame parses and every document has a name. Then the counter grows by one per document, one file is stored per document, and `_annotations` gains every document through the callback. On any outcome the file log and `_annotations` keep their old contents and gain only the leading documents. A request that fails stores nothing |
| Streamed.StreamedAnnotations.StoreFetched | src/superannotate_core/infrastructure/repositories/utils.py:193-207 | It stores the yielded documents, then raises the stream's exception if there was one. It succeeds exactly when there was none and every document has a name. With no documents nothing changes |
| Streamed.ParseExtends | src/superannotate_core/infrastructure/repositories/utils.py:141-142 | A frame that parses extends the documents by its value |
| Streamed.ParseStops | src/superannotate_core/infrastructure/repositories/utils.py:141-142 | The first frame that does not parse stops the stream |
| Streamed.LoneDelimiterFails | src/superannotate_core/infrastructure/repositories/utils.py:140-145 | A body that is one delimiter yields an empty frame, which the parser rejects |
| Annotations.ClassifyRequest | src/superannotate_core/infrastructure/repositories/annotation_repository.py:29-39 | The classification request is a POST to the given URL. Its query is `limit` = number of ids plus `team_id`, and its body is exactly `project_id` and `item_ids` |
| Annotations.PickData | src/superannotate_core/infrastructure/repositories/annotation_repository.py:43 | The client's large list is the `data` of each value of the server's `small` map, in map order. A value without `data` fails |
| Annotations.SortBySize | src/superannotate_core/infrastructure/repositories/annotation_repository.py:26-45 | A non-OK reply raises. Otherwise client `small` is the server's `large` list verbatim, and client `large` the `data` of each server `small` value. Missing keys give empty results |
| Annotations.NothingToSort | src/superannotate_core/infrastructure/repositories/annotation_repository.py:42-45 | An OK reply without either key classifies nothing |
| Annotations.StreamedRequestShape | src/superannotate_core/infrastructure/repositories/annotation_repository.py:54-61 | Through the streamed request shaping, `folder_id` moves into the body and the ids become `{"image_ids": ids}` |
| Annotations.ListAnnotations | src/superannotate_core/infrastructure/repositories/annotation_repository.py:47-69 | The list query carries `team_id` and `project_id`; `folder_id` and the ids are in the body. The result is one callback-applied document per frame |
| Annotations.DownloadSmallAnnotations | src/superannotate_core/infrastructure/repositories/annotation_repository.py:132-156 | The download query omits `team_id`. Each document is stored under its metadata name after the callback |
| Annotations.StatusOf | src/superannotate_core/infrastructure/repositories/annotation_repository.py:102-106 | A poll is a plain GET without retry: a failed request raises TransportError, a body that is not JSON raises ParseError, and otherwise the body's "status" is read |
| Annotations.SyncPolls | src/superannotate_core/infrastructure/repositories/annotation_repository.py:102-106 | The poll loop ends only on a status of "SUCCESS", which it returns |
| Annotations.SyncPollsBefore | src/superannotate_core/infrastructure/repositories/annotation_repository.py:102-105 | Every poll before the last read a status other than "SUCCESS" |
| Annotations.SyncPollsFirstSuccess | src/superannotate_core/infrastructure/repositories/annotation_repository.py:102-107 | The first poll that reports "SUCCESS" ends the loop |
| Annotations.SyncLargeAnnotation | src/superannotate_core/infrastructure/repositories/annotation_repository.py:71-107 | The start request carries the sync params. The polls use them without `current_source` and `desired_source`. Every poll is followed by a sleep, including the last |
| Annotations.GetLargeAnnotation | src/superannotate_core/infrastructure/repositories/annotation_repository.py:109-130 | The fetch is sent exactly once, and only after the sync reported "SUCCESS". Its query is `annotation_type` "MAIN" plus the session's annotation version |
| Items.IntOf | src/superannotate_core/infrastructure/repositories/item_repository.py:43 | Python's `int` on a decoded value. Integers and booleans convert. A string converts when, once stripped of whitespace, it is an optional sign and base-10 digits with single underscores between digits; any other string raises ValueError, and null, lists and objects raise TypeError |
| Items.IntOfShow | src/superannotate_core/infrastructure/repositories/item_repository.py:43 | `int(str(n)) == n` for every integer |
| Items.IntOfSigned | src/superannotate_core/infrastructure/repositories/item_repository.py:43 | `"-3"`, `"+2"` and `" 5\n"` convert to -3, 2 and 5 |
| Items.IntOfGrouped | src/superannotate_core/infrastructure/repositories/item_repository.py:43 | `"1_0"` converts to 10 |
| Items.IntOfRefused | src/superannotate_core/infrastructure/repositories/item_repository.py:43 | `"1__0"`, `"_1"`, `"- 3"` and the empty string raise ValueError |
| Items.Polling.constructor | src/superannotate_core/infrastructure/repositories/item_repository.py:36-40 | A poller starts with cursor 0 and the given threshold |
| Items.Polling.Update | src/superannotate_core/infrastructure/repositories/item_repository.py:42-50 | The cursor grows by `int(v)`, and the result is 1 exactly when the cursor has reached the threshold |
| Items.RoundOf | src/superannotate_core/infrastructure/repositories/item_repository.py:290-302 | One progress round adds both `done` and `skipped` to the cursor and is finished exactly when the threshold is reached |
| Items.AwaitFrom | src/superannotate_core/infrastructure/repositories/item_repository.py:286-306 | A wait that returns always returns True, once the cursor reaches the threshold or the budget of 0.3 s per item is spent |
| Items.AwaitTimesOut | src/superannotate_core/infrastructure/repositories/item_repository.py:286-306 | A copy that makes no progress still returns True once the budget is spent |
| Items.PollRound | src/superannotate_core/infrastructure/repositories/item_repository.py:290-303 | A round moves the poller's cursor to the round's cursor |
| Items.AwaitCopy | src/superannotate_core/infrastructure/repositories/item_repository.py:286-306 | The imperative loop gives the result, final cursor, elapsed time and round count of `AwaitFrom` |
| Items.ValidateLimitations | src/superannotate_core/infrastructure/repositories/item_repository.py:73-99 | Quotas are checked folder first, then project, then user. It succeeds exactly when each enabled folder and project quota is readable and not exceeded, and the user quota is disabled, absent, or readable and not exceeded. The user error is raised exactly when the folder and project pass and the count exceeds a readable user quota. A failed lookup or read raises that failure, in check order. A quota of `true` or `false` compares as 1 or 0, and any other non-int quota raises TypeError |
| Items.Remaining | src/superannotate_core/infrastructure/repositories/item_repository.py:87 | A quota is read as an int, a boolean as 0 or 1, and anything else that is present raises TypeError |
| Items.BoolQuotaCompares | src/superannotate_core/infrastructure/repositories/item_repository.py:86-89 | With a folder quota of `true`, one attachment passes and two raise the folder limit error |
| Items.ListOf | src/superannotate_core/infrastructure/repositories/item_repository.py:144-145 | A non-OK reply raises its HTTP error before the list is read |
| Items.GatherAll | src/superannotate_core/infrastructure/repositories/item_repository.py:134-146 | The listing succeeds exactly when every chunk's reply does. Otherwise it fails with the first failing reply's error. Replies are concatenated in request order |
| Items.ChunkedGather | src/superannotate_core/infrastructure/repositories/item_repository.py:135-145 | The loop sends consecutive slices of at most the chunk size. It sends every slice when it succeeds, and its result is the gathered replies of the slices sent. On failure the last slice sent is the one whose reply failed, and every earlier reply succeeded |
| Items.ListByIds | src/superannotate_core/infrastructure/repositories/item_repository.py:128-146 | Ids are sent in consecutive slices of 2000 that cover the input, and the `images` lists are concatenated in order. A failure comes from the reply to the last slice sent |
| Items.ListByNames | src/superannotate_core/infrastructure/repositories/item_repository.py:148-169 | Names are sent in consecutive slices of 200 that cover the input, and the replies are concatenated in order. A failure comes from the reply to the last slice sent |
| Items.BulkMoveByNames | src/superannotate_core/infrastructure/repositories/item_repository.py:308-343 | Without names, the folder's listing is moved. The quota check comes first. The result is the concatenation of each slice's `skipped` list. A failure after the quota check comes from the reply to the last slice sent |
| Items.SuccessSumCounts | src/superannotate_core/infrastructure/repositories/item_repository.py:421-435 | The result is the sum of each slice's `successCount` |
| Items.AssignItems | src/superannotate_core/infrastructure/repositories/item_repository.py:411-435 | Names are sent in slices of 500, and the result is the summed `successCount` of the slices sent. On failure every earlier slice's reply was summed |
| Items.Fresh | src/superannotate_core/infrastructure/repositories/item_repository.py:191-201 | A slice sends exactly its attachments whose name was not found existing |
| Items.SelectFresh | src/superannotate_core/infrastructure/repositories/item_repository.py:192-201 | The loop selects the fresh attachments of a slice |
| Items.AttachNeverResends | src/superannotate_core/infrastructure/repositories/item_repository.py:190-202 | No attachment is sent whose name was found existing in this or any earlier slice |
| Items.Attach | src/superannotate_core/infrastructure/repositories/item_repository.py:171-216 | The quota check raises before anything is sent. Slices of 500 are sent in order. `attached` lists the names of the slices whose reply was OK, and `duplicated` the names found existing |
| Items.AttachSlices | src/superannotate_core/infrastructure/repositories/item_repository.py:183-216 | The slice loop keeps the record of what each slice found and sent |
| Items.AttachSlice | src/superannotate_core/infrastructure/repositories/item_repository.py:184-215 | One slice looks its names up, sends the fresh ones and extends `attached` when the reply is OK |
| Items.Unique | src/superannotate_core/infrastructure/repositories/item_repository.py:255 | The names to copy hold each name once, and exactly the names that exist and are not skipped |
| Items.LookupDestination | src/superannotate_core/infrastructure/repositories/item_repository.py:247-254 | The destination is asked about every slice of 500 names, and the set found is the union of the replies |
| Items.CopyChunks | src/superannotate_core/infrastructure/repositories/item_repository.py:262-283 | Names are copied in slices of 500. Each slice's poller has the slice length as threshold, and its wait answered before the next slice. On failure, the last slice recorded is the one whose request, `poll_id` or wait failed, with that error |
| Items.CopySlice | src/superannotate_core/infrastructure/repositories/item_repository.py:266-283 | One slice copies exactly when its reply is OK, carries a `poll_id` and the wait for the slice length finishes. A reply that is not OK raises its HTTP error |
| Items.BulkCopyByNames | src/superannotate_core/infrastructure/repositories/item_repository.py:218-284 | `skipped` is (requested − existing in the source) ∪ (names already in the destination). The names copied are the existing ones not skipped, so they are disjoint from `skipped`. They pass the quota check and are copied in slices. A failure before any copy is the failing destination lookup or the quota error. A failure after copies began is the last slice's copy error |
| Subsets.SetOf | src/superannotate_core/infrastructure/repositories/subset_repository.py:54 | `set()` of a decoded value: a string gives its one-character strings, an object its keys, a list of hashable values its elements up to Python equality (`True == 1`). Null, numbers, booleans and lists holding lists or objects raise TypeError |
| Subsets.AddItems | src/superannotate_core/infrastructure/repositories/subset_repository.py:30-56 | A non-OK reply reports every requested id as skipped. Otherwise `succeeded` is the requested ids minus the members of the `set()` of `skipped` and of `failed`, and the server's values are passed on as sent |
| Subsets.AddItemsPartition | src/superannotate_core/infrastructure/repositories/subset_repository.py:53-55 | On an OK reply, `succeeded` is a subset of the requested ids. A requested id succeeds exactly when no element of the skipped or failed list equals it in Python. A string or object value names no id |
| Subsets.SetOfMentions | src/superannotate_core/infrastructure/repositories/subset_repository.py:54 | An id is in the `set()` of a value exactly when the value is a list with an element equal to it in Python |
| Subsets.AddItemsBoolSkips | src/superannotate_core/infrastructure/repositories/subset_repository.py:53-55 | `True` among the skipped ids drops item 1, since `1 == True` |
| Subsets.AddItemsRejected | src/superannotate_core/infrastructure/repositories/subset_repository.py:49-50 | A rejected call succeeds for no id and skips all of them |
| Json.Get | src/superannotate_core/infrastructure/session.py:169 | Indexing a decoded dict gives the entry. A missing key raises KeyError, and a non-dict raises TypeError |
| Json.ChunksSpec | src/superannotate_core/infrastructure/repositories/item_repository.py:183-184 | Fixed-size slicing gives non-empty slices of at most the size, all full but the last, that concatenate to the input |
| App.Underscored | src/superannotate_core/app/__init__.py:753-755 | Each special character is replaced by `_`, position by position, and the length is kept |
| App.CleanFolderName | src/superannotate_core/app/__init__.py:750-763 | It raises exactly when the name is longer than 80. Otherwise it replaces every special character with `_` and keeps every other character, so the length is unchanged, and a clean name is returned unchanged |
| App.CleanFolderNameIdempotent | src/superannotate_core/app/__init__.py:750-763 | Cleaning a cleaned name changes nothing |
| App.Attribute | src/superannotate_core/app/__init__.py:193 | Looking a method up on the repository succeeds exactly for the names it defines |
| App.EachSpec | src/superannotate_core/app/__init__.py:206-235 | A gather succeeds exactly when every awaitable does, and otherwise fails with the first failure |
| App.EachAppend | src/superannotate_core/app/__init__.py:206-235 | Gathering a concatenation is gathering the parts in order |
| App.GatherBatch | src/superannotate_core/app/__init__.py:210-220 | The loop over one batch gives the gather's result |
| App.GatherInBatches | src/superannotate_core/app/__init__.py:206-221 | Batching the awaitables in fixed-size gathers gives the same result as one gather in order |
| App.EachOne | src/superannotate_core/app/__init__.py:210-221 | Gathering single results gives one value per input, in order |
| App.IdsOf | src/superannotate_core/app/__init__.py:201 | The id of each entry in order; an entry without an id raises |
| App.ChunkIds | src/superannotate_core/app/__init__.py:201 | A list chunk gives its entries' ids. The empty string and the empty dict iterate to nothing and give no ids. Any other value raises TypeError, since a string's characters and a dict's keys cannot be indexed by "id" |
| App.SmallIdChunks | src/superannotate_core/app/__init__.py:199-201 | A list gives one id chunk per server chunk, in order, and succeeds exactly when every chunk does. An empty string gives no chunks. A dict gets through only when its one key, if any, is "", which gives one empty chunk. Anything else raises TypeError |
| App.EmptyChunksGiveNoIds | src/superannotate_core/app/__init__.py:199-201 | Empty string, dict and list chunks give empty id lists; a non-empty string raises TypeError |
| App.LargeIdSet | src/superannotate_core/app/__init__.py:198 | The large ids are the hash keys of the entries' ids, so `true` stands for 1. It succeeds exactly when every entry has a hashable id. Otherwise the first entry without one raises, TypeError for an unhashable id |
| App.LargeIdTrueIsOne | src/superannotate_core/app/__init__.py:198-205 | A large id `true` selects item 1, and a list id raises TypeError |
| App.LargeItems | src/superannotate_core/app/__init__.py:203-205 | The large items are exactly the input items whose id is in the large set, in input order. Python's `in` on the set holds for an int id exactly when the id is among the hash keys |
| App.LargeItemsAppend | src/superannotate_core/app/__init__.py:203-205 | Selecting large items commutes with concatenation, so input order is kept |
| App.Classified | src/superannotate_core/app/__init__.py:198-201 | Classification yields the hash keys of the large ids and the small id chunks. It fails when either cannot be read, the large ids first. An unhashable large id raises TypeError |
| App.AListComposition | src/superannotate_core/app/__init__.py:185-236 | The result is the large items' annotations, in input order, followed by the small chunks' annotations in chunk order |
| App.AListAnnotations | src/superannotate_core/app/__init__.py:185-236 | Large items are gathered in batches of max(8 // 2, 2) = 4 and small chunks in batches of 8, and the result is the composition above |
| App.AListClassifierMismatch | src/superannotate_core/app/__init__.py:193-195 | Under the name it calls, the classifier is missing and every call raises AttributeError. Under the defined name the call is `AList` |
| App.DownloadBatchSpec | src/superannotate_core/app/__init__.py:268-280 | A batch of small downloads succeeds exactly when every chunk's ids can be read and its download succeeds |
| App.DownloadBatchesSpec | src/superannotate_core/app/__init__.py:267-280 | The download batches succeed exactly when every chunk downloads |
| App.DownloadBatchesPrefix | src/superannotate_core/app/__init__.py:267-280 | A failing batch ends the run |
| App.WorkersSpec | src/superannotate_core/app/__init__.py:239-280 | Any large item fails the download, because the repository has no `download_large_annotation`. Otherwise the download succeeds exactly when every small chunk downloads |
| App.RunBatches | src/superannotate_core/app/__init__.py:267-280 | The loop runs the batches in order, stops at the first failure and gives the result of `DownloadBatches` |
| App.RunDownloadWorkers | src/superannotate_core/app/__init__.py:239-280 | The workers run the small chunks in gathers of at most 8 and give the result of `Workers` |
| App.ADownloadLargeItemFails | src/superannotate_core/app/__init__.py:250-265 | An item the server classifies as large makes the download raise AttributeError |
| App.ADownloadAnnotations | src/superannotate_core/app/__init__.py:283-312 | The download classifies, then runs the workers, in gathers of at most 8. It models the intended classifier call; as written the call raises AttributeError (Findings, row 1) |
| App.ADownloadClassifierMismatch | src/superannotate_core/app/__init__.py:293-295 | Under the name it calls, the download raises AttributeError. Under the defined name it is `ADownload` |
| App.NameIndex | src/superannotate_core/app/__init__.py:617 | The index of a requested name is its last position in the list |
| App.SortBySpec | src/superannotate_core/app/__init__.py:618-620 | The sort is a permutation, ordered by key, and stable: items with equal keys keep their order |
| App.SortByKeeps | src/superannotate_core/app/__init__.py:618-620 | The sort is a permutation of its input |
| App.SortBySorts | src/superannotate_core/app/__init__.py:618-620 | The sort's output is ordered by key |
| App.SortByStable | src/superannotate_core/app/__init__.py:618-620 | Items with equal keys keep their relative order |
| App.Rank | src/superannotate_core/app/__init__.py:619 | A document's rank is the index of its requested name. A name that cannot be hashed raises TypeError, and a missing metadata or name raises its lookup error |
| App.ByNameOrderSpec | src/superannotate_core/app/__init__.py:615-620 | Re-sorting by name succeeds exactly when every document's name was requested. It is a stable permutation ordered by the name's index. A failure is the first document's rank error |
| App.UnhashableNameRaises | src/superannotate_core/app/__init__.py:619 | A document whose name is a list makes the re-sort raise TypeError |
| App.GetAnnotations | src/superannotate_core/app/__init__.py:595-621 | No items give no annotations. Without names the listing is returned as is. With names it is re-sorted into the requested order, and a document whose name is not requested raises KeyError, or TypeError when the name cannot be hashed. It goes through the intended classifier of `alist_annotations` (Findings, row 1); as written, a non-empty item list raises AttributeError |
| App.ListItemsCall | src/superannotate_core/app/__init__.py:155-182 | Ids are preferred, then names, then a condition that always carries `project_id` and `folder_id` |
| App.GetItem | src/superannotate_core/app/__init__.py:101-130 | An int key fetches by id, and any other non-string key is rejected. A string key needs a folder and gives the first listed item with that name |
| App.BulkDelete | src/superannotate_core/app/__init__.py:391-416 | The given ids are deleted, or else the ids found; nothing is deleted when there are none |
| App.BulkDeleteIgnoresGivenIds | src/superannotate_core/app/__init__.py:402-416 | As written, given ids are never deleted. Without given ids, as written and corrected agree |
| App.BulkDeleteCounterexample | src/superannotate_core/app/__init__.py:402-416 | Deleting `[7]` as written sends nothing |
| App.AssignTarget | src/superannotate_core/app/__init__.py:695-707 | The repository is called exactly when one requested user is among the project's users, and then with the full requested list. A project user without a hashable `user_id` raises |
| App.NamedSpec | src/superannotate_core/app/__init__.py:822-825 | The folders deleted are exactly the existing folders whose name is listed, one per match |
| App.DeleteFolders | src/superannotate_core/app/__init__.py:819-830 | The delete is sent exactly when some existing folder's name is listed, with exactly those ids in folder order. A 4xx or 5xx reply to it raises its HTTP error (`raise_for_status` in `bulk_delete`, src/superannotate_core/infrastructure/repositories/folder_repository.py:58-64). Otherwise the number of those folders is returned |
| App.FolderByName | src/superannotate_core/app/__init__.py:797-807 | The first listed folder with the name is returned; none raises "Folder not found." |
| App.DownloadProject | src/superannotate_core/app/__init__.py:898-918 | Folders are downloaded in turn. The root folder uses the path itself and any other folder the path plus `/name`. The first failure ends the run |
| App.GetFolder | src/superannotate_core/app/__init__.py:921-929 | An int key fetches by id, and any other non-string key is rejected. A string key finds a folder of that name, with "" meaning "root" |
| App.GetFolderEmptyIsRoot | src/superannotate_core/app/__init__.py:924-927 | The empty name looks up "root" |
| Entities.Swapped | src/superannotate_core/core/entities/base.py:50 | Each pair is reversed, in order |
| Entities.InvertedSwaps | src/superannotate_core/core/entities/base.py:50 | With distinct targets, the reversed dict is the swapped pairs |
| Entities.InvertedTwice | src/superannotate_core/core/entities/base.py:50 | Reversing a one-to-one mapping twice gives it back |
| Entities.AliasHandler.constructor | src/superannotate_core/core/entities/base.py:21-28 | The handler keeps its mapping |
| Entities.AliasHandler.Handle | src/superannotate_core/core/entities/base.py:30-58 | The dict is renamed in place and returned. With `raise_exception`, the first absent key raises and the earlier renames stay applied |
| Entities.RenamedOthers | src/superannotate_core/core/entities/base.py:52-57 | Keys the mapping does not name are untouched |
| Entities.RenamedIndependent | src/superannotate_core/core/entities/base.py:52-57 | Each present source key's value moves to its target, and the source key is removed. Absent source keys are skipped and other keys kept |
| Entities.RenamedAllPresent | src/superannotate_core/core/entities/base.py:52-57 | When every source key is present, raising or not makes no difference |
| Entities.RenamedRaises | src/superannotate_core/core/entities/base.py:52-55 | The first absent source key raises KeyError, with the earlier pairs applied |
| Entities.RenameRoundTrip | src/superannotate_core/core/entities/base.py:47-57 | Renaming and then renaming back by the reversed mapping gives the dict back |
| Entities.ReadFieldsSpec | src/superannotate_core/core/entities/base.py:160-173 | Each declared field takes the input value or None, and is popped from the input. Falsy values are stored without coercion, and attributes already set are kept |
| Entities.FromJsonKeys | src/superannotate_core/core/entities/base.py:153-179 | Leftover keys become attributes only when `extra` is "allow" |
| Entities.AliasNeverApplied | src/superannotate_core/core/entities/base.py:155-157 | As written, the alias handler that entities declare under `Meta` is never applied, so `imageCount` does not reach `item_count` |
| Entities.FromJson | src/superannotate_core/core/entities/base.py:153-179 | The imperative `from_json` gives the attributes and the leftover input of `FromJsonSpec` |
| Entities.Canonical | src/superannotate_core/core/entities/base.py:91 | The member a name stands for is the first member whose value equals its own in Python, so an alias gives the member it aliases |
| Entities.SerializeEnum | src/superannotate_core/core/entities/base.py:86-94 | The result is always a canonical member: no earlier member has a value equal to its own, so an alias is never returned |
| Entities.SerializeEnumByName | src/superannotate_core/core/entities/base.py:88-91 | A value that names a member gives the canonical member that name stands for |
| Entities.SerializeEnumByValue | src/superannotate_core/core/entities/base.py:92-93 | Other values give the first member whose value equals them in Python (`True == 1`). When there is none, ValueError is raised |
| Entities.SerializeEnumMember | src/superannotate_core/core/entities/base.py:87-94 | An enum member is unwrapped to its value and gives the canonical member for it, unless a member is named after that value |
| Entities.SerializeEnumAliases | src/superannotate_core/core/entities/base.py:87-94 | With `A = 1`, `B = 2`, `C = 1`: the name "C", the value 1 and `True` all give `A`, and `False` raises ValueError |

## Left out

- Transport: every reply is a parameter. The following are not modelled:
  - aiohttp and requests;
  - `TCPConnector`, `TIMEOUT` and the HTTP adapters;
  - the requests-level `Retry` configuration;
  - the session cache keyed on thread and time;
  - the `User-Agent` and file-upload headers.

  A transport error in a retried request is one `ConnectionFailed` reply. A sync status poll is a `Poll`, whose `PollFailed` case raises TransportError.
- `_copy_form_data`: a FormData body is only told apart from other bodies. Its copying and stream rewinding are not modelled.
- `urljoin` is not computed. A joined URL keeps the API root and the path side by side (`Session.Url`).
- `json.loads` on a frame and `response.json()` on an aiohttp reply are an abstract partial function: a frame or a sync poll body that is not JSON raises ParseError. Decoded values are `Json.Value`, and a dict is a map.
- Annotations.SortBySize, Items.ListOf, Items.GatherAll, Items.ListByIds, Items.ListByNames, Items.RoundOf, Items.AwaitCopy, Items.CopySlice, Items.BulkMoveByNames, Items.AssignItems, Subsets.AddItems, Session.Paginate: a reply from the requests session (`Session.Response`) carries a decoded JSON body. `response.json()` raising JSONDecodeError on a reply whose body is not JSON is not modelled, so their "succeeds exactly when" clauses hold for JSON bodies only.
- Streamed.ShapeRequest: only dict payloads are merged. `dict.update` also takes a list of key/value pairs and raises ValueError on a string, where the model reports TypeError for every truthy non-dict. The core only passes dicts built as `{"image_ids": ids}`.
- App.Rank: a hashable name that is not a string raises `KeyError("")`; Python's KeyError would carry the value itself, which a string-keyed KeyError cannot hold.
- Dict key order is lost. Where the source's result depends on it, the order is a parameter: the order of the server's `small` map (`Annotations.PickData`). The alias mapping is a sequence of pairs.
- Items.Unique: `list(set(...))` in `bulk_copy_by_names` has hash order in Python. The model keeps the first occurrence of each name instead, and states only which names there are and that each appears once. `skipped` and `Subsets.Added.succeeded` are sets.
- Paging and the sync poll loop have no iteration bound in the source. The model reads a finite sequence of replies and reports `OutOfReplies` when they run out. This state exists only in the model.
- Floats and clocks:
  - delays count in units of BACKOFF_FACTOR (0.3 s);
  - the 404 re-send and `await_copy` clocks count in tenths of a second;
  - the time each progress request takes is a parameter;
  - logging is left out.
- `_store_annotation` writes no file. It appends a `StoredFile` record (path, name, document) to a log.
- StreamedAnnotations.Fetch: the body is the whole sequence of received chunks, and parsing follows decoding. So a stream that breaks part-way through is not modelled.
- Streamed.StreamedAnnotations.DownloadAnnotations: a failure part-way through storing leaves the earlier files written. On any outcome the contract states that the counter, the file log and the annotations only grow, and that what they gain is the leading documents, each with its callback applied. The exact number of files written before a failure is not stated, only its bounds. The callback is pure, as for StoreAll below.
- Items.IntOf: only ASCII whitespace and the ASCII digits 0-9 are taken. Python also strips Unicode whitespace and converts other Unicode decimal digits. JSON floats are not modelled.
- Session.PageTurn, Session.Paginate, Items.ListOf: `list.extend` accepts any iterable. A page that is a string adds its characters, and one that is an object adds its keys. The model takes only list pages and reports any other truthy page as a TypeError. Object key order is lost (see above), so the keys could not be listed in order. `count` must be an integer, where Python's subtraction would also take a boolean.
- Items.SuccessSum: `successCount` must be an integer, where `+=` would also take a boolean.
- `chunkify` lives in core/utils.py, which is not part of this model. It is taken to cut consecutive slices of the given size (`Json.Chunks`), like the `range` loops of the repositories.
- The `Condition` builder (core/conditions.py) is not part of this model. A condition is the set of its equality clauses, and `get_as_params_dict` is not modelled.
- The quota error messages come from a constants module that is not part of this model. The errors carry the constants' names.
- App.GetItem: the `include_custom_metadata` flag and the extra condition clauses of `Item.get` are not modelled. `_from_entity(None)` is the AttributeError it raises.
- App.DownloadProject: `Folder.download_annotations` is a parameter, its outcome for a folder and a path. A `Path`-typed download path, where `+=` behaves differently, is not modelled; the path is a string.
- Entities.FromJson: the coercion of each field by its type annotation is an abstract function. This covers the dispatch on `typing` forms and the `_serialzie_enum` call for enum fields.
- `BaseEntity.dict`, `to_json`, `_from_entity`, `__init__` and the session property rely on reflection, and are not modelled.
- Entities.SerializeEnum: an enum is a sequence of (name, value) members whose values are hashable. The `annotation(val)` call that the source tries after the name lookup is the lookup by value, with Python's equality on hashable values (`True == 1`). The linear search that `Enum` falls back to for an unhashable member value is not modelled; an unhashable argument raises TypeError.
- Streamed.StreamedAnnotations.StoreAll: the callback is a pure function of the document (`Apply`). In the source it is called twice on the same dict, once for the stored file and once for `_annotations`, and may mutate it; the entry in `_annotations` also aliases the dict that was stored. A callback with side effects, and what a second call does to a dict the first call changed, are not modelled.
- Streamed.StreamedAnnotations.StoreFetched: the callback is pure, as for StoreAll.
- Items.Attach: an `Attachment` always has a name and a url. The KeyError raised for an attachment dict without "name" (item_repository.py:188) or, for a fresh one, without "url" (item_repository.py:195) is not modelled.
- Repository operations outside the core are not modelled:
  - `set_statuses`, `set_approval_statuses`, `unassign_items`, `get_by_id`, `list` and `update`;
  - the thin façade wrappers that call them;
  - the folder, project, class, setting and limit repositories.
- Thread and event-loop bridging (`AsyncThread`, `run_async`) is not modelled. The interleaving of `asyncio.gather` is not modelled either: gathers run in order.

## Findings

| source | as written | input that shows it | evidently intended | confidence | as-written member | corrected member |
|---|---|---|---|---|---|---|
| src/superannotate_core/app/__init__.py:193-195 | `alist_annotations` and `adownload_annotations` call `sort_annotations_by_size`, but the repository defines `sort_annotatoins_by_size` (src/superannotate_core/infrastructure/repositories/annotation_repository.py:26), so both raise AttributeError before any request | any call with a non-empty item list | call the classifier the repository defines | not executed | App.AListClassifierMismatch | App.AListAnnotations |
| src/superannotate_core/app/__init__.py:402-416 | `bulk_delete` sends the delete only inside the branch for an empty `item_ids`, so ids passed by the caller are never deleted | `item_ids=[7]`: no delete request is sent | delete the given ids, or else the ids found by name | not executed | App.BulkDeleteCounterexample | App.BulkDelete |
| src/superannotate_core/core/entities/base.py:155-157 | `from_json` looks for a class attribute `ALIAS_HANDLER`, while the entities declare their handler as `Meta.alias_handler` (src/superannotate_core/core/entities/project.py:60-67), so the renaming never happens | a schema declaring `item_count` with `Meta.alias_handler` mapping `imageCount` → `item_count`, decoding `{"imageCount": 5}`: `item_count` stays None. The project entity itself does not declare `item_count`, so for it the difference is only the unrenamed key left in the input | apply the declared alias handler before reading the fields | not executed | Entities.AliasNeverApplied | Entities.FromJson |

=== FILE: annotations.dfy ===
/** `AnnotationRepository` (infrastructure/repositories/annotation_repository.py):
    classifying items by annotation size, the queries of the streamed list and
    download calls, and syncing then fetching one large annotation. The
    network is a parameter: the replies each request receives and the
    decoded bodies the status polls read. */
module Annotations {
  import opened Wrappers
  import opened Json
  import opened Frames
  import Retry
  import Session
  import Streamed

  /** `SortedAnnotationsResponse`, in the client's naming. */
  datatype Sorted = Sorted(large: seq<Value>, small: Value)

  /** The classification body: exactly the project and the item ids. */
  function ClassifyBody(projectId: int, itemIds: seq<int>): Value
  {
    VObj(map["project_id" := VInt(projectId), "item_ids" := IntList(itemIds)])
  }

  /** The request `sort_annotatoins_by_size` hands to `Session.request`
      (with `build_url=False`, so `url` is the already joined address). */
  function ClassifyRequest(teamId: int, url: string, projectId: int, itemIds: seq<int>): (r: Session.Prepared)
    ensures r.params.Keys == {"limit", "team_id"}
    ensures r.params["limit"] == VInt(|itemIds|) && r.params["team_id"] == VInt(teamId)
    ensures r.verb == "post" && r.url == Session.Absolute(url) && r.data.None?
    ensures r.json == Some(ClassifyBody(projectId, itemIds))
    ensures r.json.value.fields.Keys == {"project_id", "item_ids"}
  {
    assert "project_id" in ClassifyBody(projectId, itemIds).fields;
    Session.PrepareRequest("", teamId, url, "post", VNull, ClassifyBody(projectId, itemIds),
                           map["limit" := VInt(|itemIds|)], false)
  }

  /** `[i["data"] for i in small.values()]`, the values visited in the
      dict's order `order`; the first entry without "data" raises. */
  function PickData(small: map<string, Value>, order: seq<string>): (r: Result<seq<Value>>)
    requires forall k :: 0 <= k < |order| ==> order[k] in small
    ensures r.Success? <==> forall k :: 0 <= k < |order| ==> Get(small[order[k]], "data").Success?
    ensures r.Success? ==> |r.value| == |order|
    ensures r.Success? ==> forall k :: 0 <= k < |order| ==> r.value[k] == small[order[k]].fields["data"]
    ensures r.Failure? ==> exists k :: 0 <= k < |order| && Get(small[order[k]], "data") == Failure(r.error)
  {
    if order == [] then Success([])
    else
      var first :- Get(small[order[0]], "data");
      var rest := PickData(small, order[1..]);
      assert forall k :: 1 <= k < |order| ==> order[k] == order[1..][k - 1];
      if rest.Failure? then Failure(rest.error) else Success([first] + rest.value)
  }

  /** The dict order of the server's `small` map, when the body has one:
      every key exactly once. */
  predicate ListsKeys(order: seq<string>, m: map<string, Value>)
  {
    (forall k :: 0 <= k < |order| ==> order[k] in m)
    && (forall key :: key in m ==> key in order)
    && (forall i, j :: 0 <= i < j < |order| ==> order[i] != order[j])
  }

  /** The `small` entry of a classification body, `{}` when absent. */
  function SmallOf(fields: map<string, Value>): Value
  {
    if "small" in fields then fields["small"] else VObj(map[])
  }

  /** `sort_annotatoins_by_size` after the response arrives: a non-OK status
      raises, the body must be a dict, and the server's `small` and `large`
      keys are swapped onto the client's `large` and `small`: client `large`
      is the "data" of every value of the server's `small` map, client
      `small` is the server's `large` entry as sent. `order` is the key order
      of the server's `small` map. */
  function SortBySize(resp: Session.Response, order: seq<string>): (r: Result<Sorted>)
    requires resp.body.VObj? && SmallOf(resp.body.fields).VObj? ==> ListsKeys(order, SmallOf(resp.body.fields).fields)
    ensures !Session.IsOk(resp.status) ==> r == Failure(HttpError(resp.status))
    ensures r.Success? <==>
      Session.IsOk(resp.status) && resp.body.VObj? && SmallOf(resp.body.fields).VObj?
      && forall k :: 0 <= k < |order| ==> Get(SmallOf(resp.body.fields).fields[order[k]], "data").Success?
    ensures r.Success? ==>
      var fields := resp.body.fields;
      && r.value.small == (if "large" in fields then fields["large"] else VList([]))
      && |r.value.large| == |order|
      && forall k :: 0 <= k < |order| ==> r.value.large[k] == SmallOf(fields).fields[order[k]].fields["data"]
    ensures Session.IsOk(resp.status) && resp.body.VObj? && "small" !in resp.body.fields ==>
      r.Success? && r.value.large == []
  {
    if !Session.IsOk(resp.status) then Failure(HttpError(resp.status))
    else if !resp.body.VObj? then Failure(AttributeError("get"))
    else
      var fields := resp.body.fields;
      var small := SmallOf(fields);
      if !small.VObj? then Failure(AttributeError("values"))
      else
        var large :- PickData(small.fields, order);
        Success(Sorted(large, if "large" in fields then fields["large"] else VList([])))
  }

  /** An OK dict body without either key classifies nothing. */
  lemma NothingToSort(status: int)
    requires Session.IsOk(status)
    ensures SortBySize(Session.Response(status, VObj(map[])), []) == Success(Sorted([], VList([])))
  {
  }

  /** The query of `list_annotations`. */
  function ListQuery(teamId: int, projectId: int, folderId: int): map<string, Value>
  {
    map["team_id" := VInt(teamId), "project_id" := VInt(projectId), "folder_id" := VInt(folderId)]
  }

  /** The query of `download_small_annotations`: no team id. */
  function DownloadQuery(projectId: int, folderId: int): map<string, Value>
  {
    map["project_id" := VInt(projectId), "folder_id" := VInt(folderId)]
  }

  /** The map function both streamed calls use: `{"image_ids": ids}`. */
  function ImageIds(ids: seq<int>): Value
  {
    VObj(map["image_ids" := IntList(ids)])
  }

  /** The request a streamed call with these queries sends: the folder id
      moves into the body next to the image ids (when there are any), the
      rest of the query stays and gains the `limit` hint. */
  lemma {:induction false} StreamedRequestShape(query: map<string, Value>, folderId: int, ids: seq<int>)
    requires "folder_id" in query && query["folder_id"] == VInt(folderId)
    ensures var handler := Streamed.ShapeRequest(query["limit" := VInt(|ids|)],
                                                 if ids != [] then ImageIds(ids) else IntList(ids));
      && handler.Success?
      && handler.value.params == (query - {"folder_id"})["limit" := VInt(|ids|)]
      && handler.value.body == (if ids != [] then map["folder_id" := VInt(folderId), "image_ids" := IntList(ids)]
                                else map["folder_id" := VInt(folderId)])
  {
    var q := query["limit" := VInt(|ids|)];
    var data := if ids != [] then ImageIds(ids) else IntList(ids);
    var r := Streamed.ShapeRequest(q, data);
    assert q - {"folder_id"} == (query - {"folder_id"})["limit" := VInt(|ids|)];
    if ids != [] {
      assert data.fields.Keys == {"image_ids"};
      assert r.value.body.Keys == {"folder_id", "image_ids"};
    } else {
      assert !Truthy(data);
    }
  }

  /** `list_annotations`: one streamed request with the list query; the
      result holds one entry per frame, through the callback. */
  method ListAnnotations(teamId: int, projectId: int, folderId: int, itemIds: seq<int>,
                         callback: Option<Value -> Value>, reply: nat -> Retry.Reply,
                         body: seq<Bytes>, parse: Bytes -> Option<Value>)
    returns (r: Result<seq<Value>>, sent: Result<Streamed.FetchRequest>)
    ensures sent.Success?
    ensures sent.value.params == map["team_id" := VInt(teamId), "project_id" := VInt(projectId), "limit" := VInt(|itemIds|)]
    ensures sent.value.body == (if itemIds != [] then map["folder_id" := VInt(folderId), "image_ids" := IntList(itemIds)]
                                else map["folder_id" := VInt(folderId)])
    ensures r.Success? ==> Retry.Retrying(reply, Retry.NoData, 0).0.Success?
    ensures r.Success? ==>
      var frames := StreamFrames(Concat(body), Delimiter);
      |r.value| == |frames|
      && forall i :: 0 <= i < |frames| ==>
           parse(frames[i]).Some?
           && r.value[i] == (if callback.Some? then callback.value(parse(frames[i]).value) else parse(frames[i]).value)
    ensures Retry.Retrying(reply, Retry.NoData, 0).0.Success? ==>
      (r.Failure? <==> Streamed.ParseFrames(StreamFrames(Concat(body), Delimiter), parse).1)
  {
    var handler := new Streamed.StreamedAnnotations(callback, Some(ImageIds));
    var query := ListQuery(teamId, projectId, folderId);
    r, sent := handler.ListAnnotations(itemIds, query, reply, body, parse);
    StreamedRequestShape(query, folderId, itemIds);
    assert (query - {"folder_id"})["limit" := VInt(|itemIds|)]
        == map["team_id" := VInt(teamId), "project_id" := VInt(projectId), "limit" := VInt(|itemIds|)];
  }

  /** `download_small_annotations`: one streamed download with the download
      query. Returns the outcome, the request and the files written. */
  method DownloadSmallAnnotations(projectId: int, folderId: int, itemIds: seq<int>, path: string,
                                  callback: Option<Value -> Value>, reply: nat -> Retry.Reply,
                                  body: seq<Bytes>, parse: Bytes -> Option<Value>)
    returns (r: Result<()>, sent: Result<Streamed.FetchRequest>, docs: seq<Value>,
             written: seq<Streamed.StoredFile>)
    ensures sent.Success?
    ensures sent.value.params == map["project_id" := VInt(projectId), "limit" := VInt(|itemIds|)]
    ensures sent.value.body == (if itemIds != [] then map["folder_id" := VInt(folderId), "image_ids" := IntList(itemIds)]
                                else map["folder_id" := VInt(folderId)])
    ensures Retry.Retrying(reply, Retry.NoData, 0).0.Success? ==>
      docs == Streamed.ParseFrames(StreamFrames(Concat(body), Delimiter), parse).0
    ensures r.Success? <==>
      Retry.Retrying(reply, Retry.NoData, 0).0.Success?
      && !Streamed.ParseFrames(StreamFrames(Concat(body), Delimiter), parse).1
      && forall j :: 0 <= j < |docs| ==> MetadataName(docs[j]).Success?
    ensures r.Success? ==>
      |written| == |docs|
      && forall j :: 0 <= j < |docs| ==>
           written[j] == Streamed.StoredFile(path, MetadataName(docs[j]).value,
                                             if callback.Some? then callback.value(docs[j]) else docs[j])
  {
    var handler := new Streamed.StreamedAnnotations(callback, Some(ImageIds));
    var query := DownloadQuery(projectId, folderId);
    r, sent, docs := handler.DownloadAnnotations(path, itemIds, query, reply, body, parse);
    StreamedRequestShape(query, folderId, itemIds);
    assert (query - {"folder_id"})["limit" := VInt(|itemIds|)]
        == map["project_id" := VInt(projectId), "limit" := VInt(|itemIds|)];
    written := handler.written;
  }

  /** The query of the sync start request. */
  function SyncParams(teamId: int, projectId: int, folderId: int): map<string, Value>
  {
    map["team_id" := VInt(teamId), "project_id" := VInt(projectId), "folder_id" := VInt(folderId),
        "desired_transform_version" := VStr("export"), "desired_version" := VStr(Session.AnnotationVersion),
        "current_transform_version" := VStr(Session.AnnotationVersion),
        "current_source" := VStr("main"), "desired_source" := VStr("secondary")]
  }

  /** The value the sync loop waits for. */
  const SyncDone: Value := VStr("SUCCESS")

  /** One status poll: a plain `session.get`, which has no retry, so a
      transport failure raises; otherwise its body, `None` when it is not
      JSON. */
  datatype Poll = PollFailed | Polled(body: Option<Value>)

  /** `(await (await session.get(...)).json())["status"]`. */
  function StatusOf(poll: Poll): (r: Result<Value>)
    ensures poll.PollFailed? ==> r == Failure(TransportError)
    ensures poll == Polled(None) ==> r == Failure(ParseError)
    ensures poll.Polled? && poll.body.Some? ==> r == Get(poll.body.value, "status")
  {
    match poll
    case PollFailed => Failure(TransportError)
    case Polled(None) => Failure(ParseError)
    case Polled(Some(body)) => Get(body, "status")
  }

  /** The status a poll reports, when it can be read. */
  predicate Reports(poll: Poll, status: Value)
  {
    StatusOf(poll) == Success(status)
  }

  /** The status polls from poll `i` on: each reads `body["status"]` and the
      loop stops at "SUCCESS". A failed request raises TransportError, a
      body that is not JSON raises ParseError, a body without a status
      raises what `Get` raises. Returns the outcome and the index after the
      last poll made. */
  function SyncPolls(polls: seq<Poll>, i: nat): (r: (Run<Value>, nat))
    requires i <= |polls|
    ensures i <= r.1 <= |polls|
    ensures r.0.OutOfReplies? ==> r.1 == |polls|
    ensures r.0.Finished? ==> i < r.1
    ensures r.0.Finished? && r.0.result.Success? ==> r.0.result.value == SyncDone && Reports(polls[r.1 - 1], SyncDone)
    decreases |polls| - i
  {
    if i == |polls| then (OutOfReplies, i)
    else match StatusOf(polls[i])
      case Failure(e) => (Finished(Failure(e)), i + 1)
      case Success(s) =>
        if s == SyncDone then (Finished(Success(s)), i + 1) else SyncPolls(polls, i + 1)
  }

  /** Every poll before the last one the loop made reported a status other
      than "SUCCESS". */
  lemma {:induction false} SyncPollsBefore(polls: seq<Poll>, i: nat)
    requires i <= |polls|
    ensures forall j :: i <= j < SyncPolls(polls, i).1 - 1 ==>
      StatusOf(polls[j]).Success? && StatusOf(polls[j]).value != SyncDone
    decreases |polls| - i
  {
    if i < |polls| && StatusOf(polls[i]).Success? && StatusOf(polls[i]).value != SyncDone {
      SyncPollsBefore(polls, i + 1);
    }
  }

  /** The loop ends at the first poll that reports "SUCCESS" when every poll
      before it reported another status. */
  lemma {:induction false} SyncPollsFirstSuccess(polls: seq<Poll>, i: nat, k: nat)
    requires i <= k < |polls| && Reports(polls[k], SyncDone)
    requires forall j :: i <= j < k ==> StatusOf(polls[j]).Success? && StatusOf(polls[j]).value != SyncDone
    ensures SyncPolls(polls, i) == (Finished(Success(SyncDone)), k + 1)
    decreases k - i
  {
    if i < k {
      SyncPollsFirstSuccess(polls, i + 1, k);
    }
  }

  /** `_sync_large_annotation`: start the sync through the retrying session
      (without `data`), drop the source keys from the query, then poll the
      status with a plain GET until it is "SUCCESS", sleeping after every
      poll whose status was read. Returns the outcome, both queries, the
      number of polls made and the number of sleeps. */
  method SyncLargeAnnotation(teamId: int, projectId: int, folderId: int,
                             start: nat -> Retry.Reply, polls: seq<Poll>)
    returns (r: Run<Value>, startQuery: map<string, Value>, pollQuery: map<string, Value>,
             made: nat, sleeps: nat)
    ensures startQuery == SyncParams(teamId, projectId, folderId)
    ensures Retry.Retrying(start, Retry.NoData, 0).0.Success? ==>
      pollQuery == startQuery - {"current_source", "desired_source"}
    ensures Retry.Retrying(start, Retry.NoData, 0).0.Failure? ==>
      r == Finished(Failure(Retry.Retrying(start, Retry.NoData, 0).0.error)) && made == 0 && sleeps == 0
    ensures Retry.Retrying(start, Retry.NoData, 0).0.Success? ==>
      (r, made) == SyncPolls(polls, 0)
      && sleeps == (if r.Finished? && r.result.Failure? then made - 1 else made)
  {
    startQuery := SyncParams(teamId, projectId, folderId);
    pollQuery := startQuery;
    made, sleeps := 0, 0;
    var started, _ := Retry.Request(start, Retry.NoData);
    if started.Failure? {
      return Finished(Failure(started.error)), startQuery, pollQuery, 0, 0;
    }
    pollQuery := pollQuery - {"current_source"};
    pollQuery := pollQuery - {"desired_source"};
    var synced := VBool(false);
    while synced != SyncDone
      invariant made <= |polls| && sleeps == made
      invariant synced == SyncDone ==> SyncPolls(polls, 0) == (Finished(Success(SyncDone)), made)
      invariant synced != SyncDone ==> SyncPolls(polls, 0) == SyncPolls(polls, made)
      decreases |polls| - made, if synced == SyncDone then 0 else 1
    {
      if made == |polls| {
        return OutOfReplies, startQuery, pollQuery, made, sleeps;
      }
      var poll := polls[made];
      made := made + 1;
      if poll.PollFailed? {
        return Finished(Failure(TransportError)), startQuery, pollQuery, made, sleeps;
      }
      if poll.body.None? {
        return Finished(Failure(ParseError)), startQuery, pollQuery, made, sleeps;
      }
      var status := Get(poll.body.value, "status");
      if status.Failure? {
        return Finished(Failure(status.error)), startQuery, pollQuery, made, sleeps;
      }
      synced := status.value;
      sleeps := sleeps + 1;
    }
    r := Finished(Success(synced));
  }

  /** The query of the large-annotation fetch. */
  function LargeQuery(projectId: int, folderId: int): map<string, Value>
  {
    map["project_id" := VInt(projectId), "folder_id" := VInt(folderId),
        "annotation_type" := VStr("MAIN"), "version" := VStr(Session.AnnotationVersion)]
  }

  /** `get_large_annotation`: the sync runs to completion first, then exactly
      one fetch is sent and its JSON body returned. `fetched` is that body,
      `None` when it is not JSON. */
  method GetLargeAnnotation(teamId: int, projectId: int, folderId: int,
                            start: nat -> Retry.Reply, polls: seq<Poll>,
                            fetch: nat -> Retry.Reply, fetched: Option<Value>)
    returns (r: Run<Value>, query: map<string, Value>, fetchSent: bool)
    ensures query.Keys == {"project_id", "folder_id", "annotation_type", "version"}
    ensures query["annotation_type"] == VStr("MAIN") && query["version"] == VStr(Session.AnnotationVersion)
    ensures query["project_id"] == VInt(projectId) && query["folder_id"] == VInt(folderId)
    ensures fetchSent <==>
      Retry.Retrying(start, Retry.NoData, 0).0.Success? && SyncPolls(polls, 0).0 == Finished(Success(SyncDone))
    ensures !fetchSent && Retry.Retrying(start, Retry.NoData, 0).0.Success? ==> r == SyncPolls(polls, 0).0
    ensures !fetchSent && Retry.Retrying(start, Retry.NoData, 0).0.Failure? ==>
      r == Finished(Failure(Retry.Retrying(start, Retry.NoData, 0).0.error))
    ensures fetchSent ==>
      r == Finished(
        if Retry.Retrying(fetch, Retry.NoData, 0).0.Failure? then Failure(Retry.Retrying(fetch, Retry.NoData, 0).0.error)
        else if fetched.None? then Failure(ParseError)
        else Success(fetched.value))
  {
    query := LargeQuery(projectId, folderId);
    var synced, _, _, _, _ := SyncLargeAnnotation(teamId, projectId, folderId, start, polls);
    fetchSent := synced.Finished? && synced.result.Success?;
    if !fetchSent {
      return synced, query, false;
    }
    var status, _ := Retry.Request(fetch, Retry.NoData);
    if status.Failure? {
      return Finished(Failure(status.error)), query, true;
    }
    if fetched.None? {
      return Finished(Failure(ParseError)), query, true;
    }
    r := Finished(Success(fetched.value));
  }
}

=== FILE: app.dfy ===
/** The façade of app/__init__.py: folder-name sanitising, the annotation
    fan-out of `Item.alist_annotations` and `_run_download_workers`, the
    name-order re-sort of `Folder.get_annotations`, and the small decisions
    of `Item` (`_list_items`, `get`, `bulk_delete`), `Folder` (`assign`,
    `delete_folders`, `get_by_name`) and `Project` (`download_annotations`,
    `get_folder`). The repositories are modelled in their own modules; here
    what a repository call returns is a parameter. Every `asyncio.gather`
    is evaluated as its arguments in order, one after another. */
module App {
  import opened Wrappers
  import opened Json
  import Session
  import Annotations

  // ---------------------------------------------------------------------
  // Folder._clean_folder_name

  const NameMaxLength: nat := 80
  const SpecialCharacters: set<char> := {'/', '\\', ':', '*', '?', '"', '<', '>', '|', '\U{201C}'}
  const FolderNameTooLong: Error :=
    ValidationError("The folder name is too long. The maximum length for this field is 80 characters.")

  /** Every special character replaced by an underscore, every other
      character kept, position by position. */
  function Underscored(val: string): (r: string)
    ensures |r| == |val|
    ensures forall i :: 0 <= i < |val| ==> r[i] == (if val[i] in SpecialCharacters then '_' else val[i])
  {
    if val == [] then []
    else [if val[0] in SpecialCharacters then '_' else val[0]] + Underscored(val[1..])
  }

  /** `set(val)` meets the special characters. */
  predicate HasSpecial(val: string)
  {
    exists i :: 0 <= i < |val| && val[i] in SpecialCharacters
  }

  /** `_clean_folder_name`: the name is rewritten only when it holds a
      special character, and the length is checked on the result. */
  function CleanFolderName(val: string): (r: Result<string>)
    ensures r.Failure? <==> |val| > NameMaxLength
    ensures r.Failure? ==> r.error == FolderNameTooLong
    ensures r.Success? ==> |r.value| == |val|
    ensures r.Success? ==> forall i :: 0 <= i < |val| ==>
      r.value[i] !in SpecialCharacters && (val[i] !in SpecialCharacters ==> r.value[i] == val[i])
    ensures r.Success? ==> forall i :: 0 <= i < |val| && val[i] in SpecialCharacters ==> r.value[i] == '_'
    ensures (forall i :: 0 <= i < |val| ==> val[i] !in SpecialCharacters) && |val| <= NameMaxLength ==>
      r == Success(val)
  {
    var cleaned := if HasSpecial(val) then Underscored(val) else val;
    if |cleaned| > NameMaxLength then Failure(FolderNameTooLong) else Success(cleaned)
  }

  /** A cleaned name is clean: cleaning it again changes nothing. */
  lemma CleanFolderNameIdempotent(val: string)
    requires CleanFolderName(val).Success?
    ensures CleanFolderName(CleanFolderName(val).value) == CleanFolderName(val)
  {
  }

  // ---------------------------------------------------------------------
  // Attribute lookup on AnnotationRepository

  /** The methods `AnnotationRepository` defines, under their own spelling. */
  const RepositoryMethods: set<string> :=
    {"sort_annotatoins_by_size", "list_annotations", "_sync_large_annotation",
     "get_large_annotation", "download_small_annotations"}

  /** `annotation_repo.<name>`: a name the class does not define raises. */
  function Attribute(name: string): (r: Result<()>)
    ensures r.Success? <==> name in RepositoryMethods
    ensures r.Failure? ==> r.error == AttributeError(name)
  {
    if name in RepositoryMethods then Success(()) else Failure(AttributeError(name))
  }

  /** The classifier name the façade asks for, and the one the repository defines. */
  const ClassifierCalled: string := "sort_annotations_by_size"
  const ClassifierDefined: string := "sort_annotatoins_by_size"
  const LargeDownloadCalled: string := "download_large_annotation"

  // ---------------------------------------------------------------------
  // Sequential gathers

  /** Awaiting `f(x)` for every `x` in order and concatenating the results;
      the first call that raises ends the run with its error. */
  function Each<T, U>(xs: seq<T>, f: T -> Result<seq<U>>): Result<seq<U>>
    decreases |xs|
  {
    if xs == [] then Success([])
    else
      var init :- Each(xs[..|xs| - 1], f);
      var last :- f(xs[|xs| - 1]);
      Success(init + last)
  }

  /** `Each` succeeds exactly when every call does, and otherwise fails with
      the error of the first call that failed. */
  lemma {:induction false} EachSpec<T, U>(xs: seq<T>, f: T -> Result<seq<U>>)
    ensures Each(xs, f).Success? <==> forall k :: 0 <= k < |xs| ==> f(xs[k]).Success?
    ensures Each(xs, f).Failure? ==>
      exists k :: (0 <= k < |xs| && f(xs[k]) == Failure(Each(xs, f).error)
                   && forall j :: 0 <= j < k ==> f(xs[j]).Success?)
    decreases |xs|
  {
    if xs != [] {
      var init := xs[..|xs| - 1];
      EachSpec(init, f);
      assert forall k :: 0 <= k < |init| ==> init[k] == xs[k];
      if Each(init, f).Success? && f(xs[|xs| - 1]).Failure? {
        assert forall j :: 0 <= j < |xs| - 1 ==> f(xs[j]).Success?;
      }
    }
  }

  /** Running two lists one after the other is running their concatenation. */
  lemma {:induction false} EachAppend<T, U>(a: seq<T>, b: seq<T>, f: T -> Result<seq<U>>)
    ensures Each(a, f).Failure? ==> Each(a + b, f) == Each(a, f)
    ensures Each(a, f).Success? && Each(b, f).Failure? ==> Each(a + b, f) == Each(b, f)
    ensures Each(a, f).Success? && Each(b, f).Success? ==>
      Each(a + b, f) == Success(Each(a, f).value + Each(b, f).value)
    decreases |b|
  {
    if b == [] {
      assert a + b == a;
      assert Each(a, f).Success? ==> Each(a, f).value + [] == Each(a, f).value;
    } else {
      var b' := b[..|b| - 1];
      var last := b[|b| - 1];
      assert (a + b)[..|a + b| - 1] == a + b';
      assert (a + b)[|a + b| - 1] == last;
      EachAppend(a, b', f);
      if Each(a, f).Success? && Each(b', f).Success? && f(last).Success? {
        assert Each(b, f) == Success(Each(b', f).value + f(last).value);
        assert Each(a + b, f) == Success(Each(a + b', f).value + f(last).value);
        assert Each(a, f).value + Each(b', f).value + f(last).value
            == Each(a, f).value + (Each(b', f).value + f(last).value);
      }
    }
  }

  /** A batch of a gather extends the results so far, or fails the whole run. */
  lemma EachStep<T, U>(done: seq<T>, batch: seq<T>, rest: seq<T>, f: T -> Result<seq<U>>, acc: seq<U>)
    requires Each(done, f) == Success(acc)
    ensures Each(batch, f).Success? ==> Each(done + batch, f) == Success(acc + Each(batch, f).value)
    ensures Each(batch, f).Failure? ==> Each(done + batch + rest, f) == Each(batch, f)
  {
    EachAppend(done, batch, f);
    EachAppend(done + batch, rest, f);
  }

  /** The batches `all[..i]` done, batch `all[i]` extends the results or
      ends the whole run with its error. */
  lemma BatchStep<T, U>(all: seq<seq<T>>, i: nat, f: T -> Result<seq<U>>, acc: seq<U>)
    requires i < |all| && Each(Concat(all[..i]), f) == Success(acc)
    ensures Each(all[i], f).Success? ==> Each(Concat(all[..i + 1]), f) == Success(acc + Each(all[i], f).value)
    ensures Each(all[i], f).Failure? ==> Each(Concat(all), f) == Each(all[i], f)
  {
    ConcatSplit(all, i);
    EachStep(Concat(all[..i]), all[i], Concat(all[i + 1..]), f, acc);
  }

  /** The slices before, at and after position `i`. */
  lemma ConcatSplit<T>(all: seq<seq<T>>, i: nat)
    requires i < |all|
    ensures Concat(all[..i + 1]) == Concat(all[..i]) + all[i]
    ensures Concat(all) == Concat(all[..i]) + all[i] + Concat(all[i + 1..])
  {
    Around(all, i);
    ConcatThree(all[..i], all[i], all[i + 1..]);
  }

  lemma Around<T>(all: seq<T>, i: nat)
    requires i < |all|
    ensures all[..i + 1] == all[..i] + [all[i]]
    ensures all == all[..i] + [all[i]] + all[i + 1..]
  {
  }

  lemma ConcatThree<T>(pre: seq<seq<T>>, cur: seq<T>, post: seq<seq<T>>)
    ensures Concat(pre + [cur]) == Concat(pre) + cur
    ensures Concat(pre + [cur] + post) == Concat(pre) + cur + Concat(post)
  {
    ConcatSnoc(pre, cur);
    ConcatAppend(pre + [cur], post);
  }

  /** One `asyncio.gather` over `batch`, evaluated in argument order. */
  method GatherBatch<T, U>(batch: seq<T>, f: T -> Result<seq<U>>) returns (r: Result<seq<U>>)
    ensures r == Each(batch, f)
  {
    var acc: seq<U> := [];
    var j := 0;
    while j < |batch|
      invariant 0 <= j <= |batch|
      invariant Each(batch[..j], f) == Success(acc)
    {
      assert batch[..j + 1][..j] == batch[..j];
      var one := f(batch[j]);
      if one.Failure? {
        assert batch[..j] + [batch[j]] + batch[j + 1..] == batch;
        EachStep(batch[..j], [batch[j]], batch[j + 1..], f, acc);
        return Failure(one.error);
      }
      acc := acc + one.value;
      j := j + 1;
    }
    assert batch[..j] == batch;
    r := Success(acc);
  }

  /** `for chunk in chunkify(xs, size): gather(...)`: the batches started,
      each a gather over one slice of at most `size` elements. */
  method GatherInBatches<T, U>(xs: seq<T>, size: nat, f: T -> Result<seq<U>>)
    returns (r: Result<seq<U>>, batches: seq<seq<T>>)
    requires size > 0
    ensures r == Each(xs, f)
    ensures batches <= Chunks(xs, size)
    ensures r.Success? ==> batches == Chunks(xs, size)
    ensures forall k :: 0 <= k < |batches| ==> 0 < |batches[k]| <= size
  {
    var all := Chunks(xs, size);
    ChunksSpec(xs, size);
    var acc: seq<U> := [];
    batches := [];
    var i := 0;
    while i < |all|
      invariant 0 <= i <= |all|
      invariant batches == all[..i]
      invariant Each(Concat(all[..i]), f) == Success(acc)
    {
      BatchStep(all, i, f, acc);
      Around(all, i);
      batches := batches + [all[i]];
      var one := GatherBatch(all[i], f);
      if one.Failure? {
        return Failure(one.error), batches;
      }
      acc := acc + one.value;
      i := i + 1;
    }
    assert all[..i] == all;
    r := Success(acc);
  }

  /** A call that yields one value, as a call whose result list has one entry. */
  function One<T, U>(g: T -> Result<U>): T -> Result<seq<U>>
  {
    x => match g(x)
         case Success(v) => Success([v])
         case Failure(e) => Failure(e)
  }

  /** Run over calls that yield one value each: one result per element, in order. */
  lemma {:induction false} EachOne<T, U>(xs: seq<T>, g: T -> Result<U>)
    ensures Each(xs, One(g)).Success? <==> forall k :: 0 <= k < |xs| ==> g(xs[k]).Success?
    ensures Each(xs, One(g)).Success? ==>
      |Each(xs, One(g)).value| == |xs|
      && forall k :: 0 <= k < |xs| ==> Each(xs, One(g)).value[k] == g(xs[k]).value
    decreases |xs|
  {
    EachSpec(xs, One(g));
    if xs != [] {
      var init := xs[..|xs| - 1];
      EachOne(init, g);
      assert forall k :: 0 <= k < |init| ==> init[k] == xs[k];
    }
  }

  // ---------------------------------------------------------------------
  // Item.alist_annotations and Item.adownload_annotations

  /** An item entity, as far as the façade reads it. */
  datatype ItemRef = ItemRef(id: int, name: string)

  /** `max(MAX_COROUTINE_COUNT // 2, 2)`, the size of one gather of large items. */
  const LargeBatch: nat := if Session.MaxCoroutineCount / 2 > 2 then Session.MaxCoroutineCount / 2 else 2

  function IdOf(x: Value): Result<Value> { Get(x, "id") }

  /** `[i["id"] for i in xs]`: the first entry without an id raises. */
  function IdsOf(xs: seq<Value>): (r: Result<seq<Value>>)
    ensures r.Success? <==> forall k :: 0 <= k < |xs| ==> Get(xs[k], "id").Success?
    ensures r.Success? ==> |r.value| == |xs| && forall k :: 0 <= k < |xs| ==> r.value[k] == xs[k].fields["id"]
  {
    EachOne(xs, IdOf);
    Each(xs, One(IdOf))
  }

  /** `[i["id"] for i in chunk]`. Python iterates any iterable: a list
      gives its entries; a string gives one-character strings and a dict its
      string keys, and indexing a string with "id" is a TypeError, so only
      the empty string and the empty dict give ids (none). Any other value
      is not iterable. */
  function ChunkIds(chunk: Value): (r: Result<seq<Value>>)
    ensures chunk.VList? ==> r == IdsOf(chunk.items)
    ensures chunk == VStr([]) || chunk == VObj(map[]) ==> r == Success([])
    ensures !chunk.VList? && chunk != VStr([]) && chunk != VObj(map[]) ==> r == Failure(TypeError)
  {
    match chunk
    case VList(items) => IdsOf(items)
    case VStr(s) => if s == [] then Success([]) else Failure(TypeError)
    case VObj(fields) => if fields == map[] then Success([]) else Failure(TypeError)
    case _ => Failure(TypeError)
  }

  /** The id lists of the small chunks, in the server's order. Iterating a
      string gives one-character chunks and a dict its keys as chunks, each
      of which then goes through `ChunkIds`: only the empty string and a
      dict whose one key is "" get through, and the dict gives one empty
      chunk. */
  function SmallIdChunks(small: Value): (r: Result<seq<seq<Value>>>)
    ensures small.VList? ==>
      (r.Success? <==> forall k :: 0 <= k < |small.items| ==> ChunkIds(small.items[k]).Success?)
    ensures small.VList? && r.Success? ==>
      |r.value| == |small.items| && forall k :: 0 <= k < |small.items| ==> r.value[k] == ChunkIds(small.items[k]).value
    ensures small.VStr? ==> r == if small.s == [] then Success([]) else Failure(TypeError)
    ensures small.VObj? ==>
      r == if small.fields.Keys <= {""} then Success(if "" in small.fields then [[]] else []) else Failure(TypeError)
    ensures !small.VList? && !small.VStr? && !small.VObj? ==> r == Failure(TypeError)
  {
    match small
    case VList(items) =>
      EachOne(items, ChunkIds);
      Each(items, One(ChunkIds))
    case VStr(s) =>
      // each character is a non-empty one-character chunk
      if s == [] then Success([]) else Failure(TypeError)
    case VObj(fields) =>
      // each key is a string chunk, which only "" gets through
      if fields.Keys <= {""} then Success(if "" in fields then [[]] else []) else Failure(TypeError)
    case _ => Failure(TypeError)
  }

  /** Empty string and dict chunks, like an empty list, give no ids; a
      non-empty string raises. */
  lemma EmptyChunksGiveNoIds()
    ensures SmallIdChunks(VList([VStr([]), VObj(map[]), VList([])])) == Success([[], [], []])
    ensures SmallIdChunks(VStr("ab")) == Failure(TypeError)
  {
    var small := VList([VStr([]), VObj(map[]), VList([])]);
    assert ChunkIds(small.items[0]) == Success([]);
    assert ChunkIds(small.items[1]) == Success([]);
    assert ChunkIds(small.items[2]) == IdsOf([]) == Success([]);
    var r := SmallIdChunks(small);
    assert r.Success?;
    assert r.value == [[], [], []] by {
      assert |r.value| == 3 && r.value[0] == [] && r.value[1] == [] && r.value[2] == [];
    }
  }

  /** `item["id"]` as an element of `large_item_ids`. */
  function HashedId(x: Value): Result<Value> { HashedField(x, "id") }

  /** `set(map(itemgetter("id"), large))`: the hash keys of the ids, so the
      id `true` stands for 1. The entries are read in order, and the first
      one without an id, or with an id that cannot be hashed, raises. */
  function LargeIdSet(large: seq<Value>): (r: Result<set<Value>>)
    ensures r.Success? <==>
      forall k :: 0 <= k < |large| ==> Get(large[k], "id").Success? && Hashable(Get(large[k], "id").value)
    ensures r.Success? ==>
      forall v :: v in r.value <==> exists k :: 0 <= k < |large| && HashedId(large[k]) == Success(v)
    ensures r.Failure? ==>
      exists k :: 0 <= k < |large| && HashedId(large[k]) == Failure(r.error)
                  && forall j :: 0 <= j < k ==> HashedId(large[j]).Success?
  {
    EachOne(large, HashedId);
    EachSpec(large, One(HashedId));
    var keys :- Each(large, One(HashedId));
    Success(set v | v in keys)
  }

  /** `filter(lambda item: item.id in large_item_ids, items)`. An int is its
      own hash key, so membership of `VInt(id)` among the keys is Python's
      `in` on the set. */
  function LargeItems(items: seq<ItemRef>, ids: set<Value>): (r: seq<ItemRef>)
    ensures |r| <= |items|
    ensures forall x :: x in r <==> x in items && VInt(x.id) in ids
    decreases |items|
  {
    if items == [] then []
    else
      var init := LargeItems(items[..|items| - 1], ids);
      var last := items[|items| - 1];
      assert forall x :: x in items <==> x in items[..|items| - 1] || x == last;
      if VInt(last.id) in ids then init + [last] else init
  }

  /** The filter keeps the input order: filtering a concatenation filters each part. */
  lemma {:induction false} LargeItemsAppend(a: seq<ItemRef>, b: seq<ItemRef>, ids: set<Value>)
    ensures LargeItems(a + b, ids) == LargeItems(a, ids) + LargeItems(b, ids)
    decreases |b|
  {
    if b == [] {
      assert a + b == a;
    } else {
      var b' := b[..|b| - 1];
      assert (a + b)[..|a + b| - 1] == a + b';
      assert (a + b)[|a + b| - 1] == b[|b| - 1];
      LargeItemsAppend(a, b', ids);
    }
  }

  /** What the classification gives the façade: the ids of the large
      items, as a set, and the id lists of the small chunks. */
  function Classified(sorted: Annotations.Sorted): (r: Result<(set<Value>, seq<seq<Value>>)>)
    ensures r.Success? <==> LargeIdSet(sorted.large).Success? && SmallIdChunks(sorted.small).Success?
    ensures r.Success? ==>
      forall v :: v in r.value.0 <==> exists k :: 0 <= k < |sorted.large| && HashedId(sorted.large[k]) == Success(v)
    ensures r.Success? ==> r.value.1 == SmallIdChunks(sorted.small).value
    ensures LargeIdSet(sorted.large).Failure? ==> r == Failure(LargeIdSet(sorted.large).error)
  {
    var large :- LargeIdSet(sorted.large);
    var small :- SmallIdChunks(sorted.small);
    Success((large, small))
  }

  /** `aget_large_annotation(item_id=item.id)`. */
  function ById(fetch: int -> Result<Value>): ItemRef -> Result<Value>
  {
    (item: ItemRef) => fetch(item.id)
  }

  /** The same, as a call with one result. */
  function LargeOf(fetch: int -> Result<Value>): ItemRef -> Result<seq<Value>>
  {
    One(ById(fetch))
  }

  /** `alist_annotations` once classification works: the annotation of every
      large item, in input order, then the documents of every small chunk,
      in the server's chunk order. */
  function AList(items: seq<ItemRef>, resp: Session.Response, order: seq<string>,
                 fetchLarge: int -> Result<Value>, fetchSmall: seq<Value> -> Result<seq<Value>>): Result<seq<Value>>
    requires resp.body.VObj? && Annotations.SmallOf(resp.body.fields).VObj? ==>
      Annotations.ListsKeys(order, Annotations.SmallOf(resp.body.fields).fields)
  {
    var sorted :- Annotations.SortBySize(resp, order);
    var c :- Classified(sorted);
    var large :- Each(LargeItems(items, c.0), LargeOf(fetchLarge));
    var small :- Each(c.1, fetchSmall);
    Success(large + small)
  }

  /** When `alist_annotations` returns, the result holds the annotation of
      every large item, in input order, followed by the documents of every
      small chunk, in chunk order; every call made along the way succeeded. */
  lemma AListComposition(items: seq<ItemRef>, resp: Session.Response, order: seq<string>,
                         fetchLarge: int -> Result<Value>, fetchSmall: seq<Value> -> Result<seq<Value>>)
    requires resp.body.VObj? && Annotations.SmallOf(resp.body.fields).VObj? ==>
      Annotations.ListsKeys(order, Annotations.SmallOf(resp.body.fields).fields)
    requires AList(items, resp, order, fetchLarge, fetchSmall).Success?
    ensures Annotations.SortBySize(resp, order).Success?
    ensures Classified(Annotations.SortBySize(resp, order).value).Success?
    ensures var c := Classified(Annotations.SortBySize(resp, order).value).value;
      var large := LargeItems(items, c.0);
      var r := AList(items, resp, order, fetchLarge, fetchSmall).value;
      && |large| <= |r|
      && (forall k :: 0 <= k < |large| ==> fetchLarge(large[k].id).Success? && r[k] == fetchLarge(large[k].id).value)
      && (forall k :: 0 <= k < |c.1| ==> fetchSmall(c.1[k]).Success?)
      && Each(c.1, fetchSmall).Success?
      && r[|large|..] == Each(c.1, fetchSmall).value
  {
    var c := Classified(Annotations.SortBySize(resp, order).value).value;
    var large := LargeItems(items, c.0);
    EachOne(large, ById(fetchLarge));
    EachSpec(c.1, fetchSmall);
  }

  /** `alist_annotations`: classify, then gather the large items four at a
      time and the small chunks eight at a time. */
  method AListAnnotations(items: seq<ItemRef>, resp: Session.Response, order: seq<string>,
                          fetchLarge: int -> Result<Value>, fetchSmall: seq<Value> -> Result<seq<Value>>)
    returns (r: Result<seq<Value>>, largeBatches: seq<seq<ItemRef>>, smallBatches: seq<seq<seq<Value>>>)
    requires resp.body.VObj? && Annotations.SmallOf(resp.body.fields).VObj? ==>
      Annotations.ListsKeys(order, Annotations.SmallOf(resp.body.fields).fields)
    ensures r == AList(items, resp, order, fetchLarge, fetchSmall)
    ensures forall k :: 0 <= k < |largeBatches| ==> 0 < |largeBatches[k]| <= LargeBatch
    ensures forall k :: 0 <= k < |smallBatches| ==> 0 < |smallBatches[k]| <= Session.MaxCoroutineCount
    ensures r.Success? ==>
      && Annotations.SortBySize(resp, order).Success?
      && Classified(Annotations.SortBySize(resp, order).value).Success?
      && var c := Classified(Annotations.SortBySize(resp, order).value).value;
      && largeBatches == Chunks(LargeItems(items, c.0), LargeBatch)
      && smallBatches == Chunks(c.1, Session.MaxCoroutineCount)
  {
    largeBatches, smallBatches := [], [];
    var sorted := Annotations.SortBySize(resp, order);
    if sorted.Failure? {
      return Failure(sorted.error), largeBatches, smallBatches;
    }
    var c := Classified(sorted.value);
    if c.Failure? {
      return Failure(c.error), largeBatches, smallBatches;
    }
    var fromLarge;
    fromLarge, largeBatches := GatherInBatches(LargeItems(items, c.value.0), LargeBatch, LargeOf(fetchLarge));
    if fromLarge.Failure? {
      return Failure(fromLarge.error), largeBatches, smallBatches;
    }
    var fromSmall;
    fromSmall, smallBatches := GatherInBatches(c.value.1, Session.MaxCoroutineCount, fetchSmall);
    if fromSmall.Failure? {
      return Failure(fromSmall.error), largeBatches, smallBatches;
    }
    r := Success(fromLarge.value + fromSmall.value);
  }

  /** `alist_annotations` as it looks the classifier up: under `classifier`. */
  function AListWith(classifier: string, items: seq<ItemRef>, resp: Session.Response, order: seq<string>,
                     fetchLarge: int -> Result<Value>, fetchSmall: seq<Value> -> Result<seq<Value>>): Result<seq<Value>>
    requires resp.body.VObj? && Annotations.SmallOf(resp.body.fields).VObj? ==>
      Annotations.ListsKeys(order, Annotations.SmallOf(resp.body.fields).fields)
  {
    var found :- Attribute(classifier);
    AList(items, resp, order, fetchLarge, fetchSmall)
  }

  /** The name `alist_annotations` asks for is not one the repository
      defines, so every call raises AttributeError before any request; under
      the defined name it is `AList`. */
  lemma AListClassifierMismatch(items: seq<ItemRef>, resp: Session.Response, order: seq<string>,
                                fetchLarge: int -> Result<Value>, fetchSmall: seq<Value> -> Result<seq<Value>>)
    requires resp.body.VObj? && Annotations.SmallOf(resp.body.fields).VObj? ==>
      Annotations.ListsKeys(order, Annotations.SmallOf(resp.body.fields).fields)
    ensures AListWith(ClassifierCalled, items, resp, order, fetchLarge, fetchSmall)
         == Failure(AttributeError("sort_annotations_by_size"))
    ensures AListWith(ClassifierDefined, items, resp, order, fetchLarge, fetchSmall)
         == AList(items, resp, order, fetchLarge, fetchSmall)
  {
  }

  /** `download_small_annotations` for one list of ids, which returns nothing. */
  function Quiet(download: seq<Value> -> Result<()>): seq<Value> -> Result<seq<()>>
  {
    ids => match download(ids)
           case Success(_) => Success([])
           case Failure(e) => Failure(e)
  }

  /** One gather of small downloads: every task is built, reading its
      chunk's ids, before any of them runs. */
  function DownloadBatch(batch: seq<Value>, download: seq<Value> -> Result<()>): Result<()>
  {
    var ids :- Each(batch, One(ChunkIds));
    var done :- Each(ids, Quiet(download));
    Success(())
  }

  /** The gathers of small downloads, one after another. */
  function DownloadBatches(batches: seq<seq<Value>>, download: seq<Value> -> Result<()>): Result<()>
    decreases |batches|
  {
    if batches == [] then Success(())
    else
      var before :- DownloadBatches(batches[..|batches| - 1], download);
      DownloadBatch(batches[|batches| - 1], download)
  }

  /** A chunk whose ids can be read and whose download succeeds. */
  predicate Downloads(chunk: Value, download: seq<Value> -> Result<()>)
  {
    ChunkIds(chunk).Success? && download(ChunkIds(chunk).value).Success?
  }

  lemma DownloadBatchSpec(batch: seq<Value>, download: seq<Value> -> Result<()>)
    ensures DownloadBatch(batch, download).Success? <==> forall c :: c in batch ==> Downloads(c, download)
  {
    DownloadBatchAt(batch, download);
    assert (forall c :: c in batch ==> Downloads(c, download))
       <==> (forall k :: 0 <= k < |batch| ==> Downloads(batch[k], download));
  }

  lemma DownloadBatchAt(batch: seq<Value>, download: seq<Value> -> Result<()>)
    ensures DownloadBatch(batch, download).Success? <==> forall k :: 0 <= k < |batch| ==> Downloads(batch[k], download)
  {
    EachOne(batch, ChunkIds);
    if Each(batch, One(ChunkIds)).Success? {
      var ids := Each(batch, One(ChunkIds)).value;
      EachSpec(ids, Quiet(download));
      forall k | 0 <= k < |ids|
        ensures Quiet(download)(ids[k]).Success? <==> Downloads(batch[k], download)
      {
        assert ids[k] == ChunkIds(batch[k]).value;
      }
    }
  }

  /** The small downloads succeed exactly when every chunk's ids can be
      read and every chunk downloads, whatever the batching. */
  lemma {:induction false} DownloadBatchesSpec(batches: seq<seq<Value>>, download: seq<Value> -> Result<()>)
    ensures DownloadBatches(batches, download).Success? <==> forall c :: c in Concat(batches) ==> Downloads(c, download)
    decreases |batches|
  {
    if batches != [] {
      var init, last := batches[..|batches| - 1], batches[|batches| - 1];
      DownloadBatchesSpec(init, download);
      DownloadBatchSpec(last, download);
      assert Concat(batches) == Concat(init) + last;
    }
  }

  /** Once the batches before `i` succeeded, batch `i` decides; a failing
      prefix fails the whole run with its error. */
  lemma {:induction false} DownloadBatchesPrefix(batches: seq<seq<Value>>, i: nat, download: seq<Value> -> Result<()>)
    requires i <= |batches|
    ensures DownloadBatches(batches[..i], download).Failure? ==>
      DownloadBatches(batches, download) == DownloadBatches(batches[..i], download)
    decreases |batches| - i
  {
    Prefixes(batches, i);
    if i < |batches| {
      DownloadBatchesPrefix(batches, i + 1, download);
    }
  }

  /** A gather after successful ones decides the outcome of the prefix it ends. */
  lemma DownloadBatchesStep(batches: seq<seq<Value>>, i: nat, download: seq<Value> -> Result<()>)
    requires i < |batches| && DownloadBatches(batches[..i], download) == Success(())
    ensures DownloadBatches(batches[..i + 1], download) == DownloadBatch(batches[i], download)
  {
    Prefixes(batches, i);
  }

  lemma Prefixes<T>(xs: seq<T>, i: nat)
    requires i <= |xs|
    ensures i == |xs| ==> xs[..i] == xs
    ensures i < |xs| ==> xs[..i + 1][..i] == xs[..i] && xs[..i + 1][i] == xs[i] && xs[..i + 1] == xs[..i] + [xs[i]]
  {
  }

  /** `_run_download_workers` after the classification. */
  function Workers(large: seq<ItemRef>, small: Value, download: seq<Value> -> Result<()>): Result<()>
  {
    if large != [] then Failure(AttributeError(LargeDownloadCalled))
    else if !Truthy(small) then Success(())
    else if !small.VList? then Failure(TypeError)
    else DownloadBatches(Chunks(small.items, Session.MaxCoroutineCount), download)
  }

  /** The repository has no `download_large_annotation`, so any large item
      fails the download; otherwise it succeeds exactly when every small
      chunk downloads. */
  lemma WorkersSpec(large: seq<ItemRef>, small: Value, download: seq<Value> -> Result<()>)
    ensures large != [] ==> Workers(large, small, download) == Failure(AttributeError("download_large_annotation"))
    ensures large == [] && small.VList? ==>
      (Workers(large, small, download).Success? <==> forall c :: c in small.items ==> Downloads(c, download))
  {
    if large == [] && small.VList? {
      ChunksSpec(small.items, Session.MaxCoroutineCount);
      DownloadBatchesSpec(Chunks(small.items, Session.MaxCoroutineCount), download);
    }
  }

  /** The gathers of small downloads, batch by batch; `started` are the
      batches begun. */
  method RunBatches(all: seq<seq<Value>>, download: seq<Value> -> Result<()>)
    returns (r: Result<()>, started: seq<seq<Value>>)
    ensures r == DownloadBatches(all, download)
    ensures started <= all
    ensures r.Success? ==> started == all
  {
    started := [];
    var i := 0;
    while i < |all|
      invariant 0 <= i <= |all|
      invariant started == all[..i]
      invariant DownloadBatches(all[..i], download) == Success(())
    {
      Prefixes(all, i);
      DownloadBatchesStep(all, i, download);
      DownloadBatchesPrefix(all, i + 1, download);
      started := started + [all[i]];
      var ids := GatherBatch(all[i], One(ChunkIds));
      if ids.Failure? {
        return Failure(ids.error), started;
      }
      var done := GatherBatch(ids.value, Quiet(download));
      if done.Failure? {
        return Failure(done.error), started;
      }
      i := i + 1;
    }
    Prefixes(all, i);
    r := Success(());
  }

  /** `_run_download_workers`: the large items first, four to a gather, then
      the small chunks, eight to a gather. */
  method RunDownloadWorkers(large: seq<ItemRef>, small: Value, download: seq<Value> -> Result<()>)
    returns (r: Result<()>, batches: seq<seq<Value>>)
    ensures r == Workers(large, small, download)
    ensures small.VList? ==> batches <= Chunks(small.items, Session.MaxCoroutineCount)
    ensures forall k :: 0 <= k < |batches| ==> 0 < |batches[k]| <= Session.MaxCoroutineCount
  {
    batches := [];
    if large != [] {
      var task := Attribute(LargeDownloadCalled);
      return Failure(task.error), batches;
    }
    if !Truthy(small) {
      return Success(()), batches;
    }
    if !small.VList? {
      return Failure(TypeError), batches;
    }
    ChunksSpec(small.items, Session.MaxCoroutineCount);
    r, batches := RunBatches(Chunks(small.items, Session.MaxCoroutineCount), download);
  }

  /** `adownload_annotations` once classification works: the large items
      are picked from `items` as in `alist_annotations`, while the small
      chunks go to the workers as the server sent them. */
  function ADownload(items: seq<ItemRef>, resp: Session.Response, order: seq<string>,
                     download: seq<Value> -> Result<()>): Result<()>
    requires resp.body.VObj? && Annotations.SmallOf(resp.body.fields).VObj? ==>
      Annotations.ListsKeys(order, Annotations.SmallOf(resp.body.fields).fields)
  {
    var sorted :- Annotations.SortBySize(resp, order);
    var ids :- LargeIdSet(sorted.large);
    Workers(LargeItems(items, ids), sorted.small, download)
  }

  /** An item the server classifies as large makes the download fail: the
      repository has no method to download it. */
  lemma ADownloadLargeItemFails(items: seq<ItemRef>, resp: Session.Response, order: seq<string>,
                                download: seq<Value> -> Result<()>, k: nat, j: nat)
    requires resp.body.VObj? && Annotations.SmallOf(resp.body.fields).VObj? ==>
      Annotations.ListsKeys(order, Annotations.SmallOf(resp.body.fields).fields)
    requires Annotations.SortBySize(resp, order).Success?
    requires var large := Annotations.SortBySize(resp, order).value.large;
      && LargeIdSet(large).Success? && k < |items| && j < |large| && HashedId(large[j]) == Success(VInt(items[k].id))
    ensures ADownload(items, resp, order, download) == Failure(AttributeError("download_large_annotation"))
  {
    LargeItemPicked(items, Annotations.SortBySize(resp, order).value.large, k, j);
  }

  lemma LargeItemPicked(items: seq<ItemRef>, large: seq<Value>, k: nat, j: nat)
    requires LargeIdSet(large).Success? && k < |items| && j < |large| && HashedId(large[j]) == Success(VInt(items[k].id))
    ensures LargeItems(items, LargeIdSet(large).value) != []
  {
    assert items[k] in LargeItems(items, LargeIdSet(large).value);
  }

  /** The id `true` stands for 1 in the set, so item 1 is large; an id that
      is a list cannot be put in the set. */
  lemma LargeIdTrueIsOne()
    ensures LargeIdSet([VObj(map["id" := VBool(true)])]).Success?
    ensures LargeItems([ItemRef(1, "a"), ItemRef(2, "b")], LargeIdSet([VObj(map["id" := VBool(true)])]).value)
            == [ItemRef(1, "a")]
    ensures LargeIdSet([VObj(map["id" := VList([VInt(1)])])]) == Failure(TypeError)
  {
    var large := [VObj(map["id" := VBool(true)])];
    assert HashedId(large[0]) == Success(VInt(1));
    var ids := LargeIdSet(large).value;
    assert VInt(1) in ids;
    assert forall v :: v in ids ==> v == VInt(1);
    var items := [ItemRef(1, "a"), ItemRef(2, "b")];
    assert LargeItems(items[..1], ids) == [items[0]];
    assert items[..|items| - 1] == items[..1];
    var bad := [VObj(map["id" := VList([VInt(1)])])];
    assert HashedId(bad[0]) == Failure(TypeError);
  }

  /** `adownload_annotations`: classify, then run the workers. */
  method ADownloadAnnotations(items: seq<ItemRef>, resp: Session.Response, order: seq<string>,
                              download: seq<Value> -> Result<()>)
    returns (r: Result<()>, batches: seq<seq<Value>>)
    requires resp.body.VObj? && Annotations.SmallOf(resp.body.fields).VObj? ==>
      Annotations.ListsKeys(order, Annotations.SmallOf(resp.body.fields).fields)
    ensures r == ADownload(items, resp, order, download)
    ensures forall k :: 0 <= k < |batches| ==> 0 < |batches[k]| <= Session.MaxCoroutineCount
  {
    batches := [];
    var sorted := Annotations.SortBySize(resp, order);
    if sorted.Failure? {
      return Failure(sorted.error), batches;
    }
    var ids := LargeIdSet(sorted.value.large);
    if ids.Failure? {
      return Failure(ids.error), batches;
    }
    var large := LargeItems(items, ids.value);
    r, batches := RunDownloadWorkers(large, sorted.value.small, download);
  }

  /** `adownload_annotations` as it looks the classifier up: under `classifier`. */
  function ADownloadWith(classifier: string, items: seq<ItemRef>, resp: Session.Response, order: seq<string>,
                         download: seq<Value> -> Result<()>): Result<()>
    requires resp.body.VObj? && Annotations.SmallOf(resp.body.fields).VObj? ==>
      Annotations.ListsKeys(order, Annotations.SmallOf(resp.body.fields).fields)
  {
    var found :- Attribute(classifier);
    ADownload(items, resp, order, download)
  }

  /** The same misspelt lookup makes every `adownload_annotations` raise. */
  lemma ADownloadClassifierMismatch(items: seq<ItemRef>, resp: Session.Response, order: seq<string>,
                                    download: seq<Value> -> Result<()>)
    requires resp.body.VObj? && Annotations.SmallOf(resp.body.fields).VObj? ==>
      Annotations.ListsKeys(order, Annotations.SmallOf(resp.body.fields).fields)
    ensures ADownloadWith(ClassifierCalled, items, resp, order, download)
         == Failure(AttributeError("sort_annotations_by_size"))
    ensures ADownloadWith(ClassifierDefined, items, resp, order, download)
         == ADownload(items, resp, order, download)
  {
  }

  // ---------------------------------------------------------------------
  // Folder.get_annotations

  /** `{name: index for index, name in enumerate(item_names)}`: a repeated
      name keeps the index of its last occurrence. */
  function NameIndex(names: seq<string>): (r: map<string, nat>)
    ensures forall n :: n in r <==> n in names
    ensures forall n :: n in r ==> r[n] < |names| && names[r[n]] == n
    ensures forall n, j :: n in r && r[n] < j < |names| ==> names[j] != n
    decreases |names|
  {
    if names == [] then map[]
    else
      var init := names[..|names| - 1];
      assert forall n :: n in names <==> n in init || n == names[|names| - 1];
      NameIndex(init)[names[|names| - 1] := |names| - 1]
  }

  /** `name_to_index[x["metadata"]["name"]]`: a name that cannot be hashed
      raises TypeError, and one that is not a requested name KeyError. */
  function Rank(index: map<string, nat>, doc: Value): (r: Result<nat>)
    ensures MetadataName(doc).Failure? ==> r == Failure(MetadataName(doc).error)
    ensures r.Success? <==> MetadataName(doc).Success? && MetadataName(doc).value.VStr? && MetadataName(doc).value.s in index
    ensures r.Success? ==> r.value == index[MetadataName(doc).value.s]
    ensures MetadataName(doc).Success? && !Hashable(MetadataName(doc).value) ==> r == Failure(TypeError)
  {
    match MetadataName(doc)
    case Failure(e) => Failure(e)
    case Success(name) =>
      if !Hashable(name) then Failure(TypeError)
      else if name.VStr? && name.s in index then Success(index[name.s])
      else Failure(KeyError(if name.VStr? then name.s else ""))
  }

  function RankOf(index: map<string, nat>): Value -> Result<nat>
  {
    doc => Rank(index, doc)
  }

  /** The sort key once every key has been computed. */
  function KeyOf(index: map<string, nat>, doc: Value): nat
  {
    match RankOf(index)(doc)
    case Success(n) => n
    case Failure(_) => 0
  }

  function KeyIn(index: map<string, nat>): Value -> nat
  {
    (doc: Value) => KeyOf(index, doc)
  }

  predicate SortedBy<T>(s: seq<T>, key: T -> nat)
  {
    forall i, j :: 0 <= i < j < |s| ==> key(s[i]) <= key(s[j])
  }

  /** The elements of `s` whose key is `k`, in their order in `s`. */
  function WithKey<T>(s: seq<T>, key: T -> nat, k: nat): seq<T>
    decreases |s|
  {
    if s == [] then []
    else WithKey(s[..|s| - 1], key, k) + (if key(s[|s| - 1]) == k then [s[|s| - 1]] else [])
  }

  /** `x` placed after every element whose key is not larger. */
  function Insert<T>(x: T, t: seq<T>, key: T -> nat): seq<T>
    decreases |t|
  {
    if t == [] || key(t[|t| - 1]) <= key(x) then t + [x]
    else Insert(x, t[..|t| - 1], key) + [t[|t| - 1]]
  }

  /** `sorted(s, key=key)`: Python's sort is stable, so it is determined by
      the keys; insertion from the left gives the same list. */
  function SortBy<T>(s: seq<T>, key: T -> nat): seq<T>
    decreases |s|
  {
    if s == [] then [] else Insert(s[|s| - 1], SortBy(s[..|s| - 1], key), key)
  }

  lemma {:induction false} InsertKeeps<T>(x: T, t: seq<T>, key: T -> nat)
    ensures multiset(Insert(x, t, key)) == multiset(t) + multiset{x}
    decreases |t|
  {
    var r := Insert(x, t, key);
    if t == [] || key(t[|t| - 1]) <= key(x) {
    } else {
      var t', y := t[..|t| - 1], t[|t| - 1];
      InsertKeeps(x, t', key);
      assert t == t' + [y];
    }
  }

  lemma {:induction false} InsertSorts<T>(x: T, t: seq<T>, key: T -> nat)
    requires SortedBy(t, key)
    ensures SortedBy(Insert(x, t, key), key)
    decreases |t|
  {
    var r := Insert(x, t, key);
    if t == [] || key(t[|t| - 1]) <= key(x) {
      assert r == t + [x];
    } else {
      var t', y := t[..|t| - 1], t[|t| - 1];
      InsertSorts(x, t', key);
      InsertKeeps(x, t', key);
      var r' := Insert(x, t', key);
      assert r == r' + [y];
      forall i | 0 <= i < |r'|
        ensures key(r'[i]) <= key(y)
      {
        assert r'[i] in multiset(r');
        assert r'[i] in multiset(t') + multiset{x};
      }
    }
  }

  lemma {:induction false} InsertStable<T>(x: T, t: seq<T>, key: T -> nat, k: nat)
    ensures WithKey(Insert(x, t, key), key, k) == WithKey(t, key, k) + (if key(x) == k then [x] else [])
    decreases |t|
  {
    var r := Insert(x, t, key);
    if t == [] || key(t[|t| - 1]) <= key(x) {
      SnocParts(t, x);
    } else {
      var t', y := t[..|t| - 1], t[|t| - 1];
      InsertStable(x, t', key, k);
      SnocParts(Insert(x, t', key), y);
    }
  }

  lemma SnocParts<T>(t: seq<T>, x: T)
    ensures (t + [x])[..|t|] == t && (t + [x])[|t|] == x && |t + [x]| == |t| + 1
  {
  }

  /** Sorting keeps the elements, orders them by key, and keeps the order of
      elements with equal keys. */
  lemma SortBySpec<T>(s: seq<T>, key: T -> nat)
    ensures multiset(SortBy(s, key)) == multiset(s)
    ensures SortedBy(SortBy(s, key), key)
    ensures forall k :: WithKey(SortBy(s, key), key, k) == WithKey(s, key, k)
  {
    SortByKeeps(s, key);
    SortBySorts(s, key);
    forall k
      ensures WithKey(SortBy(s, key), key, k) == WithKey(s, key, k)
    {
      SortByStable(s, key, k);
    }
  }

  lemma {:induction false} SortByKeeps<T>(s: seq<T>, key: T -> nat)
    ensures multiset(SortBy(s, key)) == multiset(s)
    decreases |s|
  {
    if s != [] {
      var init := s[..|s| - 1];
      SortByKeeps(init, key);
      InsertKeeps(s[|s| - 1], SortBy(init, key), key);
      InitLast(s);
    }
  }

  lemma {:induction false} SortBySorts<T>(s: seq<T>, key: T -> nat)
    ensures SortedBy(SortBy(s, key), key)
    decreases |s|
  {
    if s != [] {
      SortBySorts(s[..|s| - 1], key);
      InsertSorts(s[|s| - 1], SortBy(s[..|s| - 1], key), key);
    }
  }

  lemma {:induction false} SortByStable<T>(s: seq<T>, key: T -> nat, k: nat)
    ensures WithKey(SortBy(s, key), key, k) == WithKey(s, key, k)
    decreases |s|
  {
    if s != [] {
      SortByStable(s[..|s| - 1], key, k);
      InsertStable(s[|s| - 1], SortBy(s[..|s| - 1], key), key, k);
    }
  }

  lemma InitLast<T>(s: seq<T>)
    requires |s| > 0
    ensures s == s[..|s| - 1] + [s[|s| - 1]]
  {
  }

  /** The re-sort of `get_annotations` when item names are given: every key
      is computed first, so a document whose name is not requested raises
      KeyError; then the documents are sorted stably by that key. */
  function ByNameOrder(docs: seq<Value>, names: seq<string>): (r: Result<seq<Value>>)
  {
    var ranks :- Each(docs, One(RankOf(NameIndex(names))));
    Success(SortBy(docs, KeyIn(NameIndex(names))))
  }

  /** The re-sort keeps every document, orders them by the last position of
      their name among the requested names, keeps the received order among
      documents of one name, and succeeds exactly when every document's
      name was requested. */
  lemma ByNameOrderSpec(docs: seq<Value>, names: seq<string>)
    ensures ByNameOrder(docs, names).Success? <==>
      forall k :: 0 <= k < |docs| ==>
        (MetadataName(docs[k]).Success? && MetadataName(docs[k]).value.VStr? && MetadataName(docs[k]).value.s in names)
    ensures var r := ByNameOrder(docs, names);
      r.Success? ==>
        && multiset(r.value) == multiset(docs)
        && SortedBy(r.value, KeyIn(NameIndex(names)))
        && forall k :: WithKey(r.value, KeyIn(NameIndex(names)), k) == WithKey(docs, KeyIn(NameIndex(names)), k)
    ensures var r := ByNameOrder(docs, names);
      r.Failure? ==>
        exists k :: 0 <= k < |docs| && Rank(NameIndex(names), docs[k]) == Failure(r.error)
                    && forall j :: 0 <= j < k ==> Rank(NameIndex(names), docs[j]).Success?
  {
    EachOne(docs, RankOf(NameIndex(names)));
    EachSpec(docs, One(RankOf(NameIndex(names))));
    SortBySpec(docs, KeyIn(NameIndex(names)));
  }

  /** A document whose name is a list makes the re-sort raise TypeError. */
  lemma UnhashableNameRaises()
    ensures ByNameOrder([VObj(map["metadata" := VObj(map["name" := VList([])])])], ["a"]) == Failure(TypeError)
  {
    var doc := VObj(map["metadata" := VObj(map["name" := VList([])])]);
    assert Rank(NameIndex(["a"]), doc) == Failure(TypeError);
    ByNameOrderSpec([doc], ["a"]);
  }

  /** `get_annotations` after `list_items` returned `items`: no items means
      no documents; with item names the documents are re-sorted. */
  function Annotated(items: seq<ItemRef>, itemNames: seq<string>, resp: Session.Response, order: seq<string>,
                     fetchLarge: int -> Result<Value>, fetchSmall: seq<Value> -> Result<seq<Value>>): Result<seq<Value>>
    requires resp.body.VObj? && Annotations.SmallOf(resp.body.fields).VObj? ==>
      Annotations.ListsKeys(order, Annotations.SmallOf(resp.body.fields).fields)
  {
    var docs :- if items == [] then Success([]) else AList(items, resp, order, fetchLarge, fetchSmall);
    if itemNames == [] then Success(docs) else ByNameOrder(docs, itemNames)
  }

  /** `Folder.get_annotations`. Without names the documents come back in the
      order `alist_annotations` produced them; with names, as a stable sort
      of them by requested position. */
  method GetAnnotations(items: seq<ItemRef>, itemNames: seq<string>, resp: Session.Response, order: seq<string>,
                        fetchLarge: int -> Result<Value>, fetchSmall: seq<Value> -> Result<seq<Value>>)
    returns (r: Result<seq<Value>>)
    requires resp.body.VObj? && Annotations.SmallOf(resp.body.fields).VObj? ==>
      Annotations.ListsKeys(order, Annotations.SmallOf(resp.body.fields).fields)
    ensures r == Annotated(items, itemNames, resp, order, fetchLarge, fetchSmall)
    ensures items == [] ==> r == Success([])
    ensures items != [] && itemNames == [] ==> r == AList(items, resp, order, fetchLarge, fetchSmall)
    ensures items != [] && itemNames != [] && r.Success? ==>
      && AList(items, resp, order, fetchLarge, fetchSmall).Success?
      && multiset(r.value) == multiset(AList(items, resp, order, fetchLarge, fetchSmall).value)
      && SortedBy(r.value, KeyIn(NameIndex(itemNames)))
  {
    var docs: seq<Value> := [];
    if items != [] {
      var fetched, largeBatches, smallBatches := AListAnnotations(items, resp, order, fetchLarge, fetchSmall);
      if fetched.Failure? {
        return Failure(fetched.error);
      }
      docs := fetched.value;
    }
    if itemNames == [] {
      return Success(docs);
    }
    ByNameOrderSpec(docs, itemNames);
    r := ByNameOrder(docs, itemNames);
    assert docs == [] ==> SortBy(docs, KeyIn(NameIndex(itemNames))) == [];
  }

  // ---------------------------------------------------------------------
  // Item._list_items, Item.get, Item.bulk_delete

  /** A query condition: equality clauses joined with `&`. */
  datatype Condition = Eq(field: string, value: Value) | And(left: Condition, right: Condition)

  /** The equality clauses a condition conjoins. */
  function Clauses(c: Condition): set<(string, Value)>
  {
    match c
    case Eq(f, v) => {(f, v)}
    case And(l, r) => Clauses(l) + Clauses(r)
  }

  /** The repository call `_list_items` makes. */
  datatype Listing = ByIds(ids: seq<int>) | ByNames(names: seq<string>) | ByCondition(condition: Condition)

  /** `_list_items`: ids win over names, names over the condition; the
      condition is always narrowed to the project and the folder. An empty
      list stands for a missing one, as both are falsy. */
  function ListItemsCall(projectId: int, folderId: int, itemIds: seq<int>, itemNames: seq<string>,
                         condition: Option<Condition>): (r: Listing)
    ensures itemIds != [] ==> r == ByIds(itemIds)
    ensures itemIds == [] && itemNames != [] ==> r == ByNames(itemNames)
    ensures itemIds == [] && itemNames == [] ==> r.ByCondition?
    ensures r.ByCondition? ==>
      && ("project_id", VInt(projectId)) in Clauses(r.condition)
      && ("folder_id", VInt(folderId)) in Clauses(r.condition)
      && (condition.Some? ==> Clauses(r.condition) == Clauses(condition.value) + {("project_id", VInt(projectId)), ("folder_id", VInt(folderId))})
      && (condition.None? ==> Clauses(r.condition) == {("project_id", VInt(projectId)), ("folder_id", VInt(folderId))})
  {
    if itemIds != [] then ByIds(itemIds)
    else if itemNames != [] then ByNames(itemNames)
    else
      var scope := And(Eq("project_id", VInt(projectId)), Eq("folder_id", VInt(folderId)));
      if condition.Some? then
        var inProject := And(condition.value, Eq("project_id", VInt(projectId)));
        assert Clauses(inProject) == Clauses(condition.value) + {("project_id", VInt(projectId))};
        ByCondition(And(inProject, Eq("folder_id", VInt(folderId))))
      else ByCondition(scope)
  }

  /** A primary key: an int, a string, or anything else. */
  datatype Key = IntKey(id: int) | StrKey(name: string) | OtherKey

  /** `next(i for i, x in enumerate(names) if x == name)`: the first position. */
  function FirstNamed(names: seq<string>, name: string): (r: Option<nat>)
    ensures r.Some? ==> r.value < |names| && names[r.value] == name
    ensures r.Some? ==> forall j :: 0 <= j < r.value ==> names[j] != name
    ensures r.None? ==> forall j :: 0 <= j < |names| ==> names[j] != name
    decreases |names|
  {
    if names == [] then None
    else if names[0] == name then Some(0)
    else match FirstNamed(names[1..], name)
      case None => None
      case Some(i) => Some(i + 1)
  }

  function ItemName(item: ItemRef): string { item.name }

  function ItemId(item: ItemRef): int { item.id }

  /** `Item.get`: an int key is fetched by id; a string key needs a folder
      and picks the first listed item of that name (none found makes
      `_from_entity(None)` fail on `None.dict`); any other key is refused.
      `byId` is what `get_by_id` returns, `listed` what the name query lists. */
  function GetItem(pk: Key, folderId: int, byId: Result<ItemRef>, listed: seq<ItemRef>): (r: Result<ItemRef>)
    ensures pk.IntKey? ==> r == byId
    ensures pk.OtherKey? ==> r == Failure(InvalidInput("Invalid primery key."))
    ensures pk.StrKey? && folderId == 0 ==> r == Failure(InvalidInput("To access iteam provide folder_id."))
    ensures pk.StrKey? && folderId != 0 ==>
      (r.Success? <==> exists k :: 0 <= k < |listed| && listed[k].name == pk.name)
    ensures pk.StrKey? && folderId != 0 && r.Success? ==>
      r.value.name == pk.name
      && exists k :: 0 <= k < |listed| && listed[k] == r.value && forall j :: 0 <= j < k ==> listed[j].name != pk.name
    ensures pk.StrKey? && folderId != 0 && r.Failure? ==> r.error == AttributeError("dict")
  {
    match pk
    case IntKey(_) => byId
    case OtherKey => Failure(InvalidInput("Invalid primery key."))
    case StrKey(name) =>
      if folderId == 0 then Failure(InvalidInput("To access iteam provide folder_id."))
      else match FirstNamed(Map(listed, ItemName), name)
        case Some(k) => Success(listed[k])
        case None => Failure(AttributeError("dict"))
  }

  /** `bulk_delete` as written: the ids of the delete request, or None when
      none is sent. `listed` is what `_list_items` returns for the names
      (or, without names, for the whole folder). The delete sits inside the
      branch for an empty `item_ids`. */
  function BulkDeleteAsWritten(itemIds: seq<int>, listed: seq<ItemRef>): Option<seq<int>>
  {
    if itemIds == [] then
      var ids := Map(listed, ItemId);
      if ids != [] then Some(ids) else None
    else None
  }

  /** `bulk_delete` with the delete after the lookup, as evidently intended:
      the given ids, or else the ids found, are deleted when there are any. */
  function BulkDelete(itemIds: seq<int>, listed: seq<ItemRef>): (r: Option<seq<int>>)
    ensures itemIds != [] ==> r == Some(itemIds)
    ensures itemIds == [] ==> (r.Some? <==> listed != [])
    ensures itemIds == [] && r.Some? ==> r.value == Map(listed, ItemId)
  {
    var ids := if itemIds == [] then Map(listed, ItemId) else itemIds;
    if ids != [] then Some(ids) else None
  }

  /** As written, ids passed by the caller are never deleted; the two agree
      when no ids are passed. */
  lemma BulkDeleteIgnoresGivenIds(itemIds: seq<int>, listed: seq<ItemRef>)
    ensures itemIds != [] ==> BulkDeleteAsWritten(itemIds, listed) == None && BulkDelete(itemIds, listed) == Some(itemIds)
    ensures itemIds == [] ==> BulkDeleteAsWritten(itemIds, listed) == BulkDelete(itemIds, listed)
  {
  }

  /** The smallest input that shows it: deleting item 7 by id sends nothing. */
  lemma BulkDeleteCounterexample()
    ensures BulkDeleteAsWritten([7], []) == None
    ensures BulkDelete([7], []) == Some([7])
  {
  }

  // ---------------------------------------------------------------------
  // Folder.assign, Folder.delete_folders, Folder.get_by_name

  /** `i["user_id"]` as an element of `verified_users`. */
  function UserIdOf(user: Value): Result<Value> { HashedField(user, "user_id") }

  /** `Folder.assign`: the repository is called, with the full requested list,
      exactly when one requested user is among the project's users; None
      when it is not called. Reading a project user without "user_id", or
      with one that cannot be hashed, raises. */
  function AssignTarget(users: seq<string>, projectUsers: seq<Value>): (r: Result<Option<seq<string>>>)
    ensures r.Success? <==> forall k :: 0 <= k < |projectUsers| ==>
      Get(projectUsers[k], "user_id").Success? && Hashable(Get(projectUsers[k], "user_id").value)
    ensures r.Failure? ==> exists k :: 0 <= k < |projectUsers| && UserIdOf(projectUsers[k]) == Failure(r.error)
    ensures r.Success? && r.value.Some? ==> r.value.value == users
    ensures r.Success? ==> (r.value.Some? <==>
      exists i, k :: 0 <= i < |users| && 0 <= k < |projectUsers| && Get(projectUsers[k], "user_id") == Success(VStr(users[i])))
  {
    EachOne(projectUsers, UserIdOf);
    EachSpec(projectUsers, One(UserIdOf));
    var ids :- Each(projectUsers, One(UserIdOf));
    var verified := set v | v in ids;
    if exists i :: 0 <= i < |users| && VStr(users[i]) in verified then Success(Some(users)) else Success(None)
  }

  /** A folder entity, as far as the façade reads it. */
  datatype FolderRef = FolderRef(id: int, name: string, isRoot: bool)

  /** The ids of the folders whose name is listed, in folder order. */
  function Named(folders: seq<FolderRef>, names: seq<string>): seq<int>
    decreases |folders|
  {
    if folders == [] then []
    else
      var last := folders[|folders| - 1];
      Named(folders[..|folders| - 1], names) + (if last.name in names then [last.id] else [])
  }

  /** The positions of the folders whose name is listed. */
  function NamedAt(folders: seq<FolderRef>, names: seq<string>): set<nat>
  {
    set k: nat | k < |folders| && folders[k].name in names
  }

  /** One id per listed folder, and only those ids. */
  lemma NamedSpec(folders: seq<FolderRef>, names: seq<string>)
    ensures |Named(folders, names)| == |NamedAt(folders, names)|
    ensures forall id :: id in Named(folders, names) <==>
      exists k :: 0 <= k < |folders| && folders[k].id == id && folders[k].name in names
  {
    NamedCount(folders, names);
    NamedIds(folders, names);
  }

  lemma {:induction false} NamedCount(folders: seq<FolderRef>, names: seq<string>)
    ensures |Named(folders, names)| == |NamedAt(folders, names)|
    decreases |folders|
  {
    if folders != [] {
      var init := folders[..|folders| - 1];
      var n := |folders| - 1;
      NamedCount(init, names);
      assert forall k :: 0 <= k < n ==> init[k] == folders[k];
      assert n !in NamedAt(init, names);
      if folders[n].name in names {
        assert NamedAt(folders, names) == NamedAt(init, names) + {n};
      } else {
        assert NamedAt(folders, names) == NamedAt(init, names);
      }
    }
  }

  lemma {:induction false} NamedIds(folders: seq<FolderRef>, names: seq<string>)
    ensures forall id :: id in Named(folders, names) <==>
      exists k :: 0 <= k < |folders| && folders[k].id == id && folders[k].name in names
    decreases |folders|
  {
    if folders != [] {
      var init := folders[..|folders| - 1];
      var n := |folders| - 1;
      NamedIds(init, names);
      assert forall k :: 0 <= k < n ==> init[k] == folders[k];
      forall id | exists k :: 0 <= k < |folders| && folders[k].id == id && folders[k].name in names
        ensures id in Named(folders, names)
      {
        var k :| 0 <= k < |folders| && folders[k].id == id && folders[k].name in names;
        if k < n {
          assert init[k] == folders[k];
        }
      }
    }
  }

  /** `delete_folders`: `existing` is the project's folder list; the ids of
      the named folders are deleted in one request, sent only when there
      are any, and their number is returned. `deleteStatus` is the status of
      that request, which `bulk_delete` checks with `raise_for_status`. */
  method DeleteFolders(existing: seq<FolderRef>, names: seq<string>, deleteStatus: int)
    returns (r: Result<nat>, deleted: Option<seq<int>>)
    ensures deleted == if |NamedAt(existing, names)| > 0 then Some(Named(existing, names)) else None
    ensures deleted.Some? ==> forall id :: id in deleted.value <==>
      exists k :: 0 <= k < |existing| && existing[k].id == id && existing[k].name in names
    ensures r.Failure? <==> deleted.Some? && !Session.IsOk(deleteStatus)
    ensures r.Failure? ==> r.error == HttpError(deleteStatus)
    ensures r.Success? ==> r.value == |NamedAt(existing, names)|
  {
    var toDelete: seq<int> := [];
    var i := 0;
    while i < |existing|
      invariant 0 <= i <= |existing|
      invariant toDelete == Named(existing[..i], names)
    {
      assert existing[..i + 1][..i] == existing[..i];
      if existing[i].name in names {
        toDelete := toDelete + [existing[i].id];
      }
      i := i + 1;
    }
    assert existing[..i] == existing;
    NamedSpec(existing, names);
    deleted := if toDelete != [] then Some(toDelete) else None;
    if toDelete != [] && !Session.IsOk(deleteStatus) {
      return Failure(HttpError(deleteStatus)), deleted;
    }
    r := Success(|toDelete|);
  }

  function FolderName(folder: FolderRef): string { folder.name }

  /** `Folder.get_by_name`: the first listed folder of that name. */
  function FolderByName(listed: seq<FolderRef>, name: string): (r: Result<FolderRef>)
    ensures r.Success? <==> exists k :: 0 <= k < |listed| && listed[k].name == name
    ensures r.Success? ==> r.value.name == name
    ensures r.Success? ==>
      exists k :: 0 <= k < |listed| && listed[k] == r.value && forall j :: 0 <= j < k ==> listed[j].name != name
    ensures r.Failure? ==> r.error == InvalidInput("Folder not found.")
  {
    match FirstNamed(Map(listed, FolderName), name)
    case Some(k) => Success(listed[k])
    case None => Failure(InvalidInput("Folder not found."))
  }

  // ---------------------------------------------------------------------
  // Project.download_annotations, Project.get_folder

  /** The download path of one folder: the root folder downloads into the
      path itself, every other folder into a sub-path named after it. */
  function FolderPath(base: string, folder: FolderRef): string
  {
    if folder.isRoot then base else base + "/" + folder.name
  }

  /** `Project.download_annotations`: every folder in turn; the first folder
      whose download raises ends the run. `download` is the outcome of
      `Folder.download_annotations` for a folder and a path. */
  method DownloadProject(folders: seq<FolderRef>, base: string, download: (FolderRef, string) -> Result<()>)
    returns (r: Result<()>, paths: seq<string>)
    ensures |paths| <= |folders|
    ensures forall k :: 0 <= k < |paths| ==> paths[k] == FolderPath(base, folders[k])
    ensures r.Success? <==> |paths| == |folders| && forall k :: 0 <= k < |folders| ==> download(folders[k], paths[k]).Success?
    ensures r.Failure? ==> |paths| > 0 && download(folders[|paths| - 1], paths[|paths| - 1]) == Failure(r.error)
    ensures forall k :: 0 <= k < |paths| - 1 ==> download(folders[k], paths[k]).Success?
  {
    paths := [];
    var i := 0;
    while i < |folders|
      invariant 0 <= i <= |folders| && |paths| == i
      invariant forall k :: 0 <= k < i ==> paths[k] == FolderPath(base, folders[k])
      invariant forall k :: 0 <= k < i ==> download(folders[k], paths[k]).Success?
    {
      var path := FolderPath(base, folders[i]);
      paths := paths + [path];
      var done := download(folders[i], path);
      if done.Failure? {
        return Failure(done.error), paths;
      }
      i := i + 1;
    }
    r := Success(());
  }

  /** `Project.get_folder`: an int key is fetched by id, an empty name means
      the root folder, any other key is refused. */
  function GetFolder(pk: Key, byId: Result<FolderRef>, listed: seq<FolderRef>): (r: Result<FolderRef>)
    ensures pk.IntKey? ==> r == byId
    ensures pk.OtherKey? ==> r == Failure(InvalidInput("Invalid primery key."))
    ensures pk.StrKey? && r.Success? ==> r.value.name == (if pk.name == "" then "root" else pk.name)
    ensures pk.StrKey? ==> (r.Success? <==>
      exists k :: 0 <= k < |listed| && listed[k].name == (if pk.name == "" then "root" else pk.name))
  {
    match pk
    case IntKey(_) => byId
    case OtherKey => Failure(InvalidInput("Invalid primery key."))
    case StrKey(name) => FolderByName(listed, if name == "" then "root" else name)
  }

  /** Asking for the folder "" is asking for "root". */
  lemma GetFolderEmptyIsRoot(byId: Result<FolderRef>, listed: seq<FolderRef>)
    ensures GetFolder(StrKey(""), byId, listed) == GetFolder(StrKey("root"), byId, listed)
  {
  }
}

=== FILE: entities.dfy ===
/** The entity base of core/entities/base.py: the alias handler that renames
    the keys of a dict in place, the key handling of `BaseEntity.from_json`,
    and the enum lookup `_serialzie_enum`. Field coercion is a parameter. */
module Entities {
  import opened Wrappers
  import opened Json

  /** A dict the code changes in place. Key order is not modelled. */
  class Dict {
    var entries: map<string, Value>

    constructor(entries: map<string, Value>)
      ensures this.entries == entries
    {
      this.entries := entries;
    }
  }

  /** The keys of a dict given as its (key, value) pairs in order are distinct. */
  predicate DistinctKeys(pairs: seq<(string, string)>)
  {
    forall i, j :: 0 <= i < j < |pairs| ==> pairs[i].0 != pairs[j].0
  }

  predicate DistinctValues(pairs: seq<(string, string)>)
  {
    forall i, j :: 0 <= i < j < |pairs| ==> pairs[i].1 != pairs[j].1
  }

  /** Pairs that cannot interfere: distinct from-keys, distinct to-keys, and
      no to-key is also a from-key. */
  predicate Independent(pairs: seq<(string, string)>)
  {
    DistinctKeys(pairs) && DistinctValues(pairs)
    && forall i, j :: 0 <= i < |pairs| && 0 <= j < |pairs| ==> pairs[i].1 != pairs[j].0
  }

  // ---------------------------------------------------------------------
  // AliasHandler

  /** The loop of `AliasHandler.handle` from the pair at hand on: a present
      from-key is popped and its value stored under the to-key; an absent
      one raises KeyError when asked to, and is skipped otherwise. The map
      reached so far is kept when it raises. */
  function Renamed(m: map<string, Value>, pairs: seq<(string, string)>, raise: bool): (Result<()>, map<string, Value>)
    decreases |pairs|
  {
    if pairs == [] then (Success(()), m)
    else
      var (from, to) := pairs[0];
      if from !in m then
        if raise then (Failure(KeyError(from)), m) else Renamed(m, pairs[1..], raise)
      else
        Renamed((m - {from})[to := m[from]], pairs[1..], raise)
  }

  /** `d[key] = value` on a dict given as its pairs in order: an existing key
      keeps its place. */
  function Put(d: seq<(string, string)>, key: string, value: string): seq<(string, string)>
    decreases |d|
  {
    if d == [] then [(key, value)]
    else if d[0].0 == key then [(key, value)] + d[1..]
    else [d[0]] + Put(d[1..], key, value)
  }

  /** `{v: k for k, v in mapping.items()}`. */
  function Inverted(pairs: seq<(string, string)>): seq<(string, string)>
    decreases |pairs|
  {
    if pairs == [] then []
    else Put(Inverted(pairs[..|pairs| - 1]), pairs[|pairs| - 1].1, pairs[|pairs| - 1].0)
  }

  /** Every pair turned around. */
  function Swapped(pairs: seq<(string, string)>): (r: seq<(string, string)>)
    ensures |r| == |pairs| && forall i :: 0 <= i < |pairs| ==> r[i] == (pairs[i].1, pairs[i].0)
  {
    seq(|pairs|, i requires 0 <= i < |pairs| => (pairs[i].1, pairs[i].0))
  }

  lemma {:induction false} PutNew(d: seq<(string, string)>, key: string, value: string)
    requires forall i :: 0 <= i < |d| ==> d[i].0 != key
    ensures Put(d, key, value) == d + [(key, value)]
    decreases |d|
  {
    if d != [] {
      PutNew(d[1..], key, value);
    }
  }

  /** With distinct to-keys, inverting a mapping turns every pair around and
      keeps the order. */
  lemma {:induction false} InvertedSwaps(pairs: seq<(string, string)>)
    requires DistinctValues(pairs)
    ensures Inverted(pairs) == Swapped(pairs)
    decreases |pairs|
  {
    if pairs != [] {
      var init := pairs[..|pairs| - 1];
      InvertedSwaps(init);
      PutNew(Swapped(init), pairs[|pairs| - 1].1, pairs[|pairs| - 1].0);
    }
  }

  /** Inverting twice gives the mapping back when both sides are distinct. */
  lemma InvertedTwice(pairs: seq<(string, string)>)
    requires DistinctKeys(pairs) && DistinctValues(pairs)
    ensures Inverted(Inverted(pairs)) == pairs
  {
    InvertedSwaps(pairs);
    InvertedSwaps(Swapped(pairs));
  }

  /** `AliasHandler`: the alias mapping it was built with, a dict. */
  class AliasHandler {
    const fromTo: seq<(string, string)>

    constructor(fromTo: seq<(string, string)>)
      requires DistinctKeys(fromTo)
      ensures this.fromTo == fromTo
    {
      this.fromTo := fromTo;
    }

    /** The pairs `handle` walks: the mapping, or its inversion. */
    function Mapping(reverseMapping: bool): seq<(string, string)>
    {
      if reverseMapping then Inverted(fromTo) else fromTo
    }

    /** `handle`: renames the keys of `data` in place and returns that same
        dict; with `raiseException` the first absent from-key raises, after
        the pairs before it were applied. */
    method Handle(data: Dict, reverseMapping: bool, raiseException: bool) returns (r: Result<Dict>)
      modifies data
      ensures data.entries == Renamed(old(data.entries), Mapping(reverseMapping), raiseException).1
      ensures r.Success? <==> Renamed(old(data.entries), Mapping(reverseMapping), raiseException).0.Success?
      ensures r.Success? ==> r.value == data
      ensures r.Failure? ==> r.error == Renamed(old(data.entries), Mapping(reverseMapping), raiseException).0.error
    {
      var mapping := Mapping(reverseMapping);
      var i := 0;
      while i < |mapping|
        invariant 0 <= i <= |mapping|
        invariant Renamed(data.entries, mapping[i..], raiseException)
               == Renamed(old(data.entries), mapping, raiseException)
      {
        assert mapping[i..][1..] == mapping[i + 1..];
        var (from, to) := mapping[i];
        if from !in data.entries {
          if raiseException {
            return Failure(KeyError(from));
          }
        } else {
          var value := data.entries[from];
          data.entries := (data.entries - {from})[to := value];
        }
        i := i + 1;
      }
      r := Success(data);
    }
  }

  lemma IndependentRest(pairs: seq<(string, string)>)
    requires Independent(pairs) && pairs != []
    ensures Independent(pairs[1..])
    ensures forall i :: 0 <= i < |pairs| - 1 ==> pairs[1..][i] == pairs[i + 1]
  {
  }

  /** A key the mapping does not name keeps its presence and its value. */
  lemma {:induction false} RenamedOthers(m: map<string, Value>, pairs: seq<(string, string)>, raise: bool, k: string)
    requires forall i :: 0 <= i < |pairs| ==> k != pairs[i].0 && k != pairs[i].1
    ensures var r := Renamed(m, pairs, raise).1;
      (k in r <==> k in m) && (k in m ==> r[k] == m[k])
    decreases |pairs|
  {
    if pairs != [] {
      var (from, to) := pairs[0];
      var rest := pairs[1..];
      assert forall i :: 0 <= i < |rest| ==> rest[i] == pairs[i + 1];
      if from in m {
        RenamedOthers((m - {from})[to := m[from]], rest, raise, k);
      } else if !raise {
        RenamedOthers(m, rest, raise, k);
      }
    }
  }

  /** A present from-key's value ends up under its to-key. */
  lemma {:induction false} RenamedMoves(m: map<string, Value>, pairs: seq<(string, string)>, i: nat)
    requires Independent(pairs) && i < |pairs| && pairs[i].0 in m
    ensures var r := Renamed(m, pairs, false).1;
      pairs[i].1 in r && r[pairs[i].1] == m[pairs[i].0]
    decreases |pairs|
  {
    var (from, to) := pairs[0];
    var rest := pairs[1..];
    IndependentRest(pairs);
    var m' := if from in m then (m - {from})[to := m[from]] else m;
    if i == 0 {
      RenamedOthers(m', rest, false, to);
    } else {
      RenamedMoves(m', rest, i - 1);
    }
  }

  /** The to-key of an absent from-key is left as it was. */
  lemma {:induction false} RenamedSkips(m: map<string, Value>, pairs: seq<(string, string)>, i: nat)
    requires Independent(pairs) && i < |pairs| && pairs[i].0 !in m
    ensures var r := Renamed(m, pairs, false).1;
      (pairs[i].1 in r <==> pairs[i].1 in m) && (pairs[i].1 in m ==> r[pairs[i].1] == m[pairs[i].1])
    decreases |pairs|
  {
    var (from, to) := pairs[0];
    var rest := pairs[1..];
    IndependentRest(pairs);
    var m' := if from in m then (m - {from})[to := m[from]] else m;
    if i == 0 {
      RenamedOthers(m', rest, false, to);
    } else {
      RenamedSkips(m', rest, i - 1);
    }
  }

  /** No from-key is left. */
  lemma {:induction false} RenamedDrops(m: map<string, Value>, pairs: seq<(string, string)>, i: nat)
    requires Independent(pairs) && i < |pairs|
    ensures pairs[i].0 !in Renamed(m, pairs, false).1
    decreases |pairs|
  {
    var (from, to) := pairs[0];
    var rest := pairs[1..];
    IndependentRest(pairs);
    var m' := if from in m then (m - {from})[to := m[from]] else m;
    if i == 0 {
      RenamedOthers(m', rest, false, from);
    } else {
      RenamedDrops(m', rest, i - 1);
    }
  }

  lemma {:induction false} RenamedSucceeds(m: map<string, Value>, pairs: seq<(string, string)>)
    ensures Renamed(m, pairs, false).0 == Success(())
    decreases |pairs|
  {
    if pairs != [] {
      var (from, to) := pairs[0];
      var m' := if from in m then (m - {from})[to := m[from]] else m;
      RenamedSucceeds(m', pairs[1..]);
    }
  }

  /** For pairs that cannot interfere, without raising: each present from-key
      is gone and its value sits under its to-key; the to-key of an absent
      from-key and every key the mapping does not name are untouched. */
  lemma RenamedIndependent(m: map<string, Value>, pairs: seq<(string, string)>)
    requires Independent(pairs)
    ensures Renamed(m, pairs, false).0 == Success(())
    ensures var r := Renamed(m, pairs, false).1;
      forall i :: 0 <= i < |pairs| && pairs[i].0 in m ==> pairs[i].1 in r && r[pairs[i].1] == m[pairs[i].0]
    ensures var r := Renamed(m, pairs, false).1;
      forall i :: 0 <= i < |pairs| && pairs[i].0 !in m ==> (pairs[i].1 in r <==> pairs[i].1 in m)
    ensures var r := Renamed(m, pairs, false).1;
      forall i :: 0 <= i < |pairs| ==> pairs[i].0 !in r
    ensures var r := Renamed(m, pairs, false).1;
      forall k :: (forall i :: 0 <= i < |pairs| ==> k != pairs[i].0 && k != pairs[i].1) ==>
        (k in r <==> k in m) && (k in m ==> r[k] == m[k])
  {
    RenamedSucceeds(m, pairs);
    forall i | 0 <= i < |pairs| && pairs[i].0 in m {
      RenamedMoves(m, pairs, i);
    }
    forall i | 0 <= i < |pairs| && pairs[i].0 !in m {
      RenamedSkips(m, pairs, i);
    }
    forall i | 0 <= i < |pairs| {
      RenamedDrops(m, pairs, i);
    }
    forall k | forall i :: 0 <= i < |pairs| ==> k != pairs[i].0 && k != pairs[i].1 {
      RenamedOthers(m, pairs, false, k);
    }
  }

  /** With every from-key present, raising or not makes no difference. */
  lemma {:induction false} RenamedAllPresent(m: map<string, Value>, pairs: seq<(string, string)>)
    requires Independent(pairs)
    requires forall i :: 0 <= i < |pairs| ==> pairs[i].0 in m
    ensures Renamed(m, pairs, true) == Renamed(m, pairs, false)
    decreases |pairs|
  {
    if pairs != [] {
      var (from, to) := pairs[0];
      var rest := pairs[1..];
      assert forall i :: 0 <= i < |rest| ==> rest[i] == pairs[i + 1];
      RenamedAllPresent((m - {from})[to := m[from]], rest);
    }
  }

  /** With `raise_exception`, the first from-key absent from the input
      raises KeyError, and the pairs before it stay applied. */
  lemma {:induction false} RenamedRaises(m: map<string, Value>, pairs: seq<(string, string)>, j: nat)
    requires Independent(pairs)
    requires j < |pairs| && pairs[j].0 !in m
    requires forall i :: 0 <= i < j ==> pairs[i].0 in m
    ensures Renamed(m, pairs, true) == (Failure(KeyError(pairs[j].0)), Renamed(m, pairs[..j], false).1)
    decreases j
  {
    var (from, to) := pairs[0];
    var rest := pairs[1..];
    assert forall i :: 0 <= i < |rest| ==> rest[i] == pairs[i + 1];
    if j > 0 {
      var m' := (m - {from})[to := m[from]];
      RenamedRaises(m', rest, j - 1);
      assert pairs[..j][1..] == rest[..j - 1];
    }
  }

  /** The reverse mapping undoes the mapping: renaming a dict that holds
      every from-key and no to-key, then renaming it back, gives the dict
      back. */
  lemma RenameRoundTrip(m: map<string, Value>, pairs: seq<(string, string)>)
    requires Independent(pairs)
    requires forall i :: 0 <= i < |pairs| ==> pairs[i].0 in m && pairs[i].1 !in m
    ensures Renamed(Renamed(m, pairs, false).1, Inverted(pairs), false).1 == m
  {
    InvertedSwaps(pairs);
    var back := Swapped(pairs);
    assert Independent(back);
    var r := Renamed(m, pairs, false).1;
    var r2 := Renamed(r, back, false).1;
    forall k
      ensures k in r2 <==> k in m
      ensures k in m ==> r2[k] == m[k]
    {
      if i :| 0 <= i < |pairs| && k == pairs[i].0 {
        RenamedMoves(m, pairs, i);
        RenamedMoves(r, back, i);
      } else if i :| 0 <= i < |pairs| && k == pairs[i].1 {
        RenamedDrops(r, back, i);
      } else {
        RenamedOthers(m, pairs, false, k);
        RenamedOthers(r, back, false, k);
      }
    }
  }

  // ---------------------------------------------------------------------
  // BaseEntity.from_json

  /** What `from_json` reads off an entity class: its declared fields in
      order, the `ALIAS_HANDLER` class attribute, the `Meta.alias_handler`
      the entities declare, and `Meta.extra`. */
  datatype Schema = Schema(fields: seq<string>, aliasAttribute: Option<AliasHandler>,
                           metaAlias: Option<AliasHandler>, extra: Option<string>)

  /** The declared-field loop from the field at hand on: each field is
      popped (None when absent); a truthy value goes through the field's
      coercion, which may raise, a falsy one is stored as it is. */
  function ReadFields(m: map<string, Value>, fields: seq<string>, attrs: map<string, Value>,
                      coerce: (string, Value) -> Result<Value>): (Result<map<string, Value>>, map<string, Value>)
    decreases |fields|
  {
    if fields == [] then (Success(attrs), m)
    else
      var f := fields[0];
      var value := if f in m then m[f] else VNull;
      var m' := m - {f};
      if !Truthy(value) then ReadFields(m', fields[1..], attrs[f := value], coerce)
      else match coerce(f, value)
        case Failure(e) => (Failure(e), m')
        case Success(v) => ReadFields(m', fields[1..], attrs[f := v], coerce)
  }

  /** `from_json` given the alias pairs it applies: the attributes set on
      the new instance, and what is left of the input dict. Leftover keys
      become attributes only when `Meta.extra` is "allow". */
  function Decoded(alias: Option<seq<(string, string)>>, fields: seq<string>, extra: Option<string>,
                   m: map<string, Value>, coerce: (string, Value) -> Result<Value>): (Result<map<string, Value>>, map<string, Value>)
  {
    var renamed := if alias.Some? then Renamed(m, alias.value, false).1 else m;
    var (attrs, left) := ReadFields(renamed, fields, map[], coerce);
    if attrs.Success? && extra == Some("allow") then (Success(attrs.value + left), left)
    else (attrs, left)
  }

  /** Every declared field is set, from the input or to None; falsy values
      are stored without coercion; the input keeps exactly its undeclared
      keys. */
  lemma ReadFieldsSpec(m: map<string, Value>, fields: seq<string>, attrs: map<string, Value>,
                       coerce: (string, Value) -> Result<Value>)
    requires forall i, j :: 0 <= i < j < |fields| ==> fields[i] != fields[j]
    ensures var (r, left) := ReadFields(m, fields, attrs, coerce);
      && (forall k :: k in left ==> k in m && left[k] == m[k])
      && (r.Success? ==> forall k :: k in left <==> k in m && k !in fields)
    ensures var r := ReadFields(m, fields, attrs, coerce).0;
      r.Success? ==>
        && (forall k :: k in r.value <==> k in attrs || k in fields)
        && (forall k :: k in attrs && k !in fields ==> r.value[k] == attrs[k])
        && (forall f :: f in fields && f !in m ==> r.value[f] == VNull)
        && (forall f :: f in fields && f in m && !Truthy(m[f]) ==> r.value[f] == m[f])
        && (forall f :: f in fields && f in m && Truthy(m[f]) ==> coerce(f, m[f]) == Success(r.value[f]))
  {
    ReadFieldsLeft(m, fields, attrs, coerce);
    ReadFieldsValues(m, fields, attrs, coerce);
  }

  lemma {:induction false} ReadFieldsLeft(m: map<string, Value>, fields: seq<string>, attrs: map<string, Value>,
                                          coerce: (string, Value) -> Result<Value>)
    ensures var (r, left) := ReadFields(m, fields, attrs, coerce);
      && (forall k :: k in left ==> k in m && left[k] == m[k])
      && (r.Success? ==> forall k :: k in left <==> k in m && k !in fields)
    decreases |fields|
  {
    if fields != [] {
      var f := fields[0];
      var value := if f in m then m[f] else VNull;
      var m' := m - {f};
      var rest := fields[1..];
      assert forall k :: k in fields <==> k == f || k in rest;
      if !Truthy(value) {
        ReadFieldsLeft(m', rest, attrs[f := value], coerce);
      } else if coerce(f, value).Success? {
        ReadFieldsLeft(m', rest, attrs[f := coerce(f, value).value], coerce);
      }
    }
  }

  lemma {:induction false} ReadFieldsValues(m: map<string, Value>, fields: seq<string>, attrs: map<string, Value>,
                                            coerce: (string, Value) -> Result<Value>)
    requires forall i, j :: 0 <= i < j < |fields| ==> fields[i] != fields[j]
    ensures var r := ReadFields(m, fields, attrs, coerce).0;
      r.Success? ==>
        && (forall k :: k in r.value <==> k in attrs || k in fields)
        && (forall k :: k in attrs && k !in fields ==> r.value[k] == attrs[k])
        && (forall f :: f in fields && f !in m ==> r.value[f] == VNull)
        && (forall f :: f in fields && f in m && !Truthy(m[f]) ==> r.value[f] == m[f])
        && (forall f :: f in fields && f in m && Truthy(m[f]) ==> coerce(f, m[f]) == Success(r.value[f]))
    decreases |fields|
  {
    if fields != [] {
      var f := fields[0];
      var value := if f in m then m[f] else VNull;
      var m' := m - {f};
      var rest := fields[1..];
      assert forall k :: k in fields <==> k == f || k in rest;
      assert f !in rest;
      if !Truthy(value) {
        ReadFieldsValues(m', rest, attrs[f := value], coerce);
      } else if coerce(f, value).Success? {
        ReadFieldsValues(m', rest, attrs[f := coerce(f, value).value], coerce);
      }
    }
  }

  /** `from_json` as written: the handler is looked up as the class
      attribute `ALIAS_HANDLER`. */
  function FromJsonAsWritten(schema: Schema, m: map<string, Value>, coerce: (string, Value) -> Result<Value>)
    : (Result<map<string, Value>>, map<string, Value>)
  {
    var alias := if schema.aliasAttribute.Some? then Some(schema.aliasAttribute.value.fromTo) else None;
    Decoded(alias, schema.fields, schema.extra, m, coerce)
  }

  /** `from_json` reading the handler the entities declare, `Meta.alias_handler`. */
  function FromJsonSpec(schema: Schema, m: map<string, Value>, coerce: (string, Value) -> Result<Value>)
    : (Result<map<string, Value>>, map<string, Value>)
  {
    var alias := if schema.metaAlias.Some? then Some(schema.metaAlias.value.fromTo) else None;
    Decoded(alias, schema.fields, schema.extra, m, coerce)
  }

  /** The key policy of `from_json`: the instance gets every declared field,
      plus the leftover keys exactly when extra keys are allowed. */
  lemma FromJsonKeys(schema: Schema, m: map<string, Value>, coerce: (string, Value) -> Result<Value>)
    requires forall i, j :: 0 <= i < j < |schema.fields| ==> schema.fields[i] != schema.fields[j]
    requires FromJsonSpec(schema, m, coerce).0.Success?
    ensures var (r, left) := FromJsonSpec(schema, m, coerce);
      && (forall k :: k in left ==> k !in schema.fields)
      && (schema.extra == Some("allow") ==> forall k :: k in r.value <==> k in schema.fields || k in left)
      && (schema.extra != Some("allow") ==> forall k :: k in r.value <==> k in schema.fields)
      && (schema.extra == Some("allow") ==> forall k :: k in left ==> r.value[k] == left[k])
  {
    var alias := if schema.metaAlias.Some? then Some(schema.metaAlias.value.fromTo) else None;
    var renamed := if alias.Some? then Renamed(m, alias.value, false).1 else m;
    ReadFieldsSpec(renamed, schema.fields, map[], coerce);
  }

  /** An entity whose `Meta.alias_handler` maps `imageCount` to
      `item_count` (the project entity's first pair) and which declares an
      `item_count` field, with no `ALIAS_HANDLER` attribute: decoding
      `{"imageCount": 5}` as written leaves `item_count` None and the input
      key unrenamed, while reading the declared handler gives 5. */
  lemma AliasNeverApplied(h: AliasHandler, coerce: (string, Value) -> Result<Value>)
    requires h.fromTo == [("imageCount", "item_count")]
    requires coerce("item_count", VInt(5)) == Success(VInt(5))
    ensures FromJsonAsWritten(Schema(["item_count"], None, Some(h), None), map["imageCount" := VInt(5)], coerce).0
         == Success(map["item_count" := VNull])
    ensures FromJsonSpec(Schema(["item_count"], None, Some(h), None), map["imageCount" := VInt(5)], coerce).0
         == Success(map["item_count" := VInt(5)])
    ensures FromJsonAsWritten(Schema(["item_count"], None, Some(h), None), map["imageCount" := VInt(5)], coerce).1
         == map["imageCount" := VInt(5)]
  {
    var m := map["imageCount" := VInt(5)];
    assert Renamed(m, h.fromTo, false).1 == map["item_count" := VInt(5)];
    assert map["item_count" := VInt(5)] - {"item_count"} == map[];
  }

  /** `from_json` on a dict: the handler renames its keys, the declared
      fields are popped from it, and the new instance's attributes are
      returned. */
  method FromJson(schema: Schema, data: Dict, coerce: (string, Value) -> Result<Value>)
    returns (r: Result<map<string, Value>>)
    modifies data
    ensures (r, data.entries) == FromJsonSpec(schema, old(data.entries), coerce)
  {
    if schema.metaAlias.Some? {
      var handled := schema.metaAlias.value.Handle(data, false, false);
    }
    var attrs: map<string, Value> := map[];
    var fields := schema.fields;
    ghost var renamed := data.entries;
    var i := 0;
    while i < |fields|
      invariant 0 <= i <= |fields|
      invariant ReadFields(data.entries, fields[i..], attrs, coerce) == ReadFields(renamed, fields, map[], coerce)
    {
      assert fields[i..][1..] == fields[i + 1..];
      var f := fields[i];
      var value := if f in data.entries then data.entries[f] else VNull;
      data.entries := data.entries - {f};
      if Truthy(value) {
        var coerced := coerce(f, value);
        if coerced.Failure? {
          return Failure(coerced.error);
        }
        value := coerced.value;
      }
      attrs := attrs[f := value];
      i := i + 1;
    }
    if schema.extra == Some("allow") {
      attrs := attrs + data.entries;
    }
    r := Success(attrs);
  }

  // ---------------------------------------------------------------------
  // BaseEntity._serialzie_enum

  /** One member of an enum class. */
  datatype Member = Member(name: string, value: Value)

  /** The value handed over: an enum member (of any class) or a plain value. */
  datatype EnumArg = IsMember(member: Member) | Plain(v: Value)

  function FirstByName(members: seq<Member>, name: string): (r: Option<nat>)
    ensures r.Some? ==> r.value < |members| && members[r.value].name == name
    ensures r.Some? ==> forall j :: 0 <= j < r.value ==> members[j].name != name
    ensures r.None? ==> forall j :: 0 <= j < |members| ==> members[j].name != name
    decreases |members|
  {
    if members == [] then None
    else if members[0].name == name then Some(0)
    else match FirstByName(members[1..], name)
      case None => None
      case Some(i) => Some(i + 1)
  }

  /** The first member whose value equals `v` in Python. */
  function FirstByValue(members: seq<Member>, v: Value): (r: Option<nat>)
    ensures r.Some? ==> r.value < |members| && HashKey(members[r.value].value) == HashKey(v)
    ensures r.Some? ==> forall j :: 0 <= j < r.value ==> HashKey(members[j].value) != HashKey(v)
    ensures r.None? ==> forall j :: 0 <= j < |members| ==> HashKey(members[j].value) != HashKey(v)
    decreases |members|
  {
    if members == [] then None
    else if HashKey(members[0].value) == HashKey(v) then Some(0)
    else match FirstByValue(members[1..], v)
      case None => None
      case Some(i) => Some(i + 1)
  }

  /** The member that the name at position `i` stands for: a later member
      whose value equals an earlier one's is an alias, and the enum hands
      out the first. */
  function Canonical(members: seq<Member>, i: nat): (r: nat)
    requires i < |members|
    ensures r <= i && HashKey(members[r].value) == HashKey(members[i].value)
    ensures forall j :: 0 <= j < r ==> HashKey(members[j].value) != HashKey(members[i].value)
  {
    FirstByValue(members, members[i].value).value
  }

  /** `_serialzie_enum(annotation, val)`: a member is unwrapped to its
      value; `annotation[val]` (by name) is tried first and, when it raises
      KeyError, `annotation(val)` (by value, the first member equal to it),
      which raises ValueError when none does. An unhashable value raises
      TypeError, which is not caught. Either lookup hands out the canonical
      member, never an alias. */
  function SerializeEnum(members: seq<Member>, val: EnumArg): (r: Result<Member>)
    ensures r.Success? ==>
      exists i :: 0 <= i < |members| && members[i] == r.value
        && forall j :: 0 <= j < i ==> HashKey(members[j].value) != HashKey(members[i].value)
  {
    var v := if val.IsMember? then val.member.value else val.v;
    if !Hashable(v) then Failure(TypeError)
    else if v.VStr? && FirstByName(members, v.s).Some? then Success(members[Canonical(members, FirstByName(members, v.s).value)])
    else match FirstByValue(members, v)
      case Some(i) => Success(members[i])
      case None => Failure(ValueError)
  }

  /** The lookup by name wins: a string naming a member gives the member
      that name stands for, even when another member holds that string as
      its value. */
  lemma SerializeEnumByName(members: seq<Member>, val: EnumArg, i: nat)
    requires i < |members| && forall j :: 0 <= j < |members| && j != i ==> members[j].name != members[i].name
    requires (if val.IsMember? then val.member.value else val.v) == VStr(members[i].name)
    ensures SerializeEnum(members, val) == Success(members[Canonical(members, i)])
  {
  }

  /** When no name matches, the lookup falls back to the first member
      equal to the value in Python, and fails with ValueError when there is
      none. */
  lemma SerializeEnumByValue(members: seq<Member>, v: Value)
    requires Hashable(v)
    requires v.VStr? ==> forall j :: 0 <= j < |members| ==> members[j].name != v.s
    ensures SerializeEnum(members, Plain(v)).Success? <==>
      exists j :: 0 <= j < |members| && HashKey(members[j].value) == HashKey(v)
    ensures SerializeEnum(members, Plain(v)).Failure? ==> SerializeEnum(members, Plain(v)).error == ValueError
    ensures SerializeEnum(members, Plain(v)).Success? ==>
      HashKey(SerializeEnum(members, Plain(v)).value.value) == HashKey(v)
      && exists j :: 0 <= j < |members| && members[j] == SerializeEnum(members, Plain(v)).value
           && forall k :: 0 <= k < j ==> HashKey(members[k].value) != HashKey(v)
  {
  }

  /** A member passed in comes back as the member it stands for when no
      member is named after its value. */
  lemma SerializeEnumMember(members: seq<Member>, i: nat)
    requires i < |members| && Hashable(members[i].value)
    requires members[i].value.VStr? ==> forall j :: 0 <= j < |members| ==> members[j].name != members[i].value.s
    ensures SerializeEnum(members, IsMember(members[i])) == Success(members[Canonical(members, i)])
  {
  }

  /** With `A = 1`, `B = 2`, `C = 1`: `C` is an alias of `A`, so the name
      "C", the value 1 and `True` all give `A`; `False` matches nothing. */
  lemma SerializeEnumAliases(members: seq<Member>)
    requires members == [Member("A", VInt(1)), Member("B", VInt(2)), Member("C", VInt(1))]
    ensures SerializeEnum(members, Plain(VStr("C"))) == Success(members[0])
    ensures SerializeEnum(members, Plain(VInt(1))) == Success(members[0])
    ensures SerializeEnum(members, Plain(VBool(true))) == Success(members[0])
    ensures SerializeEnum(members, Plain(VBool(false))) == Failure(ValueError)
  {
    assert FirstByName(members, "C") == Some(2) by {
      assert members[1..][1..] == [members[2]];
    }
  }
}

=== FILE: frames.dfy ===
/** The delimiter framing of the streamed annotation endpoint: the response
    body is a sequence of JSON documents separated by a fixed byte string.
    Models `bytes.split` and the buffer loop of `StreamedAnnotations.fetch`. */
module Frames {
  import opened Wrappers
  import opened Json

  type Bytes = seq<bv8>

  /** The Python literal b"\\n;)\\n": six bytes, backslash 'n' ';' ')' backslash 'n'. */
  const Delimiter: Bytes := [92, 110, 59, 41, 92, 110]

  predicate OccursAt(s: Bytes, d: Bytes, i: nat)
  {
    i + |d| <= |s| && s[i..i + |d|] == d
  }

  /** `s` holds no complete copy of `d`. */
  ghost predicate Clean(s: Bytes, d: Bytes)
  {
    forall j: nat :: !OccursAt(s, d, j)
  }

  /** The leftmost occurrence of `d` in `s` at or after position `i`. */
  function Find(s: Bytes, d: Bytes, i: nat): (r: Option<nat>)
    requires |d| > 0
    ensures r.Some? ==> i <= r.value && r.value + |d| <= |s|
    decreases |s| - i
  {
    if i + |d| > |s| then None
    else if s[i..i + |d|] == d then Some(i)
    else Find(s, d, i + 1)
  }

  /** `Find` returns an occurrence with none before it, and `None` only
      when there is none at all. */
  lemma {:induction false} FindSpec(s: Bytes, d: Bytes, i: nat)
    requires |d| > 0
    ensures var r := Find(s, d, i);
      && (r.Some? ==> i <= r.value && OccursAt(s, d, r.value))
      && (r.Some? ==> forall j: nat :: i <= j < r.value ==> !OccursAt(s, d, j))
      && (r.None? ==> forall j: nat :: i <= j ==> !OccursAt(s, d, j))
    decreases |s| - i
  {
    if i + |d| <= |s| && s[i..i + |d|] != d {
      FindSpec(s, d, i + 1);
    }
  }

  lemma FindIsLeftmost(s: Bytes, d: Bytes, i: nat)
    requires |d| > 0 && OccursAt(s, d, i)
    requires forall j: nat :: j < i ==> !OccursAt(s, d, j)
    ensures Find(s, d, 0) == Some(i)
  {
    FindSpec(s, d, 0);
  }

  /** `b.join(parts)`. */
  function Join(parts: seq<Bytes>, d: Bytes): Bytes
    requires |parts| > 0
  {
    if |parts| == 1 then parts[0] else parts[0] + d + Join(parts[1..], d)
  }

  /** `s.split(d)`: cut at the leftmost occurrence, then split the rest. */
  function Split(s: Bytes, d: Bytes): (r: seq<Bytes>)
    requires |d| > 0
    ensures |r| > 0
    decreases |s|
  {
    match Find(s, d, 0)
    case None => [s]
    case Some(i) => [s[..i]] + Split(s[i + |d|..], d)
  }

  /** Joining the pieces of a split with the delimiter gives the input back. */
  lemma {:induction false} SplitThenJoin(s: Bytes, d: Bytes)
    requires |d| > 0
    ensures Join(Split(s, d), d) == s
    decreases |s|
  {
    FindSpec(s, d, 0);
    match Find(s, d, 0)
    case None =>
    case Some(i) =>
      SplitThenJoin(s[i + |d|..], d);
      assert s == s[..i] + d + s[i + |d|..];
  }

  /** No piece of a split holds a complete delimiter. */
  lemma {:induction false} SplitPiecesClean(s: Bytes, d: Bytes)
    requires |d| > 0
    ensures forall k :: 0 <= k < |Split(s, d)| ==> Clean(Split(s, d)[k], d)
    decreases |s|
  {
    FindSpec(s, d, 0);
    match Find(s, d, 0)
    case None =>
    case Some(i) =>
      SplitPiecesClean(s[i + |d|..], d);
      assert Clean(s[..i], d) by {
        forall j: nat ensures !OccursAt(s[..i], d, j) {
          if j + |d| <= i {
            assert s[..i][j..j + |d|] == s[j..j + |d|];
            assert !OccursAt(s, d, j);
          }
        }
      }
  }

  function Init<T>(xs: seq<T>): seq<T>
    requires |xs| > 0
  {
    xs[..|xs| - 1]
  }

  function Last<T>(xs: seq<T>): T
    requires |xs| > 0
  {
    xs[|xs| - 1]
  }

  /** The frames `fetch` hands to json.loads for a whole body `s`: every piece
      of the split but the last, then the last one if it is non-empty. */
  function StreamFrames(s: Bytes, d: Bytes): seq<Bytes>
    requires |d| > 0
  {
    var parts := Split(s, d);
    Init(parts) + (if Last(parts) == [] then [] else [Last(parts)])
  }

  /** Splitting `s + c` re-splits only the last piece of `s`: the complete
      pieces of `s` stay as they are, whatever `c` is. This holds because the
      split is leftmost, so an occurrence found inside `s` is still the
      leftmost one once bytes are appended. */
  lemma {:induction false} SplitAppend(s: Bytes, c: Bytes, d: Bytes)
    requires |d| > 0
    ensures Split(s + c, d) == Init(Split(s, d)) + Split(Last(Split(s, d)) + c, d)
    decreases |s|, 1
  {
    if Find(s, d, 0).None? {
      SplitNone(s, d);
      InitLastSingle(s, Split(s + c, d));
    } else {
      SplitAppendAt(s, c, d, Find(s, d, 0).value);
    }
  }

  /** `SplitAppend` when `s` holds a delimiter, its leftmost one at `i`. */
  lemma {:induction false} SplitAppendAt(s: Bytes, c: Bytes, d: Bytes, i: nat)
    requires |d| > 0 && Find(s, d, 0) == Some(i)
    ensures Split(s + c, d) == Init(Split(s, d)) + Split(Last(Split(s, d)) + c, d)
    decreases |s|, 0
  {
    SplitAt(s, d, i);
    var rest := s[i + |d|..];
    SplitExtendsAt(s, c, d, i);
    SplitAppend(rest, c, d);
    var parts := Split(rest, d);
    Reassemble(s[..i], parts, Split(s, d), Split(rest + c, d), Split(s + c, d), Split(Last(parts) + c, d));
  }

  /** The list algebra behind `SplitAppendAt`, kept apart from `Split`. */
  lemma Reassemble<T>(x: T, parts: seq<T>, whole: seq<T>, extendedRest: seq<T>, extended: seq<T>, tail: seq<T>)
    requires |parts| > 0 && whole == [x] + parts
    requires extendedRest == Init(parts) + tail && extended == [x] + extendedRest
    ensures |whole| > 0 && Last(whole) == Last(parts)
    ensures extended == Init(whole) + tail
  {
    InitLastCons(x, parts);
    assert [x] + (Init(parts) + tail) == ([x] + Init(parts)) + tail;
  }

  /** Bytes appended after the leftmost delimiter leave the first part alone. */
  lemma SplitExtendsAt(s: Bytes, c: Bytes, d: Bytes, i: nat)
    requires |d| > 0 && Find(s, d, 0) == Some(i)
    ensures i + |d| <= |s|
    ensures Split(s + c, d) == [s[..i]] + Split(s[i + |d|..] + c, d)
  {
    SplitAt(s, d, i);
    FindExtends(s, c, d, i);
    SplitAt(s + c, d, i);
    assert (s + c)[..i] == s[..i];
    assert (s + c)[i + |d|..] == s[i + |d|..] + c;
  }

  lemma {:induction false} SplitNone(s: Bytes, d: Bytes)
    requires |d| > 0 && Find(s, d, 0).None?
    ensures Split(s, d) == [s]
  {
  }

  lemma InitLastSingle<T>(x: T, ys: seq<T>)
    ensures Init([x]) + ys == ys && Last([x]) == x
  {
    assert Init([x]) == [];
  }

  lemma InitLastCons<T>(x: T, xs: seq<T>)
    requires |xs| > 0
    ensures Init([x] + xs) == [x] + Init(xs) && Last([x] + xs) == Last(xs)
  {
  }

  lemma {:induction false} SplitAt(s: Bytes, d: Bytes, i: nat)
    requires |d| > 0 && Find(s, d, 0) == Some(i)
    ensures i + |d| <= |s|
    ensures Split(s, d) == [s[..i]] + Split(s[i + |d|..], d)
  {
  }

  /** An occurrence that is leftmost in `s` stays leftmost once bytes are
      appended to `s`. */
  lemma {:induction false} FindExtends(s: Bytes, c: Bytes, d: Bytes, i: nat)
    requires |d| > 0 && Find(s, d, 0) == Some(i)
    ensures Find(s + c, d, 0) == Some(i)
  {
    FindSpec(s, d, 0);
    var t := s + c;
    assert t[i..i + |d|] == s[i..i + |d|];
    forall j: nat | j < i ensures !OccursAt(t, d, j) {
      assert !OccursAt(s, d, j);
      assert j + |d| <= |s|;
      assert t[j..j + |d|] == s[j..j + |d|];
    }
    FindIsLeftmost(t, d, i);
  }

  /** One round of the decoder loop keeps `Split(consumed) == emitted + [buffer]`
      and leaves a buffer without a complete delimiter. */
  lemma DecodeStep(chunks: seq<Bytes>, k: nat, emitted: seq<Bytes>, buffer: Bytes, d: Bytes)
    requires |d| > 0 && k < |chunks|
    requires Split(Concat(chunks[..k]), d) == emitted + [buffer]
    ensures var slices := Split(buffer + chunks[k], d);
      Split(Concat(chunks[..k + 1]), d) == (emitted + Init(slices)) + [Last(slices)]
      && Clean(Last(slices), d)
  {
    var slices := Split(buffer + chunks[k], d);
    ConcatPrefixSnoc(chunks, k);
    SplitExtend(Concat(chunks[..k]), chunks[k], emitted, buffer, d);
    assert slices == Init(slices) + [Last(slices)];
    SplitPiecesClean(buffer + chunks[k], d);
  }

  lemma ConcatPrefixSnoc(chunks: seq<Bytes>, k: nat)
    requires k < |chunks|
    ensures Concat(chunks[..k + 1]) == Concat(chunks[..k]) + chunks[k]
  {
    assert chunks[..k + 1] == chunks[..k] + [chunks[k]];
    ConcatSnoc(chunks[..k], chunks[k]);
  }

  lemma SplitExtend(consumed: Bytes, c: Bytes, emitted: seq<Bytes>, buffer: Bytes, d: Bytes)
    requires |d| > 0
    requires Split(consumed, d) == emitted + [buffer]
    ensures Split(consumed + c, d) == emitted + Split(buffer + c, d)
  {
    SplitAppend(consumed, c, d);
    assert Init(emitted + [buffer]) == emitted;
  }

  /** What the end of the decoder loop emits, given what the loop kept. */
  lemma DecodeEnd(consumed: Bytes, emitted: seq<Bytes>, buffer: Bytes, d: Bytes)
    requires |d| > 0
    requires Split(consumed, d) == emitted + [buffer]
    ensures StreamFrames(consumed, d) == emitted + (if buffer == [] then [] else [buffer])
  {
    assert Init(emitted + [buffer]) == emitted;
  }

  /** The decoder loop of `fetch`: `buffer + chunk` is split, the complete
      slices are emitted and the tail is kept; after the last chunk a
      non-empty buffer is emitted as well. Whatever the chunk boundaries (a
      delimiter cut in two included), the frames are those of the whole
      concatenated body, and the kept buffer never holds a whole delimiter. */
  method DecodeFrames(chunks: seq<Bytes>, d: Bytes) returns (frames: seq<Bytes>)
    requires |d| > 0
    ensures frames == StreamFrames(Concat(chunks), d)
  {
    var buffer: Bytes := [];
    frames := [];
    var k := 0;
    while k < |chunks|
      invariant 0 <= k <= |chunks|
      invariant Split(Concat(chunks[..k]), d) == frames + [buffer]
      invariant Clean(buffer, d)
    {
      var slices := Split(buffer + chunks[k], d);
      DecodeStep(chunks, k, frames, buffer, d);
      frames := frames + Init(slices);
      buffer := Last(slices);
      k := k + 1;
    }
    assert chunks[..k] == chunks;
    DecodeEnd(Concat(chunks), frames, buffer, d);
    if buffer != [] {
      frames := frames + [buffer];
    }
  }

  /** No frame of a whole body, and no buffer the decoder keeps, holds a complete delimiter. */
  lemma FramesAreClean(s: Bytes, d: Bytes)
    requires |d| > 0
    ensures forall k :: 0 <= k < |StreamFrames(s, d)| ==> Clean(StreamFrames(s, d)[k], d)
  {
    var parts := Split(s, d);
    SplitPiecesClean(s, d);
    forall k | 0 <= k < |StreamFrames(s, d)| ensures Clean(StreamFrames(s, d)[k], d) {
      assert StreamFrames(s, d)[k] == parts[k];
    }
  }

  /** Empty segments between two delimiters are frames of their own (and so
      reach json.loads); only an empty tail is dropped. */
  lemma EmptyInnerFrameKept(d: Bytes)
    requires |d| > 0
    ensures StreamFrames(d + d, d) == [[], []]
    ensures StreamFrames(d, d) == [[]]
  {
    var dd := d + d;
    assert Split([], d) == [[]] by {
      assert Find([], d, 0) == None;
    }
    assert Split(d, d) == [[], []] by {
      assert d[0..|d|] == d;
      FindIsLeftmost(d, d, 0);
      assert d[..0] == [] && d[|d|..] == [];
    }
    assert Split(dd, d) == [[], [], []] by {
      assert dd[0..|d|] == d;
      FindIsLeftmost(dd, d, 0);
      assert dd[..0] == [] && dd[|d|..] == d;
    }
  }

  /** A document can be framed by `d` when the first occurrence of `d` in
      `doc + d` is the appended one. */
  predicate Framable(doc: Bytes, d: Bytes)
    requires |d| > 0
  {
    Find(doc + d, d, 0) == Some(|doc|)
  }

  lemma {:induction false} SplitJoin(docs: seq<Bytes>, d: Bytes)
    requires |d| > 0 && |docs| > 0
    requires forall k :: 0 <= k < |docs| ==> Framable(docs[k], d)
    ensures Split(Join(docs, d), d) == docs
    decreases |docs|
  {
    var e := docs[0];
    if |docs| == 1 {
      FramableClean(e, d);
      SplitNone(e, d);
    } else {
      var rest := Join(docs[1..], d);
      assert Join(docs, d) == e + d + rest;
      FramableFirst(e, d, rest);
      SplitAt(e + d + rest, d, |e|);
      SplitJoin(docs[1..], d);
      HeadTail(docs);
    }
  }

  lemma HeadTail<T>(xs: seq<T>)
    requires |xs| > 0
    ensures xs == [xs[0]] + xs[1..]
  {
  }

  /** A framable document holds no delimiter of its own. */
  lemma FramableClean(e: Bytes, d: Bytes)
    requires |d| > 0 && Framable(e, d)
    ensures Find(e, d, 0) == None
  {
    var ed := e + d;
    FindSpec(ed, d, 0);
    forall j: nat ensures !OccursAt(e, d, j) {
      if j + |d| <= |e| {
        assert ed[j..j + |d|] == e[j..j + |d|];
        assert !OccursAt(ed, d, j);
      }
    }
    FindSpec(e, d, 0);
  }

  /** In a framable document followed by the delimiter and anything, the
      leftmost delimiter is the one right after the document. */
  lemma FramableFirst(e: Bytes, d: Bytes, rest: Bytes)
    requires |d| > 0 && Framable(e, d)
    ensures Find(e + d + rest, d, 0) == Some(|e|)
    ensures (e + d + rest)[..|e|] == e && (e + d + rest)[|e| + |d|..] == rest
  {
    var ed := e + d;
    var s := e + d + rest;
    FindSpec(ed, d, 0);
    assert s[|e|..|e| + |d|] == d;
    forall j: nat | j < |e| ensures !OccursAt(s, d, j) {
      assert s[j..j + |d|] == ed[j..j + |d|];
      assert !OccursAt(ed, d, j);
    }
    FindIsLeftmost(s, d, |e|);
    assert s[..|e|] == e;
    assert s[|e| + |d|..] == rest;
  }

  /** Frame round trip: documents joined by the delimiter, with or without a
      trailing delimiter, are decoded to exactly those documents. */
  lemma FrameRoundTrip(docs: seq<Bytes>, d: Bytes)
    requires |d| > 0 && |docs| > 0
    requires forall k :: 0 <= k < |docs| ==> docs[k] != [] && Framable(docs[k], d)
    ensures StreamFrames(Join(docs, d), d) == docs
    ensures StreamFrames(Join(docs, d) + d, d) == docs
  {
    SplitJoin(docs, d);
    assert docs == Init(docs) + [Last(docs)];
    TrailingDelimiter(docs, d);
  }

  lemma TrailingDelimiter(docs: seq<Bytes>, d: Bytes)
    requires |d| > 0 && |docs| > 0
    requires forall k :: 0 <= k < |docs| ==> Framable(docs[k], d)
    ensures Split(Join(docs, d) + d, d) == docs + [[]]
  {
    EmptyFramable(d);
    FramableSnoc(docs, [], d);
    JoinSnocEmpty(docs, d);
    SplitJoin(docs + [[]], d);
  }

  lemma EmptyFramable(d: Bytes)
    requires |d| > 0
    ensures Framable([], d)
  {
    assert ([] + d)[0..|d|] == d;
    FindIsLeftmost([] + d, d, 0);
  }

  lemma FramableSnoc(docs: seq<Bytes>, x: Bytes, d: Bytes)
    requires |d| > 0 && Framable(x, d)
    requires forall k :: 0 <= k < |docs| ==> Framable(docs[k], d)
    ensures forall k :: 0 <= k < |docs + [x]| ==> Framable((docs + [x])[k], d)
  {
    forall k | 0 <= k < |docs + [x]| ensures Framable((docs + [x])[k], d) {
      if k < |docs| { assert (docs + [x])[k] == docs[k]; }
    }
  }

  lemma JoinSnocEmpty(docs: seq<Bytes>, d: Bytes)
    requires |docs| > 0
    ensures Join(docs + [[]], d) == Join(docs, d) + d
  {
    JoinSnoc(docs, [], d);
    AppendNothing(Join(docs, d) + d);
  }

  lemma AppendNothing<T>(xs: seq<T>)
    ensures xs + [] == xs
  {
  }

  lemma {:induction false} JoinSnoc(docs: seq<Bytes>, x: Bytes, d: Bytes)
    requires |docs| > 0
    ensures Join(docs + [x], d) == Join(docs, d) + d + x
    decreases |docs|
  {
    if |docs| == 1 {
      assert (docs + [x])[1..] == [x];
    } else {
      assert (docs + [x])[1..] == docs[1..] + [x];
      JoinSnoc(docs[1..], x, d);
    }
  }

  /** A JSON object (its last byte is '}') with no copy of the service's
      delimiter inside is framable: no occurrence can start inside the object
      and run into the delimiter, because no delimiter byte is '}'. */
  lemma ObjectFramable(doc: Bytes)
    requires |doc| > 0 && doc[|doc| - 1] == 125
    requires Clean(doc, Delimiter)
    ensures Framable(doc, Delimiter)
  {
    var t := doc + Delimiter;
    assert t[|doc|..|doc| + 6] == Delimiter;
    forall j: nat | j < |doc| ensures !OccursAt(t, Delimiter, j) {
      if j + 6 <= |doc| {
        assert t[j..j + 6] == doc[j..j + 6];
        assert !OccursAt(doc, Delimiter, j);
      } else {
        var o := |doc| - 1 - j;
        assert t[j..j + 6][o] == 125;
        assert Delimiter[o] != 125;
      }
    }
    FindIsLeftmost(t, Delimiter, |doc|);
  }
}

=== FILE: items.dfy ===
/** `ItemRepository` (infrastructure/repositories/item_repository.py): copy
    progress polling, quota checks, and the bulk operations that slice their
    input into fixed-size chunks and send one request per chunk. Every
    request goes through the synchronous session; the response it returns
    is a parameter, indexed by the number of the request. */
module Items {
  import opened Wrappers
  import opened Json
  import Session

  const ChunkSize: nat := 2000
  const AttachChunkSize: nat := 500
  const AssignChunkSize: nat := AttachChunkSize
  const NamesChunkSize: nat := 200

  /** The clock of `await_copy`, in tenths of a second: the budget is
      `threshold * 0.3` s and every unfinished round sleeps 4 s. */
  function Budget(threshold: int): int { threshold * 3 }
  const RoundSleep: nat := 40

  /** The ASCII characters Python's `str.isspace` accepts. */
  predicate IsSpace(c: char)
  {
    c == ' ' || '\t' <= c <= '\r' || '\U{001C}' <= c <= '\U{001F}'
  }

  function StripLeft(s: string): string
  {
    if |s| > 0 && IsSpace(s[0]) then StripLeft(s[1..]) else s
  }

  function StripRight(s: string): string
  {
    if |s| > 0 && IsSpace(s[|s| - 1]) then StripRight(s[..|s| - 1]) else s
  }

  /** Python's `int(s)` for a string, base 10: surrounding whitespace is
      stripped, then an optional sign and a numeral must make up the rest. */
  function ParseInt(s: string): Option<int>
  {
    var t := StripRight(StripLeft(s));
    var signed := |t| > 0 && (t[0] == '+' || t[0] == '-');
    var digits := if signed then t[1..] else t;
    var n: int := NumeralValue(digits);
    if !IsNumeral(digits) then None
    else if signed && t[0] == '-' then Some(-n)
    else Some(n)
  }

  /** Python's `int(v)` on a decoded JSON value. */
  function IntOf(v: Value): (r: Result<int>)
    ensures v.VInt? ==> r == Success(v.i)
    ensures v.VBool? ==> r == Success(if v.b then 1 else 0)
    ensures v.VStr? && ParseInt(v.s).Some? ==> r == Success(ParseInt(v.s).value)
    ensures r.Failure? <==> !(v.VInt? || v.VBool? || (v.VStr? && ParseInt(v.s).Some?))
    ensures r.Failure? ==> r.error == (if v.VStr? then ValueError else TypeError)
  {
    match v
    case VInt(i) => Success(i)
    case VBool(b) => Success(if b then 1 else 0)
    case VStr(s) => match ParseInt(s) { case Some(n) => Success(n) case None => Failure(ValueError) }
    case VNull => Failure(TypeError)
    case VList(_) => Failure(TypeError)
    case VObj(_) => Failure(TypeError)
  }

  /** `str(n)` for an integer: the digits of its magnitude, after a minus
      sign when negative. */
  function Show(n: int): string
  {
    if n < 0 then "-" + ShowNat(-n) else ShowNat(n)
  }

  /** Stripping leaves a string alone that neither starts nor ends with
      whitespace. */
  lemma StripNothing(s: string)
    requires |s| > 0 && !IsSpace(s[0]) && !IsSpace(s[|s| - 1])
    ensures StripRight(StripLeft(s)) == s
  {
  }

  /** `int(str(n)) == n` for every integer. */
  lemma IntOfShow(n: int)
    ensures IntOf(VStr(Show(n))) == Success(n)
  {
    var s := Show(n);
    var digits := ShowNat(if n < 0 then -n else n);
    ShowNatNumeral(if n < 0 then -n else n);
    if n < 0 {
      assert s == "-" + digits && s[1..] == digits;
      assert s[|s| - 1] == digits[|digits| - 1];
    } else {
      assert s == digits;
    }
    StripNothing(s);
  }

  /** A sign and surrounding whitespace are accepted. */
  lemma IntOfSigned()
    ensures IntOf(VStr("-3")) == Success(-3)
    ensures IntOf(VStr("+2")) == Success(2)
    ensures IntOf(VStr(" 5\n")) == Success(5)
  {
    assert StripRight(StripLeft("-3")) == "-3";
    assert "-3"[1..] == "3" && "3"[..0] == [];
    assert StripRight(StripLeft("+2")) == "+2";
    assert "+2"[1..] == "2";
    assert StripLeft(" 5\n") == "5\n";
    assert StripRight("5\n") == "5";
  }

  /** An underscore between two digits is skipped. */
  lemma IntOfGrouped()
    ensures IntOf(VStr("1_0")) == Success(10)
  {
    assert StripRight(StripLeft("1_0")) == "1_0";
    assert "1_0"[1..] == "_0" && "_0"[2..] == [];
    assert "1_0"[..2] == "1_" && "1_"[..1] == "1" && "1"[..0] == [];
    assert NumeralValue("1") == 1;
    assert NumeralValue("1_") == 1;
  }

  /** Doubled or leading underscores, a space after the sign and the empty
      string are refused. */
  lemma IntOfRefused()
    ensures IntOf(VStr("1__0")) == Failure(ValueError)
    ensures IntOf(VStr("_1")) == Failure(ValueError)
    ensures IntOf(VStr("- 3")) == Failure(ValueError)
    ensures IntOf(VStr("")) == Failure(ValueError)
  {
    assert StripRight(StripLeft("1__0")) == "1__0";
    assert StripRight(StripLeft("_1")) == "_1";
    assert StripRight(StripLeft("- 3")) == "- 3";
    assert "- 3"[1..] == " 3";
  }

  /** The progress counter of one copy request. */
  class Polling {
    const projectId: int
    const pollingId: Value
    const threshold: int
    var cursor: int

    constructor (projectId: int, pollingId: Value, threshold: int)
      ensures this.projectId == projectId && this.pollingId == pollingId
      ensures this.threshold == threshold && cursor == 0
    {
      this.projectId := projectId;
      this.pollingId := pollingId;
      this.threshold := threshold;
      cursor := 0;
    }

    predicate IsFinished()
      reads this
    {
      cursor >= threshold
    }

    /** `update`: add `int(val)` to the cursor and answer 1 once it reached
        the threshold, 0 before. A value `int` rejects changes nothing. */
    method Update(val: Value) returns (r: Result<int>)
      modifies this
      ensures IntOf(val).Failure? ==> r == Failure(IntOf(val).error) && cursor == old(cursor)
      ensures IntOf(val).Success? ==> cursor == old(cursor) + IntOf(val).value
      ensures IntOf(val).Success? ==> r == Success(if cursor >= threshold then 1 else 0)
    {
      var n := IntOf(val);
      if n.Failure? {
        return Failure(n.error);
      }
      cursor := cursor + n.value;
      if IsFinished() {
        return Success(1);
      } else {
        return Success(0);
      }
    }
  }

  /** What one round of `await_copy` leaves: an exception, or the cursor
      having reached the threshold, or not yet; with the cursor after it. */
  datatype Round = Raised(e: Error, cursor: int) | Reached(cursor: int) | Short(cursor: int)

  /** One round on the progress response `resp`: raise for its status, read
      `done` and `skipped`, add `int(done)` and then `int(skipped)` to the
      cursor. */
  function RoundOf(resp: Session.Response, cursor: int, threshold: int): (r: Round)
    ensures r.Reached? <==> r.cursor >= threshold && !r.Raised?
    ensures r.Reached? || r.Short? ==>
      && Session.IsOk(resp.status) && resp.body.VObj?
      && "done" in resp.body.fields && IntOf(resp.body.fields["done"]).Success?
      && "skipped" in resp.body.fields && IntOf(resp.body.fields["skipped"]).Success?
      && r.cursor == cursor + IntOf(resp.body.fields["done"]).value + IntOf(resp.body.fields["skipped"]).value
  {
    if !Session.IsOk(resp.status) then Raised(HttpError(resp.status), cursor)
    else
      var done := Get(resp.body, "done");
      var skipped := Get(resp.body, "skipped");
      if done.Failure? then Raised(done.error, cursor)
      else if skipped.Failure? then Raised(skipped.error, cursor)
      else if IntOf(done.value).Failure? then Raised(IntOf(done.value).error, cursor)
      else
        var c := cursor + IntOf(done.value).value;
        if IntOf(skipped.value).Failure? then Raised(IntOf(skipped.value).error, c)
        else
          var c' := c + IntOf(skipped.value).value;
          if c' >= threshold then Reached(c') else Short(c')
  }

  /** What `await_copy` ends in: its result, the final cursor, the clock and
      the number of progress requests made. */
  datatype Await = Await(result: Result<bool>, cursor: int, elapsed: nat, rounds: nat)

  /** The rounds of `await_copy` from round `k`, with the cursor at `cursor`
      and `elapsed` tenths gone. Progress request `k` answers `progress(k)`
      and takes `cost(k)` tenths. The loop stops once the threshold is
      reached or the time is up, and either way the answer is True. */
  function AwaitFrom(progress: nat -> Session.Response, cost: nat -> nat, threshold: int,
                     cursor: int, elapsed: nat, k: nat): (r: Await)
    ensures r.result.Success? ==> r.result.value
    ensures r.result.Success? ==> r.cursor >= threshold || r.elapsed >= Budget(threshold)
    ensures k <= r.rounds
    decreases Budget(threshold) - elapsed
  {
    if elapsed >= Budget(threshold) then Await(Success(true), cursor, elapsed, k)
    else
      var e := elapsed + cost(k);
      match RoundOf(progress(k), cursor, threshold)
      case Raised(err, c) => Await(Failure(err), c, e, k + 1)
      case Reached(c) => Await(Success(true), c, e, k + 1)
      case Short(c) => AwaitFrom(progress, cost, threshold, c, e + RoundSleep, k + 1)
  }

  /** One round of `AwaitFrom` while time is left. */
  lemma AwaitUnfold(progress: nat -> Session.Response, cost: nat -> nat, threshold: int,
                    cursor: int, elapsed: nat, k: nat)
    requires elapsed < Budget(threshold)
    ensures var o := RoundOf(progress(k), cursor, threshold);
      var e := elapsed + cost(k);
      AwaitFrom(progress, cost, threshold, cursor, elapsed, k)
        == match o
           case Raised(err, c) => Await(Failure(err), c, e, k + 1)
           case Reached(c) => Await(Success(true), c, e, k + 1)
           case Short(c) => AwaitFrom(progress, cost, threshold, c, e + RoundSleep, k + 1)
  {
  }

  /** A copy that reports no progress still ends, when its time is up, with
      the answer True. */
  lemma {:induction false} AwaitTimesOut(progress: nat -> Session.Response, cost: nat -> nat, threshold: int,
                                         cursor: int, elapsed: nat, k: nat)
    requires cursor < threshold
    requires forall j :: k <= j ==> (progress(j).body == VObj(map["done" := VInt(0), "skipped" := VInt(0)])
                                     && Session.IsOk(progress(j).status))
    ensures AwaitFrom(progress, cost, threshold, cursor, elapsed, k).result == Success(true)
    ensures AwaitFrom(progress, cost, threshold, cursor, elapsed, k).cursor == cursor
    ensures AwaitFrom(progress, cost, threshold, cursor, elapsed, k).elapsed >= Budget(threshold)
    decreases Budget(threshold) - elapsed
  {
    if elapsed < Budget(threshold) {
      var body := progress(k).body;
      assert Get(body, "done") == Success(VInt(0));
      assert Get(body, "skipped") == Success(VInt(0));
      assert RoundOf(progress(k), cursor, threshold) == Short(cursor);
      AwaitTimesOut(progress, cost, threshold, cursor, elapsed + cost(k) + RoundSleep, k + 1);
    }
  }

  /** The body of the `await_copy` loop on one progress response. */
  method PollRound(polling: Polling, resp: Session.Response) returns (outcome: Round)
    modifies polling
    ensures outcome == RoundOf(resp, old(polling.cursor), polling.threshold)
    ensures polling.cursor == outcome.cursor
  {
    if !Session.IsOk(resp.status) {
      return Raised(HttpError(resp.status), polling.cursor);
    }
    var done := Get(resp.body, "done");
    var skipped := Get(resp.body, "skipped");
    if done.Failure? {
      return Raised(done.error, polling.cursor);
    }
    if skipped.Failure? {
      return Raised(skipped.error, polling.cursor);
    }
    var u := polling.Update(done.value);
    if u.Failure? {
      return Raised(u.error, polling.cursor);
    }
    u := polling.Update(skipped.value);
    if u.Failure? {
      return Raised(u.error, polling.cursor);
    }
    if polling.IsFinished() {
      return Reached(polling.cursor);
    }
    outcome := Short(polling.cursor);
  }

  /** `await_copy`: poll the copy progress until the counter reaches its
      threshold or the time is up; always answers True unless a request or
      a value raises. */
  method AwaitCopy(polling: Polling, progress: nat -> Session.Response, cost: nat -> nat)
    returns (r: Result<bool>, rounds: nat, elapsed: nat)
    modifies polling
    ensures Await(r, polling.cursor, elapsed, rounds)
         == AwaitFrom(progress, cost, polling.threshold, old(polling.cursor), 0, 0)
  {
    ghost var spec := AwaitFrom(progress, cost, polling.threshold, polling.cursor, 0, 0);
    rounds, elapsed := 0, 0;
    while elapsed < Budget(polling.threshold)
      invariant AwaitFrom(progress, cost, polling.threshold, polling.cursor, elapsed, rounds) == spec
      decreases Budget(polling.threshold) - elapsed
    {
      AwaitUnfold(progress, cost, polling.threshold, polling.cursor, elapsed, rounds);
      var resp := progress(rounds);
      elapsed := elapsed + cost(rounds);
      rounds := rounds + 1;
      var outcome := PollRound(polling, resp);
      if outcome.Raised? {
        return Failure(outcome.e), rounds, elapsed;
      }
      if outcome.Reached? {
        // break, then `return True`
        return Success(true), rounds, elapsed;
      }
      elapsed := elapsed + RoundSleep;
    }
    r := Success(true);
  }

  const FolderLimitError: Error := ValidationError("ATTACH_FOLDER_LIMIT_ERROR_MESSAGE")
  const ProjectLimitError: Error := ValidationError("ATTACH_PROJECT_LIMIT_ERROR_MESSAGE")
  const UserLimitError: Error := ValidationError("ATTACH_USER_LIMIT_ERROR_MESSAGE")

  /** `limits[key]["remaining_image_count"]`, compared with an int: a
      boolean compares as 0 or 1, and any other non-int raises TypeError. */
  function Remaining(limits: Value, key: string): (r: Result<int>)
    ensures r.Success? <==>
      (&& Get(limits, key).Success?
       && Get(Get(limits, key).value, "remaining_image_count").Success?
       && var n := Get(Get(limits, key).value, "remaining_image_count").value; n.VInt? || n.VBool?)
    ensures r.Success? ==> VInt(r.value) == HashKey(Get(Get(limits, key).value, "remaining_image_count").value)
  {
    var quota :- Get(limits, key);
    var n :- Get(quota, "remaining_image_count");
    match n
    case VInt(i) => Success(i)
    case VBool(b) => Success(if b then 1 else 0)
    case _ => Failure(TypeError)
  }

  predicate IsAt(s: string, key: string, i: int)
  {
    0 <= i <= |s| - |key| && s[i..i + |key|] == key
  }

  /** Python's `key in v`: a dict key, a list element or a substring. */
  function Contains(v: Value, key: string): Result<bool>
  {
    match v
    case VObj(m) => Success(key in m)
    case VList(xs) => Success(VStr(key) in xs)
    case VStr(s) => Success(exists i :: 0 <= i <= |s| - |key| && IsAt(s, key, i))
    case VNull => Failure(TypeError)
    case VBool(_) => Failure(TypeError)
    case VInt(_) => Failure(TypeError)
  }

  /** One quota check: enabled, readable and not exceeded. */
  predicate Within(enabled: bool, limits: Value, key: string, count: int)
  {
    !enabled || (Remaining(limits, key).Success? && count <= Remaining(limits, key).value)
  }

  /** `_validate_limitations`: the folder quota, then the project quota,
      then the user quota when the limits carry one; the first one exceeded
      raises. */
  function ValidateLimitations(limits: Value, count: int, folderLimit: bool, projectLimit: bool,
                               userLimit: bool): (r: Result<()>)
    ensures r.Success? ==> Within(folderLimit, limits, "folder_limit", count)
                           && Within(projectLimit, limits, "project_limit", count)
    ensures r == Failure(FolderLimitError) <==>
      folderLimit && Remaining(limits, "folder_limit").Success? && count > Remaining(limits, "folder_limit").value
    ensures r == Failure(ProjectLimitError) <==>
      Within(folderLimit, limits, "folder_limit", count)
      && projectLimit && Remaining(limits, "project_limit").Success? && count > Remaining(limits, "project_limit").value
    ensures r == Failure(UserLimitError) <==>
      Within(folderLimit, limits, "folder_limit", count) && Within(projectLimit, limits, "project_limit", count)
      && userLimit && Contains(limits, "user_limit") == Success(true)
      && Remaining(limits, "user_limit").Success? && count > Remaining(limits, "user_limit").value
    ensures r.Success? <==>
      Within(folderLimit, limits, "folder_limit", count) && Within(projectLimit, limits, "project_limit", count)
      && (!userLimit || Contains(limits, "user_limit") == Success(false)
          || (Contains(limits, "user_limit") == Success(true) && Within(true, limits, "user_limit", count)))
    ensures folderLimit && Remaining(limits, "folder_limit").Failure? ==>
      r == Failure(Remaining(limits, "folder_limit").error)
    ensures Within(folderLimit, limits, "folder_limit", count)
            && projectLimit && Remaining(limits, "project_limit").Failure? ==>
      r == Failure(Remaining(limits, "project_limit").error)
    ensures Within(folderLimit, limits, "folder_limit", count) && Within(projectLimit, limits, "project_limit", count)
            && userLimit && Contains(limits, "user_limit").Failure? ==>
      r == Failure(Contains(limits, "user_limit").error)
    ensures Within(folderLimit, limits, "folder_limit", count) && Within(projectLimit, limits, "project_limit", count)
            && userLimit && Contains(limits, "user_limit") == Success(true) && Remaining(limits, "user_limit").Failure? ==>
      r == Failure(Remaining(limits, "user_limit").error)
  {
    if folderLimit && Remaining(limits, "folder_limit").Failure? then Failure(Remaining(limits, "folder_limit").error)
    else if folderLimit && count > Remaining(limits, "folder_limit").value then Failure(FolderLimitError)
    else if projectLimit && Remaining(limits, "project_limit").Failure? then Failure(Remaining(limits, "project_limit").error)
    else if projectLimit && count > Remaining(limits, "project_limit").value then Failure(ProjectLimitError)
    else if !userLimit then Success(())
    else
      var present :- Contains(limits, "user_limit");
      if !present then Success(())
      else
        var n :- Remaining(limits, "user_limit");
        if count > n then Failure(UserLimitError) else Success(())
  }

  /** A boolean quota compares as an int: with `remaining_image_count` of
      the folder `true`, one attachment fits and two exceed it. */
  lemma BoolQuotaCompares()
    ensures var limits := VObj(map["folder_limit" := VObj(map["remaining_image_count" := VBool(true)])]);
      && ValidateLimitations(limits, 1, true, false, false) == Success(())
      && ValidateLimitations(limits, 2, true, false, false) == Failure(FolderLimitError)
  {
    var limits := VObj(map["folder_limit" := VObj(map["remaining_image_count" := VBool(true)])]);
    assert Remaining(limits, "folder_limit") == Success(1);
  }

  /** `response.raise_for_status()`, then `response.json()[key]` (the whole
      body when there is no key) as the list `extend` takes. */
  function ListOf(resp: Session.Response, key: Option<string>): (r: Result<seq<Value>>)
    ensures !Session.IsOk(resp.status) ==> r == Failure(HttpError(resp.status))
  {
    if !Session.IsOk(resp.status) then Failure(HttpError(resp.status))
    else
      var v :- if key.Some? then Get(resp.body, key.value) else Success(resp.body);
      if v.VList? then Success(v.items) else Failure(TypeError)
  }

  /** The lists of the first `n` responses, concatenated in request order;
      the first failure ends it. */
  function Gather(reply: nat -> Session.Response, key: Option<string>, n: nat): Result<seq<Value>>
  {
    if n == 0 then Success([])
    else
      var prev :- Gather(reply, key, n - 1);
      var items :- ListOf(reply(n - 1), key);
      Success(prev + items)
  }

  /** `Gather` succeeds exactly when every response gives a list, and then
      holds each response's list, in order. */
  lemma {:induction false} GatherAll(reply: nat -> Session.Response, key: Option<string>, n: nat)
    ensures Gather(reply, key, n).Success? <==> forall k :: 0 <= k < n ==> ListOf(reply(k), key).Success?
    ensures Gather(reply, key, n).Failure? ==>
      exists k :: 0 <= k < n && ListOf(reply(k), key) == Failure(Gather(reply, key, n).error)
    ensures n > 0 && Gather(reply, key, n).Success? ==>
      Gather(reply, key, n).value == Gather(reply, key, n - 1).value + ListOf(reply(n - 1), key).value
  {
    if n > 0 {
      GatherAll(reply, key, n - 1);
    }
  }

  /** The slicing loops keep `sent + Chunks(xs[i..]) == Chunks(xs)`. */
  lemma SliceSent<T>(xs: seq<T>, size: nat, i: nat, sent: seq<seq<T>>)
    requires size > 0 && i < |xs| && sent + Chunks(xs[i..], size) == Chunks(xs, size)
    ensures var j := if i + size <= |xs| then i + size else |xs|;
      && (sent + [xs[i..j]]) + Chunks(xs[j..], size) == Chunks(xs, size)
      && sent + [xs[i..j]] <= Chunks(xs, size)
  {
    var j := if i + size <= |xs| then i + size else |xs|;
    ChunksStep(xs, size, i);
    assert (sent + [xs[i..j]]) + Chunks(xs[j..], size) == sent + ([xs[i..j]] + Chunks(xs[j..], size));
  }

  /** At the end of a slicing loop every slice was sent. */
  lemma SliceDone<T>(xs: seq<T>, size: nat, sent: seq<seq<T>>)
    requires size > 0 && sent + Chunks(xs[|xs|..], size) == Chunks(xs, size)
    ensures sent == Chunks(xs, size)
  {
    assert xs[|xs|..] == [];
    assert sent + [] == sent;
  }

  /** The slicing loop of `list_by_ids`, `list_by_names` and
      `bulk_move_by_names`: request `k` carries slice `k` of `xs`; each
      response must be OK and its list is appended. Returns the gathered
      list and the slices sent. */
  method ChunkedGather<T>(xs: seq<T>, size: nat, reply: nat -> Session.Response, key: Option<string>)
    returns (r: Result<seq<Value>>, sent: seq<seq<T>>)
    requires size > 0
    ensures r == Gather(reply, key, |sent|)
    ensures sent <= Chunks(xs, size)
    ensures r.Success? ==> sent == Chunks(xs, size)
    ensures r.Failure? ==>
      |sent| > 0 && Gather(reply, key, |sent| - 1).Success? && ListOf(reply(|sent| - 1), key) == Failure(r.error)
  {
    var items: seq<Value> := [];
    sent := [];
    var i := 0;
    while i < |xs|
      invariant i <= |xs|
      invariant sent + Chunks(xs[i..], size) == Chunks(xs, size)
      invariant Gather(reply, key, |sent|) == Success(items)
    {
      var j := if i + size <= |xs| then i + size else |xs|;
      SliceSent(xs, size, i, sent);
      var got := ListOf(reply(|sent|), key);
      sent := sent + [xs[i..j]];
      if got.Failure? {
        return Failure(got.error), sent;
      }
      items := items + got.value;
      i := j;
    }
    SliceDone(xs, size, sent);
    r := Success(items);
  }

  /** `list_by_ids`: slices of at most 2000 ids, the "images" of every
      response in order. */
  method ListByIds(ids: seq<int>, reply: nat -> Session.Response)
    returns (r: Result<seq<Value>>, sent: seq<seq<int>>)
    ensures r == Gather(reply, Some("images"), |sent|)
    ensures sent <= Chunks(ids, ChunkSize)
    ensures r.Success? ==> sent == Chunks(ids, ChunkSize) && Concat(sent) == ids
    ensures r.Failure? ==>
      |sent| > 0 && Gather(reply, Some("images"), |sent| - 1).Success? && ListOf(reply(|sent| - 1), Some("images")) == Failure(r.error)
    ensures forall k :: 0 <= k < |sent| ==> 0 < |sent[k]| <= ChunkSize
  {
    r, sent := ChunkedGather(ids, ChunkSize, reply, Some("images"));
    ChunksSpec(ids, ChunkSize);
  }

  /** `list_by_names`: slices of at most 200 names, every response body (a
      list) in order. */
  method ListByNames(names: seq<string>, reply: nat -> Session.Response)
    returns (r: Result<seq<Value>>, sent: seq<seq<string>>)
    ensures r == Gather(reply, None, |sent|)
    ensures sent <= Chunks(names, NamesChunkSize)
    ensures r.Success? ==> sent == Chunks(names, NamesChunkSize) && Concat(sent) == names
    ensures r.Failure? ==>
      |sent| > 0 && Gather(reply, None, |sent| - 1).Success? && ListOf(reply(|sent| - 1), None) == Failure(r.error)
    ensures forall k :: 0 <= k < |sent| ==> 0 < |sent[k]| <= NamesChunkSize
  {
    r, sent := ChunkedGather(names, NamesChunkSize, reply, None);
    ChunksSpec(names, NamesChunkSize);
  }

  /** `bulk_move_by_names`: without names, every item of the source folder
      (`listed`) is moved; the destination quota is checked without the
      user quota; then slices of at most 2000 names, and the "skipped"
      lists of the responses in order. */
  method BulkMoveByNames(itemNames: seq<string>, listed: seq<string>, limits: Value,
                         reply: nat -> Session.Response)
    returns (r: Result<seq<Value>>, sent: seq<seq<string>>)
    ensures var names := if itemNames != [] then itemNames else listed;
      var checked := ValidateLimitations(limits, |names|, true, true, false);
      && (checked.Failure? ==> r == Failure(checked.error) && sent == [])
      && (checked.Success? ==> r == Gather(reply, Some("skipped"), |sent|) && sent <= Chunks(names, ChunkSize))
      && (r.Success? ==> sent == Chunks(names, ChunkSize))
      && (checked.Success? && r.Failure? ==>
            |sent| > 0 && Gather(reply, Some("skipped"), |sent| - 1).Success?
            && ListOf(reply(|sent| - 1), Some("skipped")) == Failure(r.error))
  {
    var names := if itemNames != [] then itemNames else listed;
    var checked := ValidateLimitations(limits, |names|, true, true, false);
    if checked.Failure? {
      return Failure(checked.error), [];
    }
    r, sent := ChunkedGather(names, ChunkSize, reply, Some("skipped"));
  }

  /** The `successCount` of the first `n` assignment responses, summed; the
      first failure ends it. */
  function SuccessSum(reply: nat -> Session.Response, n: nat): Result<int>
  {
    if n == 0 then Success(0)
    else
      var prev :- SuccessSum(reply, n - 1);
      var resp := reply(n - 1);
      if !Session.IsOk(resp.status) then Failure(HttpError(resp.status))
      else
        var count :- Get(resp.body, "successCount");
        if count.VInt? then Success(prev + count.i) else Failure(TypeError)
  }

  /** `SuccessSum` adds one response's count per request. */
  lemma {:induction false} SuccessSumCounts(reply: nat -> Session.Response, n: nat)
    requires forall k :: 0 <= k < n ==> (Session.IsOk(reply(k).status) && reply(k).body.VObj?
                                         && "successCount" in reply(k).body.fields
                                         && reply(k).body.fields["successCount"].VInt?)
    ensures SuccessSum(reply, n).Success?
    ensures n > 0 ==> SuccessSum(reply, n).value
                      == SuccessSum(reply, n - 1).value + reply(n - 1).body.fields["successCount"].i
  {
    if n > 0 {
      SuccessSumCounts(reply, n - 1);
    }
  }

  /** One more response on top of a successful sum. */
  lemma SuccessSumNext(reply: nat -> Session.Response, n: nat, count: int)
    requires SuccessSum(reply, n) == Success(count)
    ensures var resp := reply(n);
      SuccessSum(reply, n + 1)
        == if !Session.IsOk(resp.status) then Failure(HttpError(resp.status))
           else match Get(resp.body, "successCount")
             case Failure(e) => Failure(e)
             case Success(c) => if c.VInt? then Success(count + c.i) else Failure(TypeError)
  {
  }

  /** `assign_items`: slices of at most 500 names (`chunkify`), the sum of
      the `successCount` of every response. */
  method AssignItems(itemNames: seq<string>, reply: nat -> Session.Response)
    returns (r: Result<int>, sent: seq<seq<string>>)
    ensures r == SuccessSum(reply, |sent|)
    ensures sent <= Chunks(itemNames, AssignChunkSize)
    ensures r.Success? ==> sent == Chunks(itemNames, AssignChunkSize)
    ensures r.Failure? ==> |sent| > 0 && SuccessSum(reply, |sent| - 1).Success?
  {
    var count := 0;
    sent := [];
    var i := 0;
    while i < |itemNames|
      invariant i <= |itemNames|
      invariant sent + Chunks(itemNames[i..], AssignChunkSize) == Chunks(itemNames, AssignChunkSize)
      invariant SuccessSum(reply, |sent|) == Success(count)
    {
      var j := if i + AssignChunkSize <= |itemNames| then i + AssignChunkSize else |itemNames|;
      SliceSent(itemNames, AssignChunkSize, i, sent);
      SuccessSumNext(reply, |sent|, count);
      var resp := reply(|sent|);
      sent := sent + [itemNames[i..j]];
      if !Session.IsOk(resp.status) {
        return Failure(HttpError(resp.status)), sent;
      }
      var got := Get(resp.body, "successCount");
      if got.Failure? {
        return Failure(got.error), sent;
      }
      if !got.value.VInt? {
        return Failure(TypeError), sent;
      }
      count := count + got.value.i;
      i := j;
    }
    SliceDone(itemNames, AssignChunkSize, sent);
    r := Success(count);
  }

  /** One entry of `attach`'s input. */
  datatype Attachment = Attachment(name: string, url: string, integrationId: Option<int>)

  function AttachmentName(att: Attachment): string { att.name }

  /** `_data`: the attachments of a slice, in order, whose name is not among
      the names already found to exist. */
  function Fresh(chunk: seq<Attachment>, duplicated: seq<string>): (r: seq<Attachment>)
    ensures |r| <= |chunk|
    ensures forall a :: a in r <==> a in chunk && a.name !in duplicated
  {
    if chunk == [] then []
    else
      var last := chunk[|chunk| - 1];
      var prev := chunk[..|chunk| - 1];
      assert forall a :: a in chunk <==> a in prev || a == last;
      Fresh(prev, duplicated) + (if last.name !in duplicated then [last] else [])
  }

  /** The inner loop of `attach` that builds `_data`. */
  method SelectFresh(chunk: seq<Attachment>, duplicated: seq<string>) returns (data: seq<Attachment>)
    ensures data == Fresh(chunk, duplicated)
  {
    data := [];
    var i := 0;
    while i < |chunk|
      invariant i <= |chunk| && data == Fresh(chunk[..i], duplicated)
    {
      assert chunk[..i + 1][..i] == chunk[..i];
      if chunk[i].name !in duplicated {
        data := data + [chunk[i]];
      }
      i := i + 1;
    }
    assert chunk[..i] == chunk;
  }

  /** The names `attach` reports attached: those of every slice whose
      attach request came back OK, in order. */
  function Attached(data: seq<seq<Attachment>>, reply: nat -> Session.Response): seq<string>
  {
    if data == [] then []
    else
      var n := |data| - 1;
      Attached(data[..n], reply) + (if Session.IsOk(reply(n).status) then Map(data[n], AttachmentName) else [])
  }

  /** The record of `attach`'s slices so far: slice `k` found the names
      `found[k]` and sent the attachments `data[k]` whose name was not found
      in any slice up to and including `k`. */
  predicate AttachSteps(sent: seq<seq<Attachment>>, found: seq<seq<string>>, data: seq<seq<Attachment>>,
                        existing: nat -> Result<seq<string>>)
  {
    |found| == |data| <= |sent|
    && forall k :: 0 <= k < |found| ==> SliceRecord(existing, k, sent[k], found[k], data[k], Concat(found[..k + 1]))
  }

  /** Slice `k` found the names `names` and sent the attachments of
      `chunk` whose name is not in `duplicated`. */
  predicate SliceRecord(existing: nat -> Result<seq<string>>, k: nat, chunk: seq<Attachment>, names: seq<string>,
                        data: seq<Attachment>, duplicated: seq<string>)
  {
    existing(k) == Success(names) && data == Fresh(chunk, duplicated)
  }

  lemma AttachStepsSnoc(sent: seq<seq<Attachment>>, found: seq<seq<string>>, data: seq<seq<Attachment>>,
                        existing: nat -> Result<seq<string>>, chunk: seq<Attachment>, names: seq<string>)
    requires AttachSteps(sent, found, data, existing) && |found| == |sent|
    requires existing(|found|) == Success(names)
    ensures Concat(found + [names]) == Concat(found) + names
    ensures AttachSteps(sent + [chunk], found + [names], data + [Fresh(chunk, Concat(found) + names)], existing)
  {
    ConcatSnoc(found, names);
    var sent', found', data' := sent + [chunk], found + [names], data + [Fresh(chunk, Concat(found) + names)];
    forall k | 0 <= k < |found'|
      ensures SliceRecord(existing, k, sent'[k], found'[k], data'[k], Concat(found'[..k + 1]))
    {
      if k < |found| {
        assert SliceRecord(existing, k, sent[k], found[k], data[k], Concat(found[..k + 1]));
        assert sent'[k] == sent[k] && data'[k] == data[k] && found'[k] == found[k];
        assert found'[..k + 1] == found[..k + 1];
      } else {
        assert sent'[k] == chunk && found'[k] == names && data'[k] == Fresh(chunk, Concat(found) + names);
        assert found'[..k + 1] == found';
      }
    }
  }

  /** A slice whose lookup failed is sent, but found and sent nothing. */
  lemma AttachStepsExtend(sent: seq<seq<Attachment>>, found: seq<seq<string>>, data: seq<seq<Attachment>>,
                          existing: nat -> Result<seq<string>>, chunk: seq<Attachment>)
    requires AttachSteps(sent, found, data, existing)
    ensures AttachSteps(sent + [chunk], found, data, existing)
  {
    forall k | 0 <= k < |found|
      ensures (sent + [chunk])[k] == sent[k]
    {
    }
  }

  lemma AttachedSnoc(data: seq<seq<Attachment>>, picked: seq<Attachment>, reply: nat -> Session.Response)
    ensures Attached(data + [picked], reply)
         == Attached(data, reply) + (if Session.IsOk(reply(|data|).status) then Map(picked, AttachmentName) else [])
  {
    assert (data + [picked])[..|data|] == data;
  }

  /** `attach` never sends a name that an earlier or the current lookup
      found to exist. */
  lemma AttachNeverResends(sent: seq<seq<Attachment>>, found: seq<seq<string>>, data: seq<seq<Attachment>>,
                           existing: nat -> Result<seq<string>>)
    requires AttachSteps(sent, found, data, existing)
    ensures forall k, a :: 0 <= k < |data| && a in data[k] ==> a in sent[k] && a.name !in Concat(found[..k + 1])
  {
  }

  /** `attach`: check every quota for the whole batch, then per slice of at
      most 500 attachments look up which names already exist
      (`existing(k)`, the outcome of `list_by_names` on slice `k`), add them
      to `duplicated`, send the attachments whose name is not in
      `duplicated` yet, and count them as attached when the response is OK.
      Returns `(attached, duplicated)`, the slices, the names found per
      slice and the attachments sent per slice. */
  method Attach(attachments: seq<Attachment>, limits: Value, existing: nat -> Result<seq<string>>,
                reply: nat -> Session.Response)
    returns (r: Result<(seq<string>, seq<string>)>, sent: seq<seq<Attachment>>,
             found: seq<seq<string>>, data: seq<seq<Attachment>>)
    ensures ValidateLimitations(limits, |attachments|, true, true, true).Failure? ==>
      r == Failure(ValidateLimitations(limits, |attachments|, true, true, true).error) && sent == []
    ensures sent <= Chunks(attachments, AttachChunkSize)
    ensures AttachSteps(sent, found, data, existing)
    ensures r.Failure? && |found| < |sent| ==> existing(|found|) == Failure(r.error)
    ensures r.Success? ==>
      && sent == Chunks(attachments, AttachChunkSize) && |found| == |sent|
      && r.value == (Attached(data, reply), Concat(found))
  {
    var checked := ValidateLimitations(limits, |attachments|, true, true, true);
    if checked.Failure? {
      return Failure(checked.error), [], [], [];
    }
    r, sent, found, data := AttachSlices(attachments, existing, reply);
  }

  /** The slicing loop of `attach`, once the quotas passed. */
  method AttachSlices(attachments: seq<Attachment>, existing: nat -> Result<seq<string>>,
                      reply: nat -> Session.Response)
    returns (r: Result<(seq<string>, seq<string>)>, sent: seq<seq<Attachment>>,
             found: seq<seq<string>>, data: seq<seq<Attachment>>)
    ensures sent <= Chunks(attachments, AttachChunkSize)
    ensures AttachSteps(sent, found, data, existing)
    ensures r.Failure? && |found| < |sent| ==> existing(|found|) == Failure(r.error)
    ensures r.Success? ==>
      && sent == Chunks(attachments, AttachChunkSize) && |found| == |sent|
      && r.value == (Attached(data, reply), Concat(found))
  {
    sent, found, data := [], [], [];
    r := Success(([], []));
    var i := 0;
    while i < |attachments|
      invariant i <= |attachments|
      invariant sent + Chunks(attachments[i..], AttachChunkSize) == Chunks(attachments, AttachChunkSize)
      invariant AttachSteps(sent, found, data, existing) && |found| == |sent|
      invariant r == Success((Attached(data, reply), Concat(found)))
    {
      var j := if i + AttachChunkSize <= |attachments| then i + AttachChunkSize else |attachments|;
      SliceSent(attachments, AttachChunkSize, i, sent);
      var chunk := attachments[i..j];
      r, found, data := AttachSlice(chunk, sent, found, data, existing, reply, r.value.0, r.value.1);
      sent := sent + [chunk];
      if r.Failure? {
        return;
      }
      i := j;
    }
    SliceDone(attachments, AttachChunkSize, sent);
  }

  /** One slice of `attach`: look up which of its names exist (the slice
      number is `|sent|`), add them to `duplicated`, send the attachments
      whose name is not duplicated and count them when the reply is OK. */
  method AttachSlice(chunk: seq<Attachment>, sent: seq<seq<Attachment>>, found: seq<seq<string>>,
                     data: seq<seq<Attachment>>, existing: nat -> Result<seq<string>>,
                     reply: nat -> Session.Response, attached: seq<string>, duplicated: seq<string>)
    returns (r: Result<(seq<string>, seq<string>)>, found': seq<seq<string>>, data': seq<seq<Attachment>>)
    requires AttachSteps(sent, found, data, existing) && |found| == |sent|
    requires attached == Attached(data, reply) && duplicated == Concat(found)
    ensures AttachSteps(sent + [chunk], found', data', existing)
    ensures r.Failure? ==> found' == found && existing(|found|) == Failure(r.error)
    ensures r.Success? ==> |found'| == |sent| + 1 && r.value == (Attached(data', reply), Concat(found'))
  {
    var names := existing(|sent|);
    if names.Failure? {
      AttachStepsExtend(sent, found, data, existing, chunk);
      return Failure(names.error), found, data;
    }
    AttachStepsSnoc(sent, found, data, existing, chunk, names.value);
    var nowDuplicated := duplicated + names.value;
    var picked := SelectFresh(chunk, nowDuplicated);
    var resp := reply(|data|);
    AttachedSnoc(data, picked, reply);
    var nowAttached := attached;
    if Session.IsOk(resp.status) {
      nowAttached := attached + Map(picked, AttachmentName);
    }
    found', data' := found + [names.value], data + [picked];
    assert nowAttached == Attached(data', reply) && nowDuplicated == Concat(found');
    r := Success((nowAttached, nowDuplicated));
  }

  /** `list(set(xs) - drop)`: each name of `xs` outside `drop` once, in
      the order of first occurrence. */
  function Unique(xs: seq<string>, drop: set<string>): (r: seq<string>)
    ensures forall x :: x in r <==> x in xs && x !in drop
    ensures forall i, j :: 0 <= i < j < |r| ==> r[i] != r[j]
  {
    if xs == [] then []
    else
      var prev := Unique(xs[..|xs| - 1], drop);
      var last := xs[|xs| - 1];
      assert forall x :: x in xs <==> x in xs[..|xs| - 1] || x == last;
      if last in drop || last in prev then prev else prev + [last]
  }

  /** The destination lookups of `bulk_copy_by_names`: per slice of at most
      500 source names, the names `list_by_names` finds in the destination
      (`inDest(k)` for slice `k`), collected into a set. */
  method LookupDestination(names: seq<string>, inDest: nat -> Result<seq<string>>)
    returns (r: Result<set<string>>, looked: seq<seq<string>>, found: seq<seq<string>>)
    ensures looked <= Chunks(names, AttachChunkSize)
    ensures |found| <= |looked|
    ensures forall k :: 0 <= k < |found| ==> inDest(k) == Success(found[k])
    ensures r.Failure? ==> |found| + 1 == |looked| && inDest(|found|) == Failure(r.error)
    ensures r.Success? ==>
      looked == Chunks(names, AttachChunkSize) && |found| == |looked|
      && r.value == set x | x in Concat(found)
  {
    looked, found := [], [];
    var seen: set<string> := {};
    var i := 0;
    while i < |names|
      invariant i <= |names|
      invariant looked + Chunks(names[i..], AttachChunkSize) == Chunks(names, AttachChunkSize)
      invariant |found| == |looked|
      invariant forall k :: 0 <= k < |found| ==> inDest(k) == Success(found[k])
      invariant seen == set x | x in Concat(found)
    {
      var j := if i + AttachChunkSize <= |names| then i + AttachChunkSize else |names|;
      SliceSent(names, AttachChunkSize, i, looked);
      var got := inDest(|looked|);
      looked := looked + [names[i..j]];
      if got.Failure? {
        return Failure(got.error), looked, found;
      }
      ConcatSnoc(found, got.value);
      seen := seen + set x | x in got.value;
      found := found + [got.value];
      i := j;
    }
    SliceDone(names, AttachChunkSize, looked);
    r := Success(seen);
  }

  /** Every copied slice got a `Polling` with its length as threshold, and
      its await answered. */
  predicate Awaited(progress: nat -> nat -> Session.Response, cost: nat -> nat -> nat,
                    copied: seq<seq<string>>, thresholds: seq<int>)
  {
    |thresholds| <= |copied|
    && forall k :: 0 <= k < |thresholds| ==>
         thresholds[k] == |copied[k]| && AwaitFrom(progress(k), cost(k), |copied[k]|, 0, 0, 0).result.Success?
  }

  lemma AwaitedSnoc(progress: nat -> nat -> Session.Response, cost: nat -> nat -> nat,
                    copied: seq<seq<string>>, thresholds: seq<int>, chunk: seq<string>)
    requires Awaited(progress, cost, copied, thresholds) && |thresholds| == |copied|
    requires AwaitFrom(progress(|copied|), cost(|copied|), |chunk|, 0, 0, 0).result.Success?
    ensures Awaited(progress, cost, copied + [chunk], thresholds + [|chunk|])
  {
    var c', t' := copied + [chunk], thresholds + [|chunk|];
    forall k | 0 <= k < |t'|
      ensures t'[k] == |c'[k]| && AwaitFrom(progress(k), cost(k), |c'[k]|, 0, 0, 0).result.Success?
    {
      if k < |thresholds| {
        assert c'[k] == copied[k] && t'[k] == thresholds[k];
      } else {
        assert k == |copied| && c'[k] == chunk && t'[k] == |chunk|;
      }
    }
  }

  /** A slice whose copy failed is recorded, without a threshold. */
  lemma AwaitedExtend(progress: nat -> nat -> Session.Response, cost: nat -> nat -> nat,
                      copied: seq<seq<string>>, thresholds: seq<int>, chunk: seq<string>)
    requires Awaited(progress, cost, copied, thresholds)
    ensures Awaited(progress, cost, copied + [chunk], thresholds)
  {
    forall k | 0 <= k < |thresholds|
      ensures (copied + [chunk])[k] == copied[k]
    {
    }
  }

  /** The outcome of copying one slice of `n` names: the copy request's
      reply must be ok and carry a `poll_id`, and the await of a `Polling`
      with threshold `n` must finish. */
  function CopySlice(resp: Session.Response, progress: nat -> Session.Response,
                     cost: nat -> nat, n: int): (r: Result<()>)
    ensures !Session.IsOk(resp.status) ==> r == Failure(HttpError(resp.status))
    ensures r.Success? <==> Session.IsOk(resp.status) && Get(resp.body, "poll_id").Success?
                            && AwaitFrom(progress, cost, n, 0, 0, 0).result.Success?
  {
    if !Session.IsOk(resp.status) then Failure(HttpError(resp.status))
    else match Get(resp.body, "poll_id")
      case Failure(e) => Failure(e)
      case Success(_) =>
        match AwaitFrom(progress, cost, n, 0, 0, 0).result
        case Failure(e) => Failure(e)
        case Success(_) => Success(())
  }

  /** The copy loop of `bulk_copy_by_names`: per slice of at most 500 names,
      one copy request (`reply(k)`), whose `poll_id` starts a `Polling` with
      the slice length as threshold, awaited with the progress responses
      `progress(k)` taking `cost(k)`. Returns the slices and thresholds. */
  method CopyChunks(projectId: int, names: seq<string>, reply: nat -> Session.Response,
                    progress: nat -> nat -> Session.Response, cost: nat -> nat -> nat)
    returns (r: Result<()>, copied: seq<seq<string>>, thresholds: seq<int>)
    ensures copied <= Chunks(names, AttachChunkSize)
    ensures Awaited(progress, cost, copied, thresholds)
    ensures r.Success? ==> copied == Chunks(names, AttachChunkSize) && |thresholds| == |copied|
    ensures r.Failure? ==>
      var k := |copied| - 1;
      k >= 0 && |thresholds| == k && CopySlice(reply(k), progress(k), cost(k), |copied[k]|) == Failure(r.error)
  {
    copied, thresholds := [], [];
    var i := 0;
    while i < |names|
      invariant i <= |names|
      invariant copied + Chunks(names[i..], AttachChunkSize) == Chunks(names, AttachChunkSize)
      invariant Awaited(progress, cost, copied, thresholds) && |thresholds| == |copied|
    {
      var j := if i + AttachChunkSize <= |names| then i + AttachChunkSize else |names|;
      SliceSent(names, AttachChunkSize, i, copied);
      var chunk := names[i..j];
      AwaitedExtend(progress, cost, copied, thresholds, chunk);
      var k := |copied|;
      var resp := reply(k);
      if !Session.IsOk(resp.status) {
        return Failure(HttpError(resp.status)), copied + [chunk], thresholds;
      }
      var pollId := Get(resp.body, "poll_id");
      if pollId.Failure? {
        return Failure(pollId.error), copied + [chunk], thresholds;
      }
      var polling := new Polling(projectId, pollId.value, |chunk|);
      var done, _, _ := AwaitCopy(polling, progress(k), cost(k));
      if done.Failure? {
        assert CopySlice(resp, progress(k), cost(k), |chunk|) == Failure(done.error);
        return Failure(done.error), copied + [chunk], thresholds;
      }
      AwaitedSnoc(progress, cost, copied, thresholds, chunk);
      copied := copied + [chunk];
      thresholds := thresholds + [polling.threshold];
      i := j;
    }
    SliceDone(names, AttachChunkSize, copied);
    r := Success(());
  }

  /** `bulk_copy_by_names`: `existing` holds the names of the source items
      (every item of the source folder without `itemNames`, else those of
      `itemNames` that `list_by_names` finds). Requested names that do not
      exist and names already in the destination are skipped; the rest is
      copied, once each, after the destination quota check (without the
      user quota). Returns the skipped names. */
  method BulkCopyByNames(projectId: int, itemNames: seq<string>, existing: Result<seq<string>>,
                         inDest: nat -> Result<seq<string>>, limits: Value,
                         reply: nat -> Session.Response,
                         progress: nat -> nat -> Session.Response, cost: nat -> nat -> nat)
    returns (r: Result<set<string>>, found: seq<seq<string>>, toCopy: seq<string>,
             copied: seq<seq<string>>)
    ensures existing.Failure? ==> r == Failure(existing.error)
    ensures r.Success? ==>
      var names := existing.value;
      && |found| == |Chunks(names, AttachChunkSize)|
      && (forall k :: 0 <= k < |found| ==> inDest(k) == Success(found[k]))
      && r.value == (if itemNames != [] then (set x | x in itemNames) - (set x | x in names) else {})
                    + (set x | x in Concat(found))
      && (forall x :: x in toCopy <==> x in names && x !in r.value)
      && (forall i, j :: 0 <= i < j < |toCopy| ==> toCopy[i] != toCopy[j])
      && ValidateLimitations(limits, |toCopy|, true, true, false).Success?
      && copied == Chunks(toCopy, AttachChunkSize)
      && (forall k :: 0 <= k < |copied| ==> AwaitFrom(progress(k), cost(k), |copied[k]|, 0, 0, 0).result.Success?)
    ensures r.Failure? && existing.Success? && copied == [] ==>
      (toCopy == [] && |found| < |Chunks(existing.value, AttachChunkSize)| && inDest(|found|) == Failure(r.error))
      || ValidateLimitations(limits, |toCopy|, true, true, false) == Failure(r.error)
    ensures r.Failure? && copied != [] ==>
      var k := |copied| - 1;
      && existing.Success? && ValidateLimitations(limits, |toCopy|, true, true, false).Success?
      && copied <= Chunks(toCopy, AttachChunkSize)
      && CopySlice(reply(k), progress(k), cost(k), |copied[k]|) == Failure(r.error)
  {
    found, toCopy, copied := [], [], [];
    if existing.Failure? {
      return Failure(existing.error), found, toCopy, copied;
    }
    var names := existing.value;
    var skipped: set<string> := {};
    if itemNames != [] {
      skipped := skipped + ((set x | x in itemNames) - (set x | x in names));
    }
    var inDestination, looked;
    inDestination, looked, found := LookupDestination(names, inDest);
    if inDestination.Failure? {
      return Failure(inDestination.error), found, toCopy, copied;
    }
    skipped := skipped + inDestination.value;
    toCopy := Unique(names, skipped);
    var checked := ValidateLimitations(limits, |toCopy|, true, true, false);
    if checked.Failure? {
      return Failure(checked.error), found, toCopy, copied;
    }
    var copiedAll, thresholds;
    copiedAll, copied, thresholds := CopyChunks(projectId, toCopy, reply, progress, cost);
    if copiedAll.Failure? {
      return Failure(copiedAll.error), found, toCopy, copied;
    }
    r := Success(skipped);
  }
}

=== FILE: json.dfy ===
/** JSON values as the Python code sees them after json.loads, and the list
    helpers shared by the repositories (slicing into chunks, flattening). */
module Json {
  import opened Wrappers

  /** A decoded JSON document. Objects are dicts keyed by string; their key
      order is not modelled. */
  datatype Value =
    | VNull
    | VBool(b: bool)
    | VInt(i: int)
    | VStr(s: string)
    | VList(items: seq<Value>)
    | VObj(fields: map<string, Value>)

  /** Python truthiness: None, False, 0, "", [] and {} are falsy. */
  predicate Truthy(v: Value)
  {
    match v
    case VNull => false
    case VBool(b) => b
    case VInt(i) => i != 0
    case VStr(s) => s != []
    case VList(xs) => xs != []
    case VObj(m) => m != map[]
  }

  /** `v[key]` on a decoded document: a missing key raises KeyError, indexing
      anything but a dict with a string raises TypeError. */
  function Get(v: Value, key: string): (r: Result<Value>)
    ensures r.Success? <==> v.VObj? && key in v.fields
    ensures r.Success? ==> r.value == v.fields[key]
    ensures r.Failure? ==> r.error == (if v.VObj? then KeyError(key) else TypeError)
  {
    if v.VObj? then
      if key in v.fields then Success(v.fields[key]) else Failure(KeyError(key))
    else Failure(TypeError)
  }

  /** `annotation["metadata"]["name"]`, the correlation key of a document. */
  function MetadataName(doc: Value): (r: Result<Value>)
    ensures r.Success? ==> doc.VObj? && "metadata" in doc.fields
  {
    var meta :- Get(doc, "metadata");
    Get(meta, "name")
  }

  function IntList(ids: seq<int>): (r: Value)
    ensures r.VList? && |r.items| == |ids|
    ensures forall i :: 0 <= i < |ids| ==> r.items[i] == VInt(ids[i])
  {
    VList(seq(|ids|, i requires 0 <= i < |ids| => VInt(ids[i])))
  }

  function StrList(names: seq<string>): (r: Value)
    ensures r.VList? && |r.items| == |names|
    ensures forall i :: 0 <= i < |names| ==> r.items[i] == VStr(names[i])
  {
    VList(seq(|names|, i requires 0 <= i < |names| => VStr(names[i])))
  }

  /** A JSON value that can be hashed: a set element or a dict key. */
  predicate Hashable(v: Value)
  {
    !v.VList? && !v.VObj?
  }

  /** `v` up to Python's equality, under which `True == 1` and
      `False == 0`: two hashable values are equal exactly when their keys
      are. */
  function HashKey(v: Value): Value
  {
    if v.VBool? then VInt(if v.b then 1 else 0) else v
  }

  /** `d[key]` put in a set or used as a dict key: the entry's `HashKey`.
      A missing entry raises what `Get` raises, and an entry that cannot be
      hashed raises TypeError. */
  function HashedField(d: Value, key: string): (r: Result<Value>)
    ensures r.Success? <==> Get(d, key).Success? && Hashable(Get(d, key).value)
    ensures r.Success? ==> r.value == HashKey(Get(d, key).value)
    ensures Get(d, key).Failure? ==> r == Failure(Get(d, key).error)
  {
    var v :- Get(d, key);
    if Hashable(v) then Success(HashKey(v)) else Failure(TypeError)
  }

  /** A list comprehension, `[f(x) for x in xs]`. */
  function Map<T, U>(xs: seq<T>, f: T -> U): (r: seq<U>)
    ensures |r| == |xs| && forall k :: 0 <= k < |xs| ==> r[k] == f(xs[k])
  {
    seq(|xs|, k requires 0 <= k < |xs| => f(xs[k]))
  }

  /** Flattening a list of lists (`list.extend` in a loop). */
  function Concat<T>(xss: seq<seq<T>>): seq<T>
  {
    if xss == [] then [] else Concat(xss[..|xss| - 1]) + xss[|xss| - 1]
  }

  lemma ConcatSnoc<T>(xss: seq<seq<T>>, xs: seq<T>)
    ensures Concat(xss + [xs]) == Concat(xss) + xs
  {
    assert (xss + [xs])[..|xss|] == xss;
  }

  lemma {:induction false} ConcatAppend<T>(a: seq<seq<T>>, b: seq<seq<T>>)
    ensures Concat(a + b) == Concat(a) + Concat(b)
    decreases |b|
  {
    if b == [] {
      assert a + b == a;
    } else {
      var b' := b[..|b| - 1];
      assert a + b == (a + b') + [b[|b| - 1]];
      assert b == b' + [b[|b| - 1]];
      ConcatSnoc(a + b', b[|b| - 1]);
      ConcatAppend(a, b');
      ConcatSnoc(b', b[|b| - 1]);
    }
  }

  lemma ConcatCons<T>(xs: seq<T>, xss: seq<seq<T>>)
    ensures Concat([xs] + xss) == xs + Concat(xss)
  {
    ConcatAppend([xs], xss);
    ConcatSnoc([], xs);
  }

  /** The consecutive slices `xs[i : i + n]` for `i in range(0, len(xs), n)`. */
  function Chunks<T>(xs: seq<T>, n: nat): seq<seq<T>>
    requires n > 0
    decreases |xs|
  {
    if xs == [] then []
    else if |xs| <= n then [xs]
    else [xs[..n]] + Chunks(xs[n..], n)
  }

  /** Every slice is non-empty and at most `n` long, all but the last are
      exactly `n` long, and together they give back `xs` in order. */
  lemma {:induction false} ChunksSpec<T>(xs: seq<T>, n: nat)
    requires n > 0
    ensures var r := Chunks(xs, n);
      && (forall i :: 0 <= i < |r| ==> 0 < |r[i]| <= n)
      && (forall i :: 0 <= i < |r| - 1 ==> |r[i]| == n)
      && Concat(r) == xs
    decreases |xs|
  {
    if xs == [] {
    } else if |xs| <= n {
      assert Concat([xs]) == Concat([]) + xs;
    } else {
      var rest := Chunks(xs[n..], n);
      ChunksSpec(xs[n..], n);
      ConcatAppend([xs[..n]], rest);
      assert Concat([xs[..n]]) == Concat([]) + xs[..n];
      assert xs == xs[..n] + xs[n..];
    }
  }

  /** One step of the slicing loop: from position `i`, the next slice runs
      to `i + n` or to the end. */
  lemma ChunksStep<T>(xs: seq<T>, n: nat, i: nat)
    requires n > 0 && i < |xs|
    ensures var j := if i + n <= |xs| then i + n else |xs|;
      Chunks(xs[i..], n) == [xs[i..j]] + Chunks(xs[j..], n)
  {
    var j := if i + n <= |xs| then i + n else |xs|;
    if i + n < |xs| {
      assert xs[i..][..n] == xs[i..j];
      assert xs[i..][n..] == xs[j..];
    } else {
      assert xs[i..] == xs[i..j];
      assert xs[j..] == [];
    }
  }

  predicate IsDigit(c: char) { '0' <= c <= '9' }

  /** Base-10 digits, with single underscores allowed between two digits. */
  predicate IsNumeral(s: string)
  {
    |s| > 0 && IsDigit(s[0]) && IsNumeralTail(s[1..])
  }

  /** What may follow a digit of a numeral. */
  predicate IsNumeralTail(s: string)
    decreases |s|
  {
    s == []
    || (IsDigit(s[0]) && IsNumeralTail(s[1..]))
    || (|s| >= 2 && s[0] == '_' && IsDigit(s[1]) && IsNumeralTail(s[2..]))
  }

  lemma {:induction false} DigitsAreNumeralTail(s: string)
    requires forall i :: 0 <= i < |s| ==> IsDigit(s[i])
    ensures IsNumeralTail(s)
    decreases |s|
  {
    if s != [] {
      DigitsAreNumeralTail(s[1..]);
    }
  }

  /** The value of the digits of `s`, anything else (the underscores of a
      numeral) skipped. */
  function NumeralValue(s: string): nat
  {
    if s == [] then 0
    else if !IsDigit(s[|s| - 1]) then NumeralValue(s[..|s| - 1])
    else NumeralValue(s[..|s| - 1]) * 10 + (s[|s| - 1] as int - '0' as int)
  }

  /** `str(n)` for a natural number: its decimal digits. */
  function ShowNat(n: nat): (r: string)
    ensures |r| > 0 && forall i :: 0 <= i < |r| ==> IsDigit(r[i])
  {
    if n < 10 then ['0' + n as char] else ShowNat(n / 10) + ['0' + (n % 10) as char]
  }

  lemma {:induction false} ShowNatValue(n: nat)
    ensures NumeralValue(ShowNat(n)) == n
    decreases n
  {
    var r := ShowNat(n);
    if n >= 10 {
      ShowNatValue(n / 10);
      assert r[..|r| - 1] == ShowNat(n / 10);
    }
  }

  /** The digits of `str(n)` form a numeral of value `n`. */
  lemma ShowNatNumeral(n: nat)
    ensures IsNumeral(ShowNat(n)) && NumeralValue(ShowNat(n)) == n
  {
    var digits := ShowNat(n);
    ShowNatValue(n);
    assert forall i :: 0 <= i < |digits[1..]| ==> IsDigit(digits[1..][i]) by {
      forall i | 0 <= i < |digits[1..]| ensures IsDigit(digits[1..][i]) {
        assert digits[1..][i] == digits[i + 1];
      }
    }
    DigitsAreNumeralTail(digits[1..]);
  }
}

=== FILE: retry.dfy ===
/** The retry loop of `AIOHttpSession.request` (the asynchronous session that
    every streamed, sync and fetch call goes through). One call to the
    network is one reply from an oracle; delays are counted in units of
    BACKOFF_FACTOR (0.3 s). */
module Retry {
  import opened Wrappers

  const RetryStatusCodes: set<int> := {401, 403, 502, 503, 504}
  const RetryLimit: nat := 3

  /** What `super()._request` gives back for one attempt. */
  datatype Reply = Status(code: int) | ConnectionFailed

  /** The `data` keyword argument of the call: absent, an aiohttp.FormData,
      or any other body. */
  datatype DataArg = NoData | FormData | PlainData

  /** aiohttp's `ClientResponse.ok`. */
  predicate IsOk(code: int) { code < 400 }

  /** What one attempt ends in: the response is returned, an exception leaves
      the loop, or the loop sleeps and tries again. */
  datatype Step = Return(code: int) | Raise(e: Error) | Again

  /** One attempt of the loop body, `final` when `attempts <= 1`.
      A non-OK status outside the retry set makes `raise_for_status` raise a
      ClientResponseError inside the `try`, which the ClientError handler
      catches: it is retried like a transport error. A status in the retry
      set on a non-final attempt reads `kwargs["data"]`, a KeyError the
      handler does not catch when no `data` was passed. */
  function AttemptStep(r: Reply, final: bool, data: DataArg): (s: Step)
    ensures s.Return? <==> r.Status? && IsOk(r.code) && (final || r.code !in RetryStatusCodes)
    ensures s.Return? ==> s.code == r.code
    ensures s.Again? <==> !final && (r.ConnectionFailed? || !IsOk(r.code))
                          && !(r.Status? && r.code in RetryStatusCodes && data == NoData)
    ensures s == Raise(KeyError("data")) <==> !final && r.Status? && r.code in RetryStatusCodes && data == NoData
    ensures final && r.ConnectionFailed? ==> s == Raise(TransportError)
    ensures final && r.Status? && !IsOk(r.code) ==> s == Raise(HttpError(r.code))
  {
    match r
    case ConnectionFailed =>
      if final then Raise(TransportError) else Again
    case Status(c) =>
      if final || c !in RetryStatusCodes then
        if IsOk(c) then Return(c)
        else if final then Raise(HttpError(c))
        else Again
      else
        match data
        case NoData => Raise(KeyError("data"))
        case FormData => Again   // RuntimeError, caught; the form is rebuilt
        case PlainData => Again
  }

  /** The outcome of the loop from attempt `k` (0-based) on: the result and
      the number of attempts made in all. */
  function Retrying(reply: nat -> Reply, data: DataArg, k: nat): (r: (Result<int>, nat))
    requires k < RetryLimit
    ensures k < r.1 <= RetryLimit
    decreases RetryLimit - k
  {
    match AttemptStep(reply(k), k + 1 == RetryLimit, data)
    case Return(c) => (Success(c), k + 1)
    case Raise(e) => (Failure(e), k + 1)
    case Again => Retrying(reply, data, k + 1)
  }

  /** `AIOHttpSession.request`: `attempts` counts down from RETRY_LIMIT, the
      delay grows by one BACKOFF_FACTOR per attempt and is slept after every
      attempt that is retried. Returns the status of the response handed
      back, or the exception raised, with the delays slept. */
  method Request(reply: nat -> Reply, data: DataArg) returns (r: Result<int>, delays: seq<nat>)
    ensures (r, |delays| + 1) == Retrying(reply, data, 0)
    ensures forall i :: 0 <= i < |delays| ==> delays[i] == i + 1
  {
    var attempts := RetryLimit;
    var delay := 0;
    delays := [];
    var n := 0;
    while true
      invariant n < RetryLimit && attempts == RetryLimit - n && delay == n && |delays| == n
      invariant forall i :: 0 <= i < n ==> delays[i] == i + 1
      invariant Retrying(reply, data, 0) == Retrying(reply, data, n)
      decreases RetryLimit - n
    {
      delay := delay + 1;
      var response := reply(n);
      if response.ConnectionFailed? {
        // except (ClientError, RuntimeError)
        if attempts <= 1 {
          return Failure(TransportError), delays;
        }
      } else if attempts <= 1 || response.code !in RetryStatusCodes {
        if !IsOk(response.code) {
          // raise_for_status: a ClientResponseError, caught by the same handler
          if attempts <= 1 {
            return Failure(HttpError(response.code)), delays;
          }
        } else {
          return Success(response.code), delays;
        }
      } else if data == NoData {
        // kwargs["data"] on a call made without `data`
        return Failure(KeyError("data")), delays;
      }
      attempts := attempts - 1;
      delays := delays + [delay];
      n := n + 1;
    }
  }

  /** At most RETRY_LIMIT attempts are made, and an OK status is returned on
      the attempt where it arrives when that attempt is final or its status
      is not in the retry set. */
  lemma {:induction false} ReturnsFirstOk(reply: nat -> Reply, data: DataArg, k: nat)
    requires k < RetryLimit
    requires reply(k).Status? && IsOk(reply(k).code)
    requires forall j :: 0 <= j < k ==> AttemptStep(reply(j), j + 1 == RetryLimit, data).Again?
    ensures Retrying(reply, data, 0) == (Success(reply(k).code), k + 1)
  {
    AgainUntil(reply, data, 0, k);
  }

  lemma {:induction false} AgainUntil(reply: nat -> Reply, data: DataArg, i: nat, k: nat)
    requires i <= k < RetryLimit
    requires forall j :: i <= j < k ==> AttemptStep(reply(j), j + 1 == RetryLimit, data).Again?
    ensures Retrying(reply, data, i) == Retrying(reply, data, k)
    decreases k - i
  {
    if i < k {
      AgainUntil(reply, data, i + 1, k);
    }
  }

  /** Retry budget: K replies with a retryable status (K < RETRY_LIMIT) then
      an OK one give that OK status after K + 1 attempts, provided the call
      passed a `data` argument. */
  lemma RetryBudget(reply: nat -> Reply, data: DataArg, k: nat, code: int)
    requires data != NoData && k < RetryLimit && IsOk(code) && reply(k) == Status(code)
    requires forall j :: 0 <= j < k ==> reply(j).Status? && reply(j).code in RetryStatusCodes
    ensures Retrying(reply, data, 0) == (Success(code), k + 1)
  {
    ReturnsFirstOk(reply, data, k);
  }

  /** Given K >= RETRY_LIMIT retryable statuses, the call raises on the final
      attempt with that status. */
  lemma RetryExhausted(reply: nat -> Reply, data: DataArg)
    requires data != NoData
    requires forall j :: 0 <= j < RetryLimit ==> reply(j).Status? && reply(j).code in RetryStatusCodes
    ensures Retrying(reply, data, 0) == (Failure(HttpError(reply(2).code)), 3)
  {
  }

  /** Without a `data` argument (every streamed, sync and fetch call), the
      first retryable status raises KeyError instead of being retried. */
  lemma {:induction false} RetryableWithoutDataRaisesKeyError(reply: nat -> Reply, k: nat)
    requires k + 1 < RetryLimit
    requires reply(k).Status? && reply(k).code in RetryStatusCodes
    requires forall j :: 0 <= j < k ==> AttemptStep(reply(j), j + 1 == RetryLimit, NoData).Again?
    ensures Retrying(reply, NoData, 0) == (Failure(KeyError("data")), k + 1)
  {
    AgainUntil(reply, NoData, 0, k);
  }

  /** A non-OK status outside the retry set is retried while attempts remain. */
  lemma NonRetryableErrorIsRetried(reply: nat -> Reply, data: DataArg)
    requires reply(0).Status? && !IsOk(reply(0).code) && reply(0).code !in RetryStatusCodes
    ensures Retrying(reply, data, 0) == Retrying(reply, data, 1)
  {
  }
}

=== FILE: session.dfy ===
/** The synchronous `Session` (infrastructure/session.py): URL building,
    request shaping, the retry on 404 and offset pagination. The network is
    a parameter: the status code each send returns, or the page each
    request returns. */
module Session {
  import opened Wrappers
  import opened Json

  const MaxCoroutineCount: nat := 8
  const AnnotationVersion: string := "V1.00"
  /** `_request` resends a 404 while it has retried fewer than this many times. */
  const NotFoundRetries: nat := 3

  /** A request target: kept as given, or resolved against the API root. */
  datatype Url = Absolute(url: string) | Joined(base: string, path: string)

  /** `_build_url`: a URL that starts with "htt" is used as is. */
  function BuildUrl(apiUrl: string, url: string): (r: Url)
    ensures r.Absolute? <==> |url| >= 3 && url[..3] == "htt"
    ensures r.Absolute? ==> r.url == url
    ensures r.Joined? ==> r.base == apiUrl && r.path == url
  {
    if |url| >= 3 && url[..3] == "htt" then Absolute(url) else Joined(apiUrl, url)
  }

  /** The keyword arguments `request` hands to `_request`. */
  datatype Prepared = Prepared(url: Url, verb: string, params: map<string, Value>,
                               data: Option<Value>, json: Option<Value>)

  /** `request`: the query always carries the team id, which the caller's
      parameters may override; `data` and `json` are sent only when truthy. */
  function PrepareRequest(apiUrl: string, teamId: int, url: string, verb: string, data: Value,
                          json: Value, params: map<string, Value>, buildUrl: bool): (r: Prepared)
    ensures r.params.Keys == params.Keys + {"team_id"}
    ensures forall k :: k in params ==> r.params[k] == params[k]
    ensures "team_id" !in params ==> r.params["team_id"] == VInt(teamId)
    ensures r.data.Some? <==> Truthy(data)
    ensures r.data.Some? ==> r.data.value == data
    ensures r.json.Some? <==> Truthy(json)
    ensures r.json.Some? ==> r.json.value == json
    ensures r.url == if buildUrl then BuildUrl(apiUrl, url) else Absolute(url)
  {
    Prepared(
      if buildUrl then BuildUrl(apiUrl, url) else Absolute(url),
      verb,
      map["team_id" := VInt(teamId)] + params,
      if Truthy(data) then Some(data) else None,
      if Truthy(json) then Some(json) else None)
  }

  /** What `_request` did: the status it returned, how many sends it made and
      the sleeps before each resend, in tenths of a second. */
  datatype Sent = Sent(code: int, sends: nat, sleeps: seq<nat>)

  /** `_request`: a 404 is resent while fewer than three resends were made,
      after sleeping `retried` tenths of a second. `status(j)` is the code
      the send with `retried == j` receives. */
  function NotFoundRetry(status: nat -> int, retried: nat): (r: Sent)
    ensures 1 <= r.sends <= (if retried < NotFoundRetries then NotFoundRetries + 1 - retried else 1)
    ensures r.code == status(retried + r.sends - 1)
    ensures forall j :: retried <= j < retried + r.sends - 1 ==> status(j) == 404
    ensures r.code == 404 ==> retried + r.sends - 1 >= NotFoundRetries
    ensures |r.sleeps| == r.sends - 1
    ensures forall i :: 0 <= i < |r.sleeps| ==> r.sleeps[i] == retried + i
    decreases NotFoundRetries - retried
  {
    if status(retried) == 404 && retried < NotFoundRetries then
      var rest := NotFoundRetry(status, retried + 1);
      Sent(rest.code, rest.sends + 1, [retried] + rest.sleeps)
    else Sent(status(retried), 1, [])
  }

  /** A call starting from `retried == 0` returns the first status that is
      not 404 among at most four sends, and a 404 only when all four got one. */
  lemma {:induction false} NotFoundRetryFirst(status: nat -> int, k: nat)
    requires k <= NotFoundRetries
    requires forall j: nat :: j < k ==> status(j) == 404
    requires status(k) != 404
    ensures NotFoundRetry(status, 0) == Sent(status(k), k + 1, seq(k, i => i))
  {
    var r := NotFoundRetry(status, 0);
    assert r.sends == k + 1;
    assert r.sleeps == seq(k, i => i);
  }

  /** One reply of a paginated listing: a status code and the decoded body. */
  datatype Response = Response(status: int, body: Value)

  /** requests' `Response.ok`: `raise_for_status` raises for the client and
      server error codes, 400 to 599, and for no other code. */
  predicate IsOk(code: int) { !(400 <= code < 600) }

  /** The page part of a body: the body itself when it is a list, its
      `data` entry otherwise. */
  function Payload(body: Value): (r: Result<Value>)
    ensures body.VList? ==> r == Success(body)
    ensures !body.VList? ==> r == Get(body, "data")
  {
    if body.VList? then Success(body) else Get(body, "data")
  }

  /** The stop test after a non-empty page: a short page ends the listing;
      otherwise `count` is read and the listing ends once the offset has
      passed it. */
  function StopAfter(body: Value, pageLen: nat, offset: nat, chunkSize: int): (r: Result<bool>)
    ensures pageLen < chunkSize ==> r == Success(true)
    ensures pageLen >= chunkSize && r.Success? ==> Get(body, "count").Success? && Get(body, "count").value.VInt?
    ensures pageLen >= chunkSize && r.Success? ==> (r.value <==> Get(body, "count").value.i < offset)
  {
    if pageLen < chunkSize then Success(true)
    else match Get(body, "count")
      case Failure(e) => Failure(e)
      case Success(c) => if c.VInt? then Success(c.i - offset < 0) else Failure(TypeError)
  }

  /** What one reply does to the listing: end it with an outcome, or add
      a page of items and ask for the next. */
  datatype Turn = Stop(run: Run<seq<Value>>) | Next(items: seq<Value>)

  /** The items a reply adds to the listing: those of an OK reply whose
      payload is a list, none otherwise. */
  function PageItems(resp: Response): seq<Value>
  {
    if IsOk(resp.status) && Payload(resp.body).Success? && Payload(resp.body).value.VList?
    then Payload(resp.body).value.items else []
  }

  /** One turn of the `paginate` loop for the request at `offset`. A non-OK
      reply raises its status; a falsy payload ends the listing; a page ends
      it when it is short or `count` says the offset has passed the end.
      Only a full page continues it. */
  function PageTurn(resp: Response, chunkSize: int, offset: nat): Turn
  {
    if !IsOk(resp.status) then Stop(Finished(Failure(HttpError(resp.status))))
    else match Payload(resp.body)
      case Failure(e) => Stop(Finished(Failure(e)))
      case Success(payload) =>
        if !Truthy(payload) then Stop(Finished(Success([])))
        else if !payload.VList? then Stop(Finished(Failure(TypeError)))
        else
          var items := payload.items;
          match StopAfter(resp.body, |items|, offset + |items|, chunkSize)
          case Failure(e) => Stop(Finished(Failure(e)))
          case Success(stop) => if stop then Stop(Finished(Success(items))) else Next(items)
  }

  /** A turn continues only on a full page of an OK reply and then adds
      exactly that page; a turn that ends the listing with a result returns
      that page; a non-OK reply raises its status. */
  lemma PageTurnFacts(resp: Response, chunkSize: int, offset: nat)
    ensures var t := PageTurn(resp, chunkSize, offset);
      && (t.Next? ==> t.items == PageItems(resp) && |t.items| >= chunkSize && IsOk(resp.status))
      && (t.Stop? && t.run.Finished? && t.run.result.Success? ==> t.run.result.value == PageItems(resp))
      && (!IsOk(resp.status) ==> t == Stop(Finished(Failure(HttpError(resp.status)))))
      && (t.Stop? ==> t.run.Finished?)
  {
  }

  /** Puts a page in front of what the later pages return; an exception or
      running out of replies loses the pages collected so far. */
  function Prepend(items: seq<Value>, rest: Run<seq<Value>>): Run<seq<Value>>
  {
    match rest
    case Finished(Success(t)) => Finished(Success(items + t))
    case _ => rest
  }

  /** The reference for `paginate` from reply `i` and `offset` on: its
      outcome and the offset of every request it made, one per reply
      consumed. */
  function Pages(pages: seq<Response>, chunkSize: int, i: nat, offset: nat): (r: (Run<seq<Value>>, seq<nat>))
    requires i <= |pages|
    ensures |r.1| <= |pages| - i
    ensures i < |pages| ==> |r.1| >= 1 && r.1[0] == offset
    ensures r.0.OutOfReplies? ==> |r.1| == |pages| - i
    decreases |pages| - i
  {
    if i == |pages| then (OutOfReplies, [])
    else match PageTurn(pages[i], chunkSize, offset)
      case Stop(run) => (run, [offset])
      case Next(items) =>
        var rest := Pages(pages, chunkSize, i + 1, offset + |items|);
        (Prepend(items, rest.0), [offset] + rest.1)
  }

  /** The offset of every request after the first is the previous offset
      plus the size of the previous page, and only a full page from an OK
      reply leads to another request. */
  lemma PagesOffsets(pages: seq<Response>, chunkSize: int, i: nat, offset: nat)
    requires i <= |pages|
    ensures var offs := Pages(pages, chunkSize, i, offset).1;
      forall j :: i <= j < i + |offs| - 1 ==>
        (offs[j - i + 1] == offs[j - i] + |PageItems(pages[j])|
         && IsOk(pages[j].status) && |PageItems(pages[j])| >= chunkSize)
  {
    var offs := Pages(pages, chunkSize, i, offset).1;
    forall j | i <= j < i + |offs| - 1
      ensures offs[j - i + 1] == offs[j - i] + |PageItems(pages[j])|
      ensures IsOk(pages[j].status) && |PageItems(pages[j])| >= chunkSize
    {
      PagesOffsetAt(pages, chunkSize, i, offset, j);
    }
  }

  /** `PagesOffsets` for the request after reply `j`. */
  lemma {:induction false} PagesOffsetAt(pages: seq<Response>, chunkSize: int, i: nat, offset: nat, j: nat)
    requires i <= |pages|
    requires i <= j < i + |Pages(pages, chunkSize, i, offset).1| - 1
    ensures var offs := Pages(pages, chunkSize, i, offset).1;
      && offs[j - i + 1] == offs[j - i] + |PageItems(pages[j])|
      && IsOk(pages[j].status) && |PageItems(pages[j])| >= chunkSize
    decreases j - i
  {
    PageTurnFacts(pages[i], chunkSize, offset);
    var items := PageTurn(pages[i], chunkSize, offset).items;
    var rest := Pages(pages, chunkSize, i + 1, offset + |items|).1;
    var offs := Pages(pages, chunkSize, i, offset).1;
    assert offs == [offset] + rest;
    if j > i {
      PagesOffsetAt(pages, chunkSize, i + 1, offset + |items|, j);
      assert offs[j - i] == rest[j - (i + 1)] && offs[j - i + 1] == rest[j - (i + 1) + 1];
    } else {
      assert i + 1 < |pages| && offs[1] == rest[0] == offset + |items|;
    }
  }

  /** The pages `i .. i + n` of a listing, as lists of items. */
  function PagesRead(pages: seq<Response>, i: nat, n: nat): (r: seq<seq<Value>>)
    requires i + n <= |pages|
    ensures |r| == n && forall k :: 0 <= k < n ==> r[k] == PageItems(pages[i + k])
    decreases n
  {
    if n == 0 then [] else [PageItems(pages[i])] + PagesRead(pages, i + 1, n - 1)
  }

  /** A finished listing is the concatenation, in order, of the pages it
      read. */
  lemma {:induction false} PagesCollect(pages: seq<Response>, chunkSize: int, i: nat, offset: nat)
    requires i <= |pages|
    requires Pages(pages, chunkSize, i, offset).0 .Finished?
    requires Pages(pages, chunkSize, i, offset).0 .result.Success?
    ensures Pages(pages, chunkSize, i, offset).0 .result.value
         == Concat(PagesRead(pages, i, |Pages(pages, chunkSize, i, offset).1|))
    decreases |pages| - i
  {
    var turn := PageTurn(pages[i], chunkSize, offset);
    var items := PageItems(pages[i]);
    var (run, offs) := Pages(pages, chunkSize, i, offset);
    PageTurnFacts(pages[i], chunkSize, offset);
    if turn.Stop? {
      assert run == turn.run && offs == [offset];
      assert PagesRead(pages, i, 1) == [items] + [];
      ConcatCons(items, []);
      assert Concat<Value>([]) == [];
    } else {
      var rest := Pages(pages, chunkSize, i + 1, offset + |items|);
      assert run == Prepend(items, rest.0) && offs == [offset] + rest.1;
      PagesCollect(pages, chunkSize, i + 1, offset + |items|);
      assert PagesRead(pages, i, |offs|) == [items] + PagesRead(pages, i + 1, |rest.1|);
      ConcatCons(items, PagesRead(pages, i + 1, |rest.1|));
    }
  }

  /** A non-OK reply ends the listing with its status raised. */
  lemma {:induction false} PagesRaiseStatus(pages: seq<Response>, chunkSize: int, i: nat, offset: nat)
    requires i <= |pages|
    ensures var (run, offs) := Pages(pages, chunkSize, i, offset);
      offs != [] && !IsOk(pages[i + |offs| - 1].status) ==> run == Finished(Failure(HttpError(pages[i + |offs| - 1].status)))
    decreases |pages| - i
  {
    if i < |pages| {
      PageTurnFacts(pages[i], chunkSize, offset);
    }
    if i < |pages| && PageTurn(pages[i], chunkSize, offset).Next? {
      var items := PageTurn(pages[i], chunkSize, offset).items;
      PagesRaiseStatus(pages, chunkSize, i + 1, offset + |items|);
    }
  }

  /** The URL of the page at `offset`: the query is opened with "?" unless
      the URL already has one, and the offset is written as `str(offset)`. */
  function PageUrl(url: string, offset: nat): string
  {
    url + (if '?' in url then "&" else "?") + "offset=" + ShowNat(offset)
  }

  /** A page URL is the URL, its query separator and `offset=`, followed by
      a numeral whose value is the offset. */
  lemma PageUrlOffset(url: string, offset: nat)
    ensures var r := PageUrl(url, offset);
      var head := url + (if '?' in url then "&" else "?") + "offset=";
      && |head| < |r| && r[..|head|] == head
      && IsNumeral(r[|head|..]) && NumeralValue(r[|head|..]) == offset
  {
    var head := url + (if '?' in url then "&" else "?") + "offset=";
    ShowNatNumeral(offset);
    assert PageUrl(url, offset)[|head|..] == ShowNat(offset);
  }

  /** The URL of each request, one per offset. */
  function PageUrls(url: string, offsets: seq<nat>): seq<string>
  {
    seq(|offsets|, k requires 0 <= k < |offsets| => PageUrl(url, offsets[k]))
  }

  /** `paginate`: request pages at growing offsets until a reply is not OK,
      a page is empty or short, or the offset passes `count`. Returns the
      listing, the offsets requested and the URL of each request. */
  method Paginate(url: string, chunkSize: int, pages: seq<Response>)
    returns (r: Run<seq<Value>>, offsets: seq<nat>, urls: seq<string>)
    ensures r == Pages(pages, chunkSize, 0, 0).0
    ensures offsets == Pages(pages, chunkSize, 0, 0).1
    ensures urls == PageUrls(url, offsets)
  {
    var offset: nat := 0;
    var total: seq<Value> := [];
    offsets := [];
    var i := 0;
    PagesStart(pages, chunkSize);
    while true
      invariant |offsets| == i && PagesFrom(pages, chunkSize, i, offset, total, offsets)
      decreases |pages| - i
    {
      if i == |pages| {
        PagesEnd(pages, chunkSize, offset, total, offsets);
        return OutOfReplies, offsets, PageUrls(url, offsets);
      }
      var turn := PageTurn(pages[i], chunkSize, offset);
      if turn.Stop? {
        PagesStop(pages, chunkSize, i, offset, total, offsets);
        offsets := offsets + [offset];
        return Prepend(total, turn.run), offsets, PageUrls(url, offsets);
      }
      var items := turn.items;
      PagesNext(pages, chunkSize, i, offset, total, offsets);
      offsets := offsets + [offset];
      total := total + items;
      offset := offset + |items|;
      i := i + 1;
    }
  }

  /** The loop state of `paginate` after `i` replies: what it collected
      and requested so far, followed by what the rest of the replies give,
      is what all replies give. */
  predicate PagesFrom(pages: seq<Response>, chunkSize: int, i: nat, offset: nat, total: seq<Value>, offsets: seq<nat>)
  {
    i <= |pages|
    && Pages(pages, chunkSize, 0, 0).0 == Prepend(total, Pages(pages, chunkSize, i, offset).0)
    && Pages(pages, chunkSize, 0, 0).1 == offsets + Pages(pages, chunkSize, i, offset).1
  }

  lemma PagesStart(pages: seq<Response>, chunkSize: int)
    ensures PagesFrom(pages, chunkSize, 0, 0, [], [])
  {
    PrependTwice([], [], Pages(pages, chunkSize, 0, 0).0);
  }

  lemma PagesEnd(pages: seq<Response>, chunkSize: int, offset: nat, total: seq<Value>, offsets: seq<nat>)
    requires PagesFrom(pages, chunkSize, |pages|, offset, total, offsets)
    ensures Pages(pages, chunkSize, 0, 0) == (OutOfReplies, offsets)
  {
    AppendNothing(offsets);
  }

  lemma PagesStop(pages: seq<Response>, chunkSize: int, i: nat, offset: nat, total: seq<Value>, offsets: seq<nat>)
    requires i < |pages| && PagesFrom(pages, chunkSize, i, offset, total, offsets)
    requires PageTurn(pages[i], chunkSize, offset).Stop?
    ensures Pages(pages, chunkSize, 0, 0)
         == (Prepend(total, PageTurn(pages[i], chunkSize, offset).run), offsets + [offset])
  {
  }

  lemma PagesNext(pages: seq<Response>, chunkSize: int, i: nat, offset: nat, total: seq<Value>, offsets: seq<nat>)
    requires i < |pages| && PagesFrom(pages, chunkSize, i, offset, total, offsets)
    requires PageTurn(pages[i], chunkSize, offset).Next?
    ensures var items := PageTurn(pages[i], chunkSize, offset).items;
      PagesFrom(pages, chunkSize, i + 1, offset + |items|, total + items, offsets + [offset])
  {
    var items := PageTurn(pages[i], chunkSize, offset).items;
    var rest := Pages(pages, chunkSize, i + 1, offset + |items|);
    assert Pages(pages, chunkSize, i, offset) == (Prepend(items, rest.0), [offset] + rest.1);
    PrependTwice(total, items, rest.0);
    AppendOne(offsets, offset, rest.1);
  }

  lemma AppendNothing<T>(xs: seq<T>)
    ensures xs + [] == xs
  {
  }

  lemma AppendOne<T>(xs: seq<T>, x: T, ys: seq<T>)
    ensures xs + ([x] + ys) == (xs + [x]) + ys
  {
  }

  lemma PrependTwice(a: seq<Value>, b: seq<Value>, run: Run<seq<Value>>)
    ensures Prepend(a, Prepend(b, run)) == Prepend(a + b, run)
    ensures Prepend([], run) == run
  {
    if run.Finished? && run.result.Success? {
      assert [] + run.result.value == run.result.value;
      assert a + (b + run.result.value) == (a + b) + run.result.value;
    }
  }
}

=== FILE: streamed.dfy ===
/** `StreamedAnnotations`: one streamed list or download request for a batch
    of item ids, decoded frame by frame (infrastructure/repositories/utils.py). */
module Streamed {
  import opened Wrappers
  import opened Json
  import opened Frames
  import Retry

  /** What `fetch` sends: its query parameters and its JSON body. */
  datatype FetchRequest = FetchRequest(params: map<string, Value>, body: map<string, Value>)

  /** One file written by `_store_annotation`: `<dir>/<name>.json`. */
  datatype StoredFile = StoredFile(dir: string, name: Value, content: Value)

  /** The keyword arguments `fetch` builds: a `folder_id` query parameter
      moves into the JSON body, then a truthy `data` is merged into the body
      and wins on clashing keys (`dict.update`). Only dict payloads are
      merged; any other truthy payload is an error. The caller's parameters
      are a value here, so the `pop` cannot reach them. */
  function ShapeRequest(params: map<string, Value>, data: Value): (r: Result<FetchRequest>)
    ensures r.Failure? <==> Truthy(data) && !data.VObj?
    ensures r.Success? ==> r.value.params == params - {"folder_id"}
    ensures r.Success? ==>
      r.value.body.Keys == (if "folder_id" in params then {"folder_id"} else {}) + (if Truthy(data) then data.fields.Keys else {})
    ensures r.Success? && Truthy(data) ==>
      forall k :: k in data.fields ==> r.value.body[k] == data.fields[k]
    ensures r.Success? && "folder_id" in params && !(Truthy(data) && "folder_id" in data.fields) ==>
      r.value.body["folder_id"] == params["folder_id"]
  {
    var body := if "folder_id" in params then map["folder_id" := params["folder_id"]] else map[];
    if !Truthy(data) then Success(FetchRequest(params - {"folder_id"}, body))
    else if data.VObj? then Success(FetchRequest(params - {"folder_id"}, body + data.fields))
    else Failure(TypeError)
  }

  /** json.loads over the frames in order, up to the first frame that does
      not parse: the documents yielded before it, and whether one failed. */
  function ParseFrames(frames: seq<Bytes>, parse: Bytes -> Option<Value>): (r: (seq<Value>, bool))
    ensures |r.0| <= |frames|
    ensures !r.1 ==> |r.0| == |frames|
    ensures r.1 ==> |r.0| < |frames| && parse(frames[|r.0|]).None?
    ensures forall i :: 0 <= i < |r.0| ==> parse(frames[i]) == Some(r.0[i])
  {
    if frames == [] then ([], false)
    else match parse(frames[0])
      case None => ([], true)
      case Some(doc) =>
        var rest := ParseFrames(frames[1..], parse);
        ([doc] + rest.0, rest.1)
  }

  class StreamedAnnotations {
    const callback: Option<Value -> Value>
    const mapFunction: Option<seq<int> -> Value>
    var annotations: seq<Value>
    var itemsDownloaded: nat
    /** The files `_store_annotation` wrote, in order. */
    var written: seq<StoredFile>

    constructor (callback: Option<Value -> Value>, mapFunction: Option<seq<int> -> Value>)
      ensures this.callback == callback && this.mapFunction == mapFunction
      ensures annotations == [] && itemsDownloaded == 0 && written == []
    {
      this.callback := callback;
      this.mapFunction := mapFunction;
      annotations := [];
      itemsDownloaded := 0;
      written := [];
    }

    /** `self._callback(annotation) if self._callback else annotation`. */
    function Apply(doc: Value): Value
    {
      match callback
      case Some(f) => f(doc)
      case None => doc
    }

    /** `_process_data`: the mapped payload when there are ids and a mapper,
        the id list itself otherwise. */
    function ProcessData(ids: seq<int>): (r: Value)
      ensures ids != [] && mapFunction.Some? ==> r == mapFunction.value(ids)
      ensures ids == [] || mapFunction.None? ==> r == IntList(ids) && (Truthy(r) <==> ids != [])
    {
      if ids != [] && mapFunction.Some? then mapFunction.value(ids) else IntList(ids)
    }

    /** `fetch`: shape the request, send it through the retrying session
        (without a `data` argument), decode the body into frames and parse
        them in order. Returns the request, the documents yielded and the
        exception that ended the stream, if any. json.loads runs on each frame
        as the decoder emits it; reading a chunk has no effect the model can
        observe, so parsing after decoding yields the same documents and the
        same first failure. */
    method Fetch(params: map<string, Value>, data: Value, reply: nat -> Retry.Reply,
                 body: seq<Bytes>, parse: Bytes -> Option<Value>)
      returns (sent: Result<FetchRequest>, docs: seq<Value>, err: Option<Error>)
      ensures sent == ShapeRequest(params, data)
      ensures sent.Failure? ==> docs == [] && err == Some(sent.error)
      ensures sent.Success? && Retry.Retrying(reply, Retry.NoData, 0).0.Failure? ==>
        docs == [] && err == Some(Retry.Retrying(reply, Retry.NoData, 0).0.error)
      ensures sent.Success? && Retry.Retrying(reply, Retry.NoData, 0).0.Success? ==>
        (docs, err.Some?) == ParseFrames(StreamFrames(Concat(body), Delimiter), parse)
        && (err.Some? ==> err == Some(ParseError))
    {
      docs := [];
      sent := ShapeRequest(params, data);
      if sent.Failure? {
        return sent, [], Some(sent.error);
      }
      var status, _ := Retry.Request(reply, Retry.NoData);
      if status.Failure? {
        return sent, [], Some(status.error);
      }
      var frames := DecodeFrames(body, Delimiter);
      var i := 0;
      while i < |frames|
        invariant 0 <= i <= |frames|
        invariant ParseFrames(frames[..i], parse) == (docs, false)
      {
        var doc := parse(frames[i]);
        if doc.None? {
          ParseStops(frames, i, parse);
          return sent, docs, Some(ParseError);
        }
        ParseExtends(frames, i, parse);
        docs := docs + [doc.value];
        i := i + 1;
      }
      assert frames[..i] == frames;
      err := None;
    }

    /** `list_annotations`: the `limit` hint is the number of ids, set on a
        copy of the caller's parameters; the result holds one entry per
        decoded frame, in stream order, each passed through the callback. */
    method ListAnnotations(ids: seq<int>, params: map<string, Value>, reply: nat -> Retry.Reply,
                           body: seq<Bytes>, parse: Bytes -> Option<Value>)
      returns (r: Result<seq<Value>>, sent: Result<FetchRequest>)
      ensures sent == ShapeRequest(params["limit" := VInt(|ids|)], ProcessData(ids))
      ensures r.Success? ==> sent.Success? && Retry.Retrying(reply, Retry.NoData, 0).0.Success?
      ensures r.Success? ==>
        var frames := StreamFrames(Concat(body), Delimiter);
        |r.value| == |frames|
        && forall i :: 0 <= i < |frames| ==> parse(frames[i]).Some? && r.value[i] == Apply(parse(frames[i]).value)
      ensures sent.Success? && Retry.Retrying(reply, Retry.NoData, 0).0.Success? ==>
        (r.Failure? <==> ParseFrames(StreamFrames(Concat(body), Delimiter), parse).1)
    {
      var query := params["limit" := VInt(|ids|)];
      var docs, err;
      sent, docs, err := Fetch(query, ProcessData(ids), reply, body, parse);
      var annotations := ApplyAll(docs);
      if err.Some? {
        return Failure(err.value), sent;
      }
      r := Success(annotations);
    }

    /** The documents of a listing, each passed through the callback, in order. */
    method ApplyAll(docs: seq<Value>) returns (annotations: seq<Value>)
      ensures |annotations| == |docs| && forall j :: 0 <= j < |docs| ==> annotations[j] == Apply(docs[j])
    {
      annotations := [];
      var i := 0;
      while i < |docs|
        invariant 0 <= i <= |docs| && |annotations| == i
        invariant forall j :: 0 <= j < i ==> annotations[j] == Apply(docs[j])
      {
        annotations := annotations + [Apply(docs[i])];
        i := i + 1;
      }
    }

    /** `log` is `before` followed by one file per document of `docs[..n]`,
        stored under its metadata name with the callback applied. */
    predicate Logged(before: seq<StoredFile>, log: seq<StoredFile>, path: string, docs: seq<Value>, n: nat)
    {
      n <= |docs| && |log| == |before| + n && log[..|before|] == before
      && forall j :: 0 <= j < n ==>
           MetadataName(docs[j]).Success? && log[|before| + j] == StoredFile(path, MetadataName(docs[j]).value, Apply(docs[j]))
    }

    /** `anns` is `before` followed by the documents of `docs[..n]` with the
        callback applied. */
    predicate Collected(before: seq<Value>, anns: seq<Value>, docs: seq<Value>, n: nat)
    {
      n <= |docs| && |anns| == |before| + n && anns[..|before|] == before
      && forall j :: 0 <= j < n ==> anns[|before| + j] == Apply(docs[j])
    }

    /** The consuming loop of `download_annotations`: for every document,
        in order, append it (through the callback) to `_annotations`, write
        it to `<path>/<metadata.name>.json` and count it. A document without
        `metadata.name` stops the loop after its append and before its
        count. */
    method StoreAll(path: string, docs: seq<Value>) returns (failed: Option<Error>)
      modifies this
      ensures old(itemsDownloaded) <= itemsDownloaded
      ensures Logged(old(written), written, path, docs, itemsDownloaded - old(itemsDownloaded))
      ensures |old(annotations)| <= |annotations|
      ensures Collected(old(annotations), annotations, docs, |annotations| - |old(annotations)|)
      ensures failed.None? <==> forall j :: 0 <= j < |docs| ==> MetadataName(docs[j]).Success?
      ensures failed.None? ==> itemsDownloaded == old(itemsDownloaded) + |docs| && |annotations| == |old(annotations)| + |docs|
      ensures failed.Some? ==> |annotations| - |old(annotations)| == itemsDownloaded - old(itemsDownloaded) + 1
    {
      ghost var base := itemsDownloaded;
      ghost var files := written;
      ghost var before := annotations;
      var i := 0;
      while i < |docs|
        invariant 0 <= i <= |docs| && itemsDownloaded == base + i
        invariant |written| == |files| + i && written[..|files|] == files
        invariant forall j :: 0 <= j < i ==>
          MetadataName(docs[j]).Success? && written[|files| + j] == StoredFile(path, MetadataName(docs[j]).value, Apply(docs[j]))
        invariant |annotations| == |before| + i && annotations[..|before|] == before
        invariant forall j :: 0 <= j < i ==> annotations[|before| + j] == Apply(docs[j])
      {
        annotations := annotations + [Apply(docs[i])];
        var name := MetadataName(docs[i]);
        if name.Failure? {
          assert Logged(files, written, path, docs, i);
          assert Collected(before, annotations, docs, i + 1);
          return Some(name.error);
        }
        written := written + [StoredFile(path, name.value, Apply(docs[i]))];
        itemsDownloaded := itemsDownloaded + 1;
        i := i + 1;
      }
      assert Logged(files, written, path, docs, i);
      assert Collected(before, annotations, docs, i);
      failed := None;
    }

    /** `download_annotations`: fetch the batch with the `limit` hint, store
        every document the stream yields, then re-raise the exception that
        ended the stream, if any. */
    method DownloadAnnotations(path: string, ids: seq<int>, params: map<string, Value>,
                               reply: nat -> Retry.Reply, body: seq<Bytes>, parse: Bytes -> Option<Value>)
      returns (r: Result<()>, sent: Result<FetchRequest>, docs: seq<Value>)
      modifies this
      ensures sent == ShapeRequest(params["limit" := VInt(|ids|)], ProcessData(ids))
      ensures sent.Success? && Retry.Retrying(reply, Retry.NoData, 0).0.Success? ==>
        docs == ParseFrames(StreamFrames(Concat(body), Delimiter), parse).0
      ensures r.Success? <==>
        sent.Success? && Retry.Retrying(reply, Retry.NoData, 0).0.Success?
        && !ParseFrames(StreamFrames(Concat(body), Delimiter), parse).1
        && forall j :: 0 <= j < |docs| ==> MetadataName(docs[j]).Success?
      ensures sent.Failure? || Retry.Retrying(reply, Retry.NoData, 0).0.Failure? ==>
        docs == [] && annotations == old(annotations) && written == old(written)
        && itemsDownloaded == old(itemsDownloaded)
      ensures old(itemsDownloaded) <= itemsDownloaded
      ensures Logged(old(written), written, path, docs, itemsDownloaded - old(itemsDownloaded))
      ensures |old(annotations)| <= |annotations|
      ensures Collected(old(annotations), annotations, docs, |annotations| - |old(annotations)|)
      ensures r.Success? ==> itemsDownloaded == old(itemsDownloaded) + |docs| && |annotations| == |old(annotations)| + |docs|
    {
      var err;
      sent, docs, err := Fetch(params["limit" := VInt(|ids|)], ProcessData(ids), reply, body, parse);
      r := StoreFetched(path, docs, err);
    }

    /** The storing half of `download`: every yielded document is stored,
        the first one without a name ends it, and the fetch error, if any,
        is raised after the documents it let through. */
    method StoreFetched(path: string, docs: seq<Value>, err: Option<Error>) returns (r: Result<()>)
      modifies this
      ensures r.Success? <==> err.None? && forall j :: 0 <= j < |docs| ==> MetadataName(docs[j]).Success?
      ensures docs == [] ==> annotations == old(annotations) && written == old(written) && itemsDownloaded == old(itemsDownloaded)
      ensures old(itemsDownloaded) <= itemsDownloaded
      ensures Logged(old(written), written, path, docs, itemsDownloaded - old(itemsDownloaded))
      ensures |old(annotations)| <= |annotations|
      ensures Collected(old(annotations), annotations, docs, |annotations| - |old(annotations)|)
      ensures r.Success? ==> itemsDownloaded == old(itemsDownloaded) + |docs| && |annotations| == |old(annotations)| + |docs|
    {
      if docs == [] {
        assert written[..|written|] == written && annotations[..|annotations|] == annotations;
        return if err.Some? then Failure(err.value) else Success(());
      }
      var failed := StoreAll(path, docs);
      if failed.Some? {
        return Failure(failed.value);
      }
      if err.Some? {
        return Failure(err.value);
      }
      r := Success(());
    }
  }

  lemma {:induction false} ParseExtends(frames: seq<Bytes>, i: nat, parse: Bytes -> Option<Value>)
    requires i < |frames| && parse(frames[i]).Some?
    requires !ParseFrames(frames[..i], parse).1
    ensures ParseFrames(frames[..i + 1], parse) == (ParseFrames(frames[..i], parse).0 + [parse(frames[i]).value], false)
    decreases i
  {
    if i > 0 {
      var d0 := parse(frames[0]);
      assert frames[..i][0] == frames[0] == frames[..i + 1][0];
      assert frames[..i + 1][1..] == frames[1..][..i];
      assert frames[..i][1..] == frames[1..][..i - 1];
      assert d0.Some?;
      assert ParseFrames(frames[..i], parse) ==
        ([d0.value] + ParseFrames(frames[1..][..i - 1], parse).0, ParseFrames(frames[1..][..i - 1], parse).1);
      ParseExtends(frames[1..], i - 1, parse);
      assert frames[1..][i - 1] == frames[i];
      var tail := ParseFrames(frames[1..][..i - 1], parse).0;
      assert ParseFrames(frames[..i + 1], parse) == ([d0.value] + (tail + [parse(frames[i]).value]), false);
      assert [d0.value] + (tail + [parse(frames[i]).value]) == ([d0.value] + tail) + [parse(frames[i]).value];
    } else {
      assert frames[..0] == [];
      assert frames[..1] == [frames[0]];
      assert frames[..1][1..] == [];
      var doc := parse(frames[0]).value;
      assert ParseFrames(frames[..1], parse) == ([doc] + ParseFrames([], parse).0, ParseFrames([], parse).1);
      assert [doc] + [] == [] + [doc];
    }
  }

  lemma {:induction false} ParseStops(frames: seq<Bytes>, i: nat, parse: Bytes -> Option<Value>)
    requires i < |frames| && parse(frames[i]).None?
    requires !ParseFrames(frames[..i], parse).1
    ensures ParseFrames(frames, parse) == (ParseFrames(frames[..i], parse).0, true)
    decreases i
  {
    if i > 0 {
      assert frames[..i][1..] == frames[1..][..i - 1];
      ParseStops(frames[1..], i - 1, parse);
    }
  }

  /** An empty frame is handed to json.loads: a body that is a lone
      delimiter, with a parser that rejects empty input, fails the list call
      instead of yielding nothing. Only the remainder after the last
      delimiter is skipped when empty. */
  lemma LoneDelimiterFails(parse: Bytes -> Option<Value>)
    requires parse([]).None?
    ensures ParseFrames(StreamFrames(Delimiter, Delimiter), parse) == ([], true)
  {
    EmptyInnerFrameKept(Delimiter);
  }
}

=== FILE: subsets.dfy ===
/** `SubsetRepository.add_items` (infrastructure/repositories/subset_repository.py):
    what attaching items to a subset reports back, computed from the
    server's reply with set arithmetic. */
module Subsets {
  import opened Wrappers
  import opened Json
  import Session

  /** The `(succeeded, skipped, failed)` triple. `succeeded` comes from
      `list(set(...))`, whose order Python leaves to hashing, so it is kept
      as a set; `skipped` and `failed` are the lists as returned. */
  datatype Added = Added(succeeded: set<int>, skipped: Value, failed: Value)

  /** `set(v)` on a decoded value, its elements taken by `HashKey`: a string
      gives its characters, an object its keys, a list its elements when
      they are all hashable; anything else is a TypeError. */
  function SetOf(v: Value): (r: Result<set<Value>>)
    ensures r.Success? <==>
      v.VStr? || v.VObj? || (v.VList? && forall k :: 0 <= k < |v.items| ==> Hashable(v.items[k]))
    ensures r.Failure? ==> r.error == TypeError
    ensures v.VList? && r.Success? ==>
      forall x :: x in r.value <==> exists k :: 0 <= k < |v.items| && HashKey(v.items[k]) == x
    ensures v.VStr? ==>
      forall x :: x in r.value <==> exists k :: 0 <= k < |v.s| && x == VStr([v.s[k]])
    ensures v.VObj? ==> forall x :: x in r.value <==> x.VStr? && x.s in v.fields
  {
    match v
    case VStr(s) => Success(set c | c in s :: VStr([c]))
    case VObj(fields) => Success(set k | k in fields :: VStr(k))
    case VList(items) =>
      if forall k :: 0 <= k < |items| ==> Hashable(items[k])
      then Success(set x | x in items :: HashKey(x))
      else Failure(TypeError)
    case _ => Failure(TypeError)
  }

  /** `add_items` once the reply is in: a non-OK reply reports every
      requested id as skipped; otherwise the ids in neither the skipped nor
      the failed set succeeded, and the server's values are passed on as
      sent. */
  function AddItems(itemIds: seq<int>, resp: Session.Response): (r: Result<Added>)
    ensures !Session.IsOk(resp.status) ==> r == Success(Added({}, IntList(itemIds), VList([])))
    ensures Session.IsOk(resp.status) ==>
      (r.Success? <==>
        && Get(resp.body, "skipped").Success? && SetOf(resp.body.fields["skipped"]).Success?
        && Get(resp.body, "failed").Success? && SetOf(resp.body.fields["failed"]).Success?)
    ensures Session.IsOk(resp.status) && r.Failure? ==>
      r.error == TypeError || Get(resp.body, "skipped").Failure? || Get(resp.body, "failed").Failure?
    ensures Session.IsOk(resp.status) && r.Success? ==>
      r.value.skipped == resp.body.fields["skipped"] && r.value.failed == resp.body.fields["failed"]
    ensures Session.IsOk(resp.status) && r.Success? ==>
      forall i :: i in r.value.succeeded <==>
        i in itemIds && VInt(i) !in SetOf(r.value.skipped).value && VInt(i) !in SetOf(r.value.failed).value
  {
    if !Session.IsOk(resp.status) then Success(Added({}, IntList(itemIds), VList([])))
    else
      var skipped :- Get(resp.body, "skipped");
      var skippedSet :- SetOf(skipped);
      var failed :- Get(resp.body, "failed");
      var failedSet :- SetOf(failed);
      var dropped := skippedSet + failedSet;
      Success(Added((set i | i in itemIds && VInt(i) !in dropped), skipped, failed))
  }

  /** A reported list names id `i` when one of its elements equals it in
      Python; a string's characters and an object's keys never do. */
  predicate Mentions(v: Value, i: int)
  {
    v.VList? && exists k :: 0 <= k < |v.items| && HashKey(v.items[k]) == VInt(i)
  }

  lemma SetOfMentions(v: Value, i: int)
    requires SetOf(v).Success?
    ensures VInt(i) in SetOf(v).value <==> Mentions(v, i)
  {
  }

  /** On an OK reply every requested id is reported exactly once as
      succeeded or among the skipped and failed ids, and nothing else
      succeeds. */
  lemma AddItemsPartition(itemIds: seq<int>, resp: Session.Response)
    requires Session.IsOk(resp.status) && AddItems(itemIds, resp).Success?
    ensures var a := AddItems(itemIds, resp).value;
      && a.succeeded <= (set i | i in itemIds)
      && forall i :: i in itemIds ==>
           (i in a.succeeded <==> !(Mentions(a.skipped, i) || Mentions(a.failed, i)))
  {
    var a := AddItems(itemIds, resp).value;
    forall i | i in itemIds
      ensures i in a.succeeded <==> !(Mentions(a.skipped, i) || Mentions(a.failed, i))
    {
      SetOfMentions(a.skipped, i);
      SetOfMentions(a.failed, i);
    }
  }

  /** `True` in the skipped list drops item 1, as `1 == True` in Python. */
  lemma AddItemsBoolSkips(body: Value)
    requires body == VObj(map["skipped" := VList([VBool(true)]), "failed" := VList([])])
    ensures AddItems([0, 1], Session.Response(200, body)) == Success(Added({0}, VList([VBool(true)]), VList([])))
  {
    var a := AddItems([0, 1], Session.Response(200, body)).value;
    SetOfMentions(VList([VBool(true)]), 0);
    SetOfMentions(VList([VBool(true)]), 1);
    assert HashKey(VList([VBool(true)]).items[0]) == VInt(1);
    assert a.succeeded == {0};
  }

  /** A reply that rejects the call leaves nothing attached. */
  lemma AddItemsRejected(itemIds: seq<int>, status: int, body: Value)
    requires !Session.IsOk(status)
    ensures AddItems(itemIds, Session.Response(status, body)).value.succeeded == {}
    ensures AddItems(itemIds, Session.Response(status, body)).value.skipped.items == IntList(itemIds).items
  {
  }
}

=== FILE: wrappers.dfy ===
/** Option and Result, the shapes every operation of the model returns. */
module Wrappers {

  datatype Option<+T> = None | Some(value: T)

  /** The exceptions the modelled code can raise, by Python class. */
  datatype Error =
    | KeyError(key: string)           // a missing dict key
    | TypeError                       // e.g. indexing a list with a string key
    | AttributeError(name: string)    // a missing method or attribute
    | ValueError                      // an enum lookup by value that found nothing
    | HttpError(status: int)          // raise_for_status / ClientResponseError
    | TransportError                  // aiohttp.ClientError / requests.RequestException
    | ParseError                      // json.loads on a frame that is not JSON
    | ValidationError(msg: string)    // SAValidationException
    | InvalidInput(msg: string)       // SAInvalidInput
    | CoercionError(field: string)    // a field constructor that rejected its value

  datatype Result<+T> = Success(value: T) | Failure(error: Error)
  {
    predicate IsFailure() { Failure? }

    function PropagateFailure<U>(): Result<U>
      requires Failure?
    {
      Failure(error)
    }

    function Extract(): T
      requires Success?
    {
      value
    }
  }

  /** A loop driven by replies from the network: it ends with a result, or
      the finite sequence of replies the model was given ran out first. */
  datatype Run<+T> = Finished(result: Result<T>) | OutOfReplies
}
